=== FILE: README.md ===
# Cogwyrm MQTT plugin — a Dafny model

Cogwyrm is an Android Tasker plugin that publishes and subscribes to MQTT topics through
the Eclipse Paho client. This project models its core as pure Dafny definitions and
proves properties about them. The core covers:

- **Topic rules.** `TopicUtils` validates topics and matches topic filters. The event
  runner has its own, simpler matcher.
- **Configuration checks.** These are the event helper's validation stages, the
  `ErrorHandler` validators, the mapping from Paho reason codes to error categories,
  the publish action's validity check, and the validation of the `madness.cogwyrm`
  action helper.
- **Tasker records.** These are the event input and output, which round-trip through an
  Android `Bundle` (a map from key to typed value).
- **`MQTTClient` wrapper.** It has a back-off reconnect, network-callback flags, a
  callback map keyed by topic, and a server URI builder.
- **Service state machines.** There are four of them:
  - `com.cogwyrm.app.mqtt.MQTTService` (Paho client and suspended calls);
  - `com.cogwyrm.app.MQTTService` (built on the wrapper);
  - `com.madness.cogwyrm.MQTTService`;
  - `com.madness.mqttcommander.MQTTService`.
- **Tasker event receiver.** It has a registry of subscriptions and does teardown.
- **Publish-action configuration screen.** It validates input, gathers it from the text
  fields, tests the connection, generates client ids and writes the blurb.

Every service is a transition function `Step(state, event)`. It returns the new state,
the calls made on the client (`Wire.Call`, or a service-specific effect) and, where the
source has one, how the call ended for its caller. Whatever the network or the broker
decides comes in as a parameter of the event: a reply `Succeeded`/`Failed`, or a
three-way reply where the source can also throw. The same goes for the clock, random
UUIDs and Android string resources (`StringRes` plus a `getString` function). Some
methods of a service can only run once a client exists, such as Paho's `messageArrived`
and `connectionLost`. Those events do nothing while the service has no client.

Files, one module each (`base.dfy` holds two modules):

| file | module | models |
|---|---|---|
| base.dfy | `Base`, `Text` | Option/Result, `Last`; Kotlin `split`, `isBlank`, `toIntOrNull`, `Int.toString` |
| wire.dfy | `Wire` | Paho calls, `MqttConnectOptions` defaults, `scheme://host:port` |
| errors.dfy | `Errors` | `CogwyrmError`, Tasker results |
| bundle.dfy | `Bundle` | Android `Bundle` getters and setters |
| topic_utils.dfy | `TopicUtils` | `mqtt/TopicUtils.kt` |
| event_runner.dfy | `MQTTEventRunner` | `tasker/MQTTEventRunner.kt` |
| event_helper.dfy | `MQTTEventHelper` | `tasker/MQTTEventHelper.kt` |
| error_handler.dfy | `ErrorHandler` | `utils/ErrorHandler.kt` |
| tasker_action.dfy | `MQTTTaskerAction` | `tasker/MQTTTaskerAction.kt` |
| action_helper.dfy | `MadnessActionHelper` | `madness/cogwyrm/tasker/MQTTTaskerAction.kt` |
| event_input.dfy | `MQTTEventInput` | `tasker/MQTTEventInput.kt` |
| event_output.dfy | `MQTTEventOutput` | `tasker/MQTTEventOutput.kt` |
| mqtt_client.dfy | `MQTTClient` | `mqtt/MQTTClient.kt` |
| mqtt_service.dfy | `MqttPackageService` | `mqtt/MQTTService.kt` |
| app_service.dfy | `AppService` | `com/cogwyrm/app/MQTTService.kt` |
| cogwyrm_service.dfy | `CogwyrmService` | `madness/cogwyrm/MQTTService.kt` |
| commander_service.dfy | `CommanderService` | `madness/mqttcommander/MQTTService.kt` |
| event_receiver.dfy | `MQTTEventReceiver` | `tasker/MQTTEventReceiver.kt` |
| config_activity.dfy | `MQTTConfigActivity` | `tasker/MQTTConfigActivity.kt` |

The package `com.cogwyrm.app.tasker` declares `MQTTEventInput` twice:

- `MQTTEventInput.kt` declares eight fields and `validate()`. The module `MQTTEventInput`
  models it.
- `MQTTTaskerAction.kt:34-51` adds `payload` and declares `isValid()`. It is modelled as
  `MQTTTaskerAction.ActionInput`, and the publish-action configuration screen builds it.
- The event helper reads fields that neither declares (`useSSL`, `cleanSession`,
  `keepAlive`, `connectionTimeout`). `MQTTEventHelper.EventConfig` holds them as the
  helper reads them.

Behaviour the code has that its comments and tests do not promise is modelled as the
code has it. The differences are:

- `#` in the event runner's matcher stands for exactly one level.
- The `madness.cogwyrm` service and the commander service do not reconnect after a lost
  connection.
- In `mqtt/MQTTService.kt`, `subscribe` never replaces an existing entry.
- Disconnecting the wrapper leaves its connected flag set.
- Only the first connection loss ever schedules a reconnect, because the wrapper never
  clears `isRetrying` and never counts `retryAttempts`.
- `ErrorHandler.validateTopic` checks no topic syntax.

Each of these is stated as a lemma below.

## Model

| member | source | states |
|---|---|---|
| TopicUtils.ValidTopicShape | app/src/main/java/com/cogwyrm/app/mqtt/TopicUtils.kt:15-45 | A topic is valid if and only if it is non-empty, has no U+0000, and its level list is well shaped: only the first level may be empty, no level but the last contains `#`, and every wildcard character is its whole level |
| TopicUtils.LevelAcceptedShape | app/src/main/java/com/cogwyrm/app/mqtt/TopicUtils.kt:23-41 | The `when` over one level accepts it if and only if it is non-empty (unless first), holds no `#` unless last, and holds wildcard characters only as the whole level |
| TopicUtils.StandAloneWildcards | app/src/main/java/com/cogwyrm/app/mqtt/TopicUtils.kt:28-40 | A level whose wildcard characters stand alone contains `+` only as `+` and `#` only as `#` |
| TopicUtils.TopicMatchesPattern | app/src/main/java/com/cogwyrm/app/mqtt/TopicUtils.kt:53-62 | A match requires both the pattern and the topic to be valid topics |
| TopicUtils.MatchFromSpec | app/src/main/java/com/cogwyrm/app/mqtt/TopicUtils.kt:64-95 | The two-index matching loop, started at any level, matches if and only if either (a) a `#` is reached after a stretch of pairwise-matching levels while a topic level remains, or (b) both lists end together with every pair matching |
| TopicUtils.MatchLevelsSpec | app/src/main/java/com/cogwyrm/app/mqtt/TopicUtils.kt:64-95 | `matchLevels` is equivalent to that declarative matching relation over whole level lists |
| TopicUtils.MatchLevelsReflexive | app/src/main/java/com/cogwyrm/app/mqtt/TopicUtils.kt:64-95 | Every level list matches itself |
| TopicUtils.MatchWithoutHash | app/src/main/java/com/cogwyrm/app/mqtt/TopicUtils.kt:64-95 | With no `#` level, a match needs equal level counts, and each pattern level must be `+` or equal to the topic level |
| TopicUtils.MatchTrailingHash | app/src/main/java/com/cogwyrm/app/mqtt/TopicUtils.kt:72-74 | A trailing `#` needs the prefix to match and at least one further topic level |
| TopicUtils.TopicMatchesItself | app/src/main/java/com/cogwyrm/app/mqtt/TopicUtils.kt:53-62 | A topic matches itself exactly when it is valid |
| TopicUtils.NoHashSameLevelCount | app/src/main/java/com/cogwyrm/app/mqtt/TopicUtils.kt:53-95 | A pattern without `#` matches only topics with as many levels |
| TopicUtils.EmptyLevelExamples | app/src/main/java/com/cogwyrm/app/mqtt/TopicUtils.kt:16-26 | `""`, `a//b`, `a/` and `/` are rejected; a leading empty level (`/a`) is accepted |
| TopicUtils.HashExamples | app/src/main/java/com/cogwyrm/app/mqtt/TopicUtils.kt:28-33 | `a/#` and `test/#` are valid; `a/#/b`, `a/b#` and `test/#/temp` are not |
| TopicUtils.PlusExamples | app/src/main/java/com/cogwyrm/app/mqtt/TopicUtils.kt:35-40 | `a/+/b` is valid; `++` and `a+` are not |
| TopicUtils.DocPlusExample | app/src/main/java/com/cogwyrm/app/mqtt/TopicUtils.kt:47-51 | The documented example holds: `home/+/temperature` matches `home/kitchen/temperature` |
| TopicUtils.DocHashExample | app/src/main/java/com/cogwyrm/app/mqtt/TopicUtils.kt:47-51 | The documented example holds: `home/#` matches `home/kitchen/temperature` |
| TopicUtils.MismatchExamples | app/src/main/java/com/cogwyrm/app/mqtt/TopicUtils.kt:82-89 | Literal levels compare case-sensitively, and a differing last level fails |
| TopicUtils.HashParentExamples | app/src/main/java/com/cogwyrm/app/mqtt/TopicUtils.kt:68-94 | `a/#` matches `a/b/c` but not its parent `a` |
| TopicUtils.DollarTopicExamples | app/src/main/java/com/cogwyrm/app/mqtt/TopicUtils.kt:53-95 | `#` and `+/broker` both match `$SYS/broker`, because no `$` rule exists |
| MQTTEventRunner.IsTopicMatch | app/src/main/java/com/cogwyrm/app/tasker/MQTTEventRunner.kt:68-77 | A match implies equal level counts |
| MQTTEventRunner.ZipAllSpec | app/src/main/java/com/cogwyrm/app/tasker/MQTTEventRunner.kt:74-76 | `zip(...).all` holds if and only if every pair over the common prefix is compatible |
| MQTTEventRunner.IsTopicMatchSpec | app/src/main/java/com/cogwyrm/app/tasker/MQTTEventRunner.kt:68-77 | A match holds if and only if the level counts are equal and each subscribed level is `#`, `+` or equal to the published level |
| MQTTEventRunner.GetSatisfiedCondition | app/src/main/java/com/cogwyrm/app/tasker/MQTTEventRunner.kt:18-28 | The condition is satisfied if and only if an update is present and its topic matches; the output is then the update's own topic and payload |
| MQTTEventRunner.IsTopicMatchReflexive | app/src/main/java/com/cogwyrm/app/tasker/MQTTEventRunner.kt:68-77 | Every string matches itself |
| MQTTEventRunner.UnvalidatedSelfMatch | app/src/main/java/com/cogwyrm/app/tasker/MQTTEventRunner.kt:68-77 | `a//b` matches itself here, although `TopicUtils` rejects it |
| MQTTEventRunner.HashIsOneLevel | app/src/main/java/com/cogwyrm/app/tasker/MQTTEventRunner.kt:72-76 | `home/#` matches `home/a` but not `home/a/b`, which `TopicUtils` does match |
| MQTTEventRunner.WildcardConditionExample | app/src/main/java/com/cogwyrm/app/tasker/MQTTEventRunner.kt:23-24 | `test/+/temp` is satisfied by an update on `test/room1/temp` and reports it unchanged |
| MQTTEventRunner.AgreesWithTopicUtilsWithoutHash | app/src/main/java/com/cogwyrm/app/tasker/MQTTEventRunner.kt:68-77 | For valid topics and a pattern without `#`, this matcher and `TopicUtils.topicMatchesPattern` agree |
| MQTTEventHelper.ValidateConnectionParams | app/src/main/java/com/cogwyrm/app/tasker/MQTTEventHelper.kt:43-56 | Passes if and only if the config avoids port 1883 with SSL and 8883 without SSL, and has keep-alive ≥ 10 and timeout ≥ 10 |
| MQTTEventHelper.ValidateSecurityParams | app/src/main/java/com/cogwyrm/app/tasker/MQTTEventHelper.kt:58-67 | Passes if and only if SSL is off or username and password are both blank or both non-blank |
| MQTTEventHelper.ValidateTopicParams | app/src/main/java/com/cogwyrm/app/tasker/MQTTEventHelper.kt:69-80 | Passes if and only if (a) a topic containing `#`, `+` or `/` passes the wildcard check and (b) a topic with `#` uses QoS ≤ 1 |
| MQTTEventHelper.ValidateConfiguration | app/src/main/java/com/cogwyrm/app/tasker/MQTTEventHelper.kt:31-41 | Passes if and only if the basic check and all three stages pass |
| MQTTEventHelper.IsInputValid | app/src/main/java/com/cogwyrm/app/tasker/MQTTEventHelper.kt:17-29 | Success if and only if validation passes; otherwise an error carrying the first failing stage's message |
| MQTTEventHelper.AllPartsWellFormedSpec | app/src/main/java/com/cogwyrm/app/tasker/MQTTEventHelper.kt:91-99 | The early-return loop holds if and only if every part is a bare wildcard or contains no wildcard character |
| MQTTEventHelper.ValidWildcardTopicSpec | app/src/main/java/com/cogwyrm/app/tasker/MQTTEventHelper.kt:82-102 | `isValidWildcardTopic` holds if and only if `#` appears only as the last level and every level with `+` or `#` is exactly that wildcard |
| MQTTEventHelper.InvalidTopicFormatExactly | app/src/main/java/com/cogwyrm/app/tasker/MQTTEventHelper.kt:71-74 | "Invalid topic format" is reported exactly when the wildcard check fails |
| MQTTEventHelper.TopicUtilsValidIsWildcardValid | app/src/main/java/com/cogwyrm/app/tasker/MQTTEventHelper.kt:82-102 | Every topic `TopicUtils.validateTopic` accepts passes the wildcard check |
| MQTTEventHelper.WildcardCheckIsLooser | app/src/main/java/com/cogwyrm/app/tasker/MQTTEventHelper.kt:82-102 | The converse fails: `a//b` and `""` pass the wildcard check but not `TopicUtils` |
| MQTTEventHelper.SslPortPairing | app/src/main/java/com/cogwyrm/app/tasker/MQTTEventHelper.kt:44-49 | 1883 with SSL and 8883 without SSL are each rejected with their own message |
| MQTTEventHelper.NoCredentialCheckWithoutSsl | app/src/main/java/com/cogwyrm/app/tasker/MQTTEventHelper.kt:58-67 | Without SSL, the credential pairing is not checked |
| MQTTEventHelper.BasicCheckFirst | app/src/main/java/com/cogwyrm/app/tasker/MQTTEventHelper.kt:33-35 | A failing basic check is reported as "Invalid configuration", whatever else is wrong |
| MQTTEventHelper.GetDefaultInput | app/src/main/java/com/cogwyrm/app/tasker/MQTTEventHelper.kt:104-110 | The default input has a fresh client id, a clean session and QoS 1; broker, port, topic, SSL, credentials, keep-alive and timeout are the constructor defaults |
| MQTTEventHelper.DefaultInputStages | app/src/main/java/com/cogwyrm/app/tasker/MQTTEventHelper.kt:43-110 | The default input passes the connection and security stages exactly when the constructor defaults do, and its QoS 1 never trips the `#` QoS rule |
| ErrorHandler.HandleMqttException | app/src/main/java/com/cogwyrm/app/utils/ErrorHandler.kt:44-63 | Known reason codes give a connection error and any other code gives an unknown error; the message is the resource text for the code |
| ErrorHandler.ReasonResourceIdentifiesCode | app/src/main/java/com/cogwyrm/app/utils/ErrorHandler.kt:45-58 | The reported resource is "unknown" exactly for codes without a branch; "lost", "auth failed" and "ssl failed" each come from exactly one code; two different known codes share a resource only when it is "connection failed" |
| ErrorHandler.ReasonCategories | app/src/main/java/com/cogwyrm/app/utils/ErrorHandler.kt:45-58 | Codes 0, 32110 and 32103 mean "connection failed"; 32109 means lost, 4 auth failed, 32106 SSL failed; all other codes are unknown |
| ErrorHandler.CreateTaskerError | app/src/main/java/com/cogwyrm/app/utils/ErrorHandler.kt:65-67 | The result is a Tasker error carrying the error's message |
| ErrorHandler.HandledExceptionReachesTasker | app/src/main/java/com/cogwyrm/app/utils/ErrorHandler.kt:44-67 | A handled Paho failure reaches Tasker with its resource text |
| ErrorHandler.ValidateBrokerUrl | app/src/main/java/com/cogwyrm/app/utils/ErrorHandler.kt:85-91 | Rejected if and only if null or blank; otherwise the URL is returned unchanged |
| ErrorHandler.ValidatePort | app/src/main/java/com/cogwyrm/app/utils/ErrorHandler.kt:93-106 | Blank gives "port required", unreadable or out-of-range gives "port invalid"; accepted if and only if it parses to 1..65535, and the parsed value is returned |
| ErrorHandler.ValidatePortAcceptsRange | app/src/main/java/com/cogwyrm/app/utils/ErrorHandler.kt:93-106 | Every port 1..65535 written in decimal reads back as itself |
| ErrorHandler.ValidatePortRejectsOutOfRange | app/src/main/java/com/cogwyrm/app/utils/ErrorHandler.kt:100-102 | Every other `Int` written in decimal is "port invalid" |
| ErrorHandler.ValidateTopic | app/src/main/java/com/cogwyrm/app/utils/ErrorHandler.kt:108-114 | Rejected if and only if null or blank; otherwise returned unchanged |
| ErrorHandler.ValidateMessage | app/src/main/java/com/cogwyrm/app/utils/ErrorHandler.kt:116-121 | Rejected if and only if null or blank; otherwise returned unchanged |
| ErrorHandler.ValidateTopicIgnoresSyntax | app/src/main/java/com/cogwyrm/app/utils/ErrorHandler.kt:108-114 | `a/#/b` passes, although it breaks the wildcard rule |
| MQTTTaskerAction.Run | app/src/main/java/com/cogwyrm/app/tasker/MQTTTaskerAction.kt:15-31 | Success if and only if the input is valid, echoing topic and payload; otherwise "Invalid MQTT configuration" |
| MQTTTaskerAction.AssignFromInput | app/src/main/java/com/cogwyrm/app/tasker/MQTTTaskerAction.kt:63-67 | Throws if and only if the input is invalid |
| MQTTTaskerAction.AssignAgreesWithRun | app/src/main/java/com/cogwyrm/app/tasker/MQTTTaskerAction.kt:45-67 | The configuration screen refuses exactly the inputs `run` refuses |
| MQTTTaskerAction.RunIgnoresConnectionDetails | app/src/main/java/com/cogwyrm/app/tasker/MQTTTaskerAction.kt:45-51 | SSL, credentials and payload content do not change the verdict |
| MQTTTaskerAction.RunExamples | app/src/main/java/com/cogwyrm/app/tasker/MQTTTaskerAction.kt:15-31 | A complete input echoes its topic and payload; the same input with an empty broker fails |
| MadnessActionHelper.IsInputValid | app/src/main/java/com/madness/cogwyrm/tasker/MQTTTaskerAction.kt:28-36 | Success if and only if the broker URL and topic are non-empty; the broker is checked first |
| MadnessActionHelper.UncheckedFields | app/src/main/java/com/madness/cogwyrm/tasker/MQTTTaskerAction.kt:28-36 | Port, client id, message and SSL never change the verdict |
| MadnessActionHelper.DefaultInputInvalid | app/src/main/java/com/madness/cogwyrm/tasker/MQTTTaskerAction.kt:14-21 | The default input (port `"1883"`) is refused for its empty broker URL |
| MQTTEventInput.ToBundle | app/src/main/java/com/cogwyrm/app/tasker/MQTTEventInput.kt:34-45 | The bundle holds exactly the eight keys |
| MQTTEventInput.FromBundle | app/src/main/java/com/cogwyrm/app/tasker/MQTTEventInput.kt:20-31 | Missing keys give `""`, port 1883 and QoS 0 |
| MQTTEventInput.RoundTrip | app/src/main/java/com/cogwyrm/app/tasker/MQTTEventInput.kt:20-45 | `fromBundle(toBundle(x)) == x` |
| MQTTEventInput.EmptyBundleDefaults | app/src/main/java/com/cogwyrm/app/tasker/MQTTEventInput.kt:20-31 | An empty bundle gives `("", 1883, null, "", 0, false, null, null)` |
| MQTTEventInput.EmptyBundleInvalid | app/src/main/java/com/cogwyrm/app/tasker/MQTTEventInput.kt:15-31 | The empty-bundle input fails `validate` |
| MQTTEventInput.ValidateSurvivesRoundTrip | app/src/main/java/com/cogwyrm/app/tasker/MQTTEventInput.kt:15-45 | Validity is unchanged by a bundle round trip |
| MQTTEventOutput.ToBundle | app/src/main/java/com/cogwyrm/app/tasker/MQTTEventOutput.kt:10-16 | Exactly three keys, each holding its field's value |
| MQTTEventOutput.FromBundle | app/src/main/java/com/cogwyrm/app/tasker/MQTTEventOutput.kt:19-25 | Missing strings become `""`; a missing timestamp becomes the current time |
| MQTTEventOutput.RoundTrip | app/src/main/java/com/cogwyrm/app/tasker/MQTTEventOutput.kt:10-25 | The round trip is the identity, whatever the clock reads |
| MQTTEventOutput.EmptyBundleDefaults | app/src/main/java/com/cogwyrm/app/tasker/MQTTEventOutput.kt:19-25 | An empty bundle gives empty strings stamped now |
| Wire.ServerUri | app/src/main/java/com/cogwyrm/app/mqtt/MQTTService.kt:133-137 | The URI starts with `ssl://` if and only if SSL is requested and with `tcp://` otherwise, followed by `host:port` |
| MQTTClient.CalculateRetryDelay | app/src/main/java/com/cogwyrm/app/mqtt/MQTTClient.kt:39-41 | The corrected delay always lies within 1000..30000 ms |
| MQTTClient.RetryDelayValues | app/src/main/java/com/cogwyrm/app/mqtt/MQTTClient.kt:111-114 | The delay is 1 s at attempt 0 and 16 s at attempt 4, and capped at 30 s from attempt 5 on |
| MQTTClient.RetryDelayMonotone | app/src/main/java/com/cogwyrm/app/mqtt/MQTTClient.kt:111-114 | The delay never shrinks as attempts grow |
| MQTTClient.AsWrittenAgreesBelow54 | app/src/main/java/com/cogwyrm/app/mqtt/MQTTClient.kt:111-114 | The as-written delay equals the corrected one for attempts ≤ 53 |
| MQTTClient.AsWrittenNegativeAt54 | app/src/main/java/com/cogwyrm/app/mqtt/MQTTClient.kt:111-114 | At attempt 54 the `Long` product wraps and the as-written delay is negative |
| MQTTClient.BuildServerURI | app/src/main/java/com/cogwyrm/app/mqtt/MQTTClient.kt:230-238 | The URI is `scheme://host:port` with the chosen scheme |
| MQTTClient.SchemeOf | app/src/main/java/com/cogwyrm/app/mqtt/MQTTClient.kt:231-236 | An explicit `tcp://`/`ssl://` prefix decides the scheme; otherwise `useSsl` does |
| MQTTClient.ExplicitSchemeOverridesSsl | app/src/main/java/com/cogwyrm/app/mqtt/MQTTClient.kt:230-238 | A `tcp://` broker URL connects over TCP even with SSL requested |
| MQTTClient.Reconnect | app/src/main/java/com/cogwyrm/app/mqtt/MQTTClient.kt:116-126 | Does nothing while retrying; otherwise marks retrying and schedules one connect after the current delay |
| MQTTClient.ConnectOptionsFor | app/src/main/java/com/cogwyrm/app/mqtt/MQTTClient.kt:136-147 | Credentials are set if and only if both are non-empty; clean session and automatic reconnect are on |
| MQTTClient.ConnectStep | app/src/main/java/com/cogwyrm/app/mqtt/MQTTClient.kt:128-187 | Completes if and only if the URI parses and Paho's listener reports success. A failure reported to the listener is the wrapped `MQTTException("Failed to connect to broker")`. A throw from Paho's `connect` reaches the caller unwrapped, and so does an unparsable URI. Only success sets the flag, and nothing else but the client changes |
| MQTTClient.OnConnectionLost | app/src/main/java/com/cogwyrm/app/mqtt/MQTTClient.kt:152-158 | Clears the flag; notifies the listener if and only if there is one; schedules a reconnect if and only if not already retrying |
| MQTTClient.OnMessageArrived | app/src/main/java/com/cogwyrm/app/mqtt/MQTTClient.kt:160-164 | Only the callback stored under exactly the topic runs, first; the state is unchanged |
| MQTTClient.OnSubscribe | app/src/main/java/com/cogwyrm/app/mqtt/MQTTClient.kt:200-207 | The callback is stored before the wire call; failure raises if and only if there is a client, and the store stays |
| MQTTClient.OnUnsubscribe | app/src/main/java/com/cogwyrm/app/mqtt/MQTTClient.kt:209-216 | The entry is removed only after the wire call completes; a failure changes nothing |
| MQTTClient.OnPublish | app/src/main/java/com/cogwyrm/app/mqtt/MQTTClient.kt:218-228 | A QoS outside 0..2 raises `MQTTException("Failed to publish message to topic: …")` with no call, even without a client. Otherwise there is one publish call if there is a client, and it raises if and only if that call fails. The state never changes |
| MQTTClient.OnDisconnect | app/src/main/java/com/cogwyrm/app/mqtt/MQTTClient.kt:189-198 | Success drops the client and clears callbacks but keeps the connected flag; failure changes nothing |
| MQTTClient.OnNetworkAvailable | app/src/main/java/com/cogwyrm/app/mqtt/MQTTClient.kt:55-60 | Reconnects if and only if a loss was recorded |
| MQTTClient.Step | app/src/main/java/com/cogwyrm/app/mqtt/MQTTClient.kt:39-238 | Every event keeps the retry discipline: attempts fixed, flags never cleared, at most one schedule and only when not retrying, at the current delay |
| MQTTClient.AtMostOneSchedule | app/src/main/java/com/cogwyrm/app/mqtt/MQTTClient.kt:116-126 | Any run schedules at most one reconnect per client instance |
| MQTTClient.RunKeepsRetryAttempts | app/src/main/java/com/cogwyrm/app/mqtt/MQTTClient.kt:39 | No run changes `retryAttempts` |
| MQTTClient.ScheduledDelays | app/src/main/java/com/cogwyrm/app/mqtt/MQTTClient.kt:111-126 | Every delay a run schedules is the delay for the starting attempt count |
| MQTTClient.FreshClientDelaysAre1000 | app/src/main/java/com/cogwyrm/app/mqtt/MQTTClient.kt:111-126 | From a fresh client every scheduled delay is 1000 ms |
| MQTTClient.ReconnectMatchesCode | app/src/main/java/com/cogwyrm/app/mqtt/MQTTClient.kt:111-126 | Below 54 attempts, the delay a reconnect schedules is exactly the code's wrapping formula |
| MQTTClient.ScheduledDelaysMatchCode | app/src/main/java/com/cogwyrm/app/mqtt/MQTTClient.kt:111-126 | From a count of at most 53, every delay a run schedules is the code's wrapping formula |
| MQTTClient.FlagsNeverCleared | app/src/main/java/com/cogwyrm/app/mqtt/MQTTClient.kt:43-44 | Once set, `isRetrying` and `pendingReconnect` stay set for the whole run |
| MQTTClient.NetworkCallbacks | app/src/main/java/com/cogwyrm/app/mqtt/MQTTClient.kt:54-66 | `onLost` only raises `pendingReconnect`; `onAvailable` schedules if and only if that flag is raised and no retry is pending |
| MQTTClient.ConnectionLostStep | app/src/main/java/com/cogwyrm/app/mqtt/MQTTClient.kt:152-158 | A lost connection clears the flag, notifies, and schedules unless already retrying |
| MQTTClient.DisconnectKeepsConnected | app/src/main/java/com/cogwyrm/app/mqtt/MQTTClient.kt:189-198 | Disconnect never touches the connected flag |
| MQTTClient.SubscribeStoresFirst | app/src/main/java/com/cogwyrm/app/mqtt/MQTTClient.kt:200-207 | The last registration wins and survives a failed subscribe |
| MQTTClient.UnsubscribeAfterWire | app/src/main/java/com/cogwyrm/app/mqtt/MQTTClient.kt:209-216 | The entry goes only on completion |
| MQTTClient.ExactKeyDispatch | app/src/main/java/com/cogwyrm/app/mqtt/MQTTClient.kt:160-164 | A message runs only the callback stored under exactly its topic |
| MQTTClient.WildcardKeyNotDispatched | app/src/main/java/com/cogwyrm/app/mqtt/MQTTClient.kt:162 | A callback stored under `a/+` does not run for `a/b` |
| MQTTClient.RetryUsesDefaults | app/src/main/java/com/cogwyrm/app/mqtt/MQTTClient.kt:123-125 | The scheduled retry connects with no credentials and no SSL socket factory |
| MqttPackageService.FinalClientId | app/src/main/java/com/cogwyrm/app/mqtt/MQTTService.kt:139 | A given id is kept; a missing one becomes `cogwyrm_` followed by the clock reading |
| MqttPackageService.OptionsFor | app/src/main/java/com/cogwyrm/app/mqtt/MQTTService.kt:192-200 | Credentials are set if and only if both are non-null (even if empty); clean session, 30 s timeout, 60 s keep-alive |
| MqttPackageService.ConnectWith | app/src/main/java/com/cogwyrm/app/mqtt/MQTTService.kt:141-215 | The client is replaced before the outcome; only success sets the flag; history and subscriptions are untouched |
| MqttPackageService.AddIncoming | app/src/main/java/com/cogwyrm/app/mqtt/MQTTService.kt:169-181 | The record is appended last; a history at the limit drops its oldest record and stays at the limit |
| MqttPackageService.IncomingKeepsNewest | app/src/main/java/com/cogwyrm/app/mqtt/MQTTService.kt:169-181 | From a history within the limit, any burst of arrivals keeps exactly the newest 100 records |
| MqttPackageService.HistoryCanExceedLimit | app/src/main/java/com/cogwyrm/app/mqtt/MQTTService.kt:273-285 | A publish appends without trimming, so the history can reach 101 and stay there |
| MqttPackageService.ComputeSubscription | app/src/main/java/com/cogwyrm/app/mqtt/MQTTService.kt:312-321 | An existing entry survives unchanged; a new topic gets the given callback |
| MqttPackageService.ConnectStep | app/src/main/java/com/cogwyrm/app/mqtt/MQTTService.kt:123-229 | One connect call over `ssl://` if and only if SSL; a given id is kept; the flag is set if and only if success or already set |
| MqttPackageService.ConnectionLostReconnects | app/src/main/java/com/cogwyrm/app/mqtt/MQTTService.kt:147-162 | Clears the flag and reconnects with the captured parameters; only the reconnect's success sets it again |
| MqttPackageService.MessageArrivedStep | app/src/main/java/com/cogwyrm/app/mqtt/MQTTService.kt:165-184 | The record is last, the limit is kept, and a callback runs if and only if exactly the topic is subscribed |
| MqttPackageService.PublishStep | app/src/main/java/com/cogwyrm/app/mqtt/MQTTService.kt:257-303 | Without a client the call never returns. With a client, a QoS outside 0..2 raises before any call. A valid QoS gives one publish call, and a record is added only on success |
| MqttPackageService.SubscribeKeepsExisting | app/src/main/java/com/cogwyrm/app/mqtt/MQTTService.kt:305-345 | The key set gains the topic; an existing entry is kept; it raises if and only if the wire call fails |
| MqttPackageService.UnsubscribeRemovesFirst | app/src/main/java/com/cogwyrm/app/mqtt/MQTTService.kt:347-371 | An unknown topic completes at once with no call. A known topic is removed before the call, and nothing else changes. Without a client it completes normally with no call. With a client it makes one unsubscribe call and raises if and only if the broker refuses. It never hangs |
| MqttPackageService.UnsubscribeWithoutClientResumes | app/src/main/java/com/cogwyrm/app/mqtt/MQTTService.kt:305-365 | Subscribing before any connect keeps the entry, and unsubscribing it then completes normally and restores the initial state |
| MqttPackageService.DisconnectStep | app/src/main/java/com/cogwyrm/app/mqtt/MQTTService.kt:231-255 | Success clears flag, client and subscriptions; failure changes nothing; without a client the call never returns |
| MqttPackageService.Step | app/src/main/java/com/cogwyrm/app/mqtt/MQTTService.kt:123-371 | Every event keeps "connected implies a client". A call hangs if and only if it is a publish, subscribe or disconnect without a client. No event but a publish takes a history within 100 records past 100 |
| MqttPackageService.RunKeepsConsistent | app/src/main/java/com/cogwyrm/app/mqtt/MQTTService.kt:123-371 | Over any run the connected flag implies a client, and with no publish in the run a history within 100 records stays within 100 |
| AppService.TrimOldestKeepsNewest | app/src/main/java/com/cogwyrm/app/MQTTService.kt:161-163 | The trimming loop keeps exactly the newest 100 records |
| AppService.TrimHistory | app/src/main/java/com/cogwyrm/app/MQTTService.kt:161-163 | The imperative loop computes the newest 100 records |
| AppService.HandleIncomingMessage | app/src/main/java/com/cogwyrm/app/MQTTService.kt:156-167 | At most 100 records, the new one last, and equal to the newest 100 of history plus record |
| AppService.DoDisconnect | app/src/main/java/com/cogwyrm/app/MQTTService.kt:169-178 | A throwing disconnect changes nothing; otherwise the flag and saved connection clear |
| AppService.RestoreSubscriptions | app/src/main/java/com/cogwyrm/app/MQTTService.kt:286-303 | Resubscribes if and only if connected |
| AppService.Step | app/src/main/java/com/cogwyrm/app/MQTTService.kt:114-219 | Every event keeps "connected implies a saved connection and a client" |
| AppService.StepKeepsConsistent | app/src/main/java/com/cogwyrm/app/MQTTService.kt:114-219 | Every event keeps "connected implies saved connection and client" |
| AppService.RunKeepsConsistent | app/src/main/java/com/cogwyrm/app/MQTTService.kt:114-219 | Every run from a consistent state keeps "connected implies saved connection and client" |
| AppService.ConnectStep | app/src/main/java/com/cogwyrm/app/MQTTService.kt:114-154 | Disconnects first, keeps a given id, sets the flag if and only if success, saves and resubscribes only on success |
| AppService.MessageArrivedStep | app/src/main/java/com/cogwyrm/app/MQTTService.kt:132-134 | After an arrival the history holds at most 100 records, the new one last |
| AppService.ConnectionLostStep | app/src/main/java/com/cogwyrm/app/MQTTService.kt:126-131 | Only the flag clears; no reconnect |
| AppService.DisconnectKeepsSubscriptions | app/src/main/java/com/cogwyrm/app/MQTTService.kt:169-178 | Subscriptions and client survive; the flag clears unless it threw |
| AppService.PublishStep | app/src/main/java/com/cogwyrm/app/MQTTService.kt:180-188 | Records the message unless the wrapper threw, which it always does for a QoS outside 0..2; no trimming |
| AppService.SubscribeOnlyOnSuccess | app/src/main/java/com/cogwyrm/app/MQTTService.kt:190-209 | A topic enters the map only on broker acknowledgement |
| AppService.UnsubscribeUnlessThrown | app/src/main/java/com/cogwyrm/app/MQTTService.kt:211-219 | A topic leaves the map unless the call threw |
| CogwyrmService.ClientIdFor | app/src/main/java/com/madness/cogwyrm/MQTTService.kt:74 | Empty becomes `Cogwyrm_` followed by a UUID; any other id is kept |
| CogwyrmService.ConnectedAfter | app/src/main/java/com/madness/cogwyrm/MQTTService.kt:99-118 | Connected if and only if the success callback ran |
| CogwyrmService.Step | app/src/main/java/com/madness/cogwyrm/MQTTService.kt:72-164 | Every event keeps "connected implies a client" and never drops the client. It makes at most one call, and only through a client. The history grows by at most one record. An exception escapes only from a publish, and then with no call and no state change |
| CogwyrmService.RunKeepsConsistent | app/src/main/java/com/madness/cogwyrm/MQTTService.kt:72-164 | Connected implies a client, over every run, and the client is never dropped |
| CogwyrmService.ConnectStep | app/src/main/java/com/madness/cogwyrm/MQTTService.kt:72-118 | One connect call over `ssl://` if and only if SSL; a non-empty id is kept; connected if and only if success |
| CogwyrmService.FlagClearing | app/src/main/java/com/madness/cogwyrm/MQTTService.kt:78-82 | A lost connection and a non-throwing disconnect clear the flag; a throwing disconnect changes nothing |
| CogwyrmService.NotConnectedGuards | app/src/main/java/com/madness/cogwyrm/MQTTService.kt:131-164 | While disconnected, publish and subscribe do nothing |
| CogwyrmService.PublishAppends | app/src/main/java/com/madness/cogwyrm/MQTTService.kt:131-148 | A connected publish escapes as an exception if and only if its QoS is outside 0..2, with no call and no record. A valid QoS makes one publish call and, unless that call threw, appends one outgoing record. Nothing is ever trimmed |
| CogwyrmService.MessageArrivedStep | app/src/main/java/com/madness/cogwyrm/MQTTService.kt:84-91 | Non-null messages are appended, with a null topic as `""`; null messages are dropped |
| CommanderService.ClientIdFor | app/src/main/java/com/madness/mqttcommander/MQTTService.kt:27 | Empty becomes `MQTTCommander_` followed by a UUID; any other id is kept |
| CommanderService.InitiallyDisconnected | app/src/main/java/com/madness/mqttcommander/MQTTService.kt:15 | A fresh service is not connected |
| CommanderService.Step | app/src/main/java/com/madness/mqttcommander/MQTTService.kt:25-85 | Every event keeps "connected implies a client" and never drops the client. It makes at most one call, and only through a client. An exception escapes only from a publish, and then with no call and no state change |
| CommanderService.StepFlag | app/src/main/java/com/madness/mqttcommander/MQTTService.kt:25-85 | Success sets the flag and a non-throwing disconnect clears it. Publish and subscribe change nothing and call only while connected. A connected publish escapes if and only if its QoS is outside 0..2, and otherwise makes its one call |
| CommanderService.FlagsAgree | app/src/main/java/com/madness/mqttcommander/MQTTService.kt:25-87 | Over any shared operation sequence, both services keep the same connected flag |
| CommanderService.FlagsAgreeFromInit | app/src/main/java/com/madness/mqttcommander/MQTTService.kt:15-87 | From two fresh services, any shared operation sequence leaves both reporting the same connected flag |
| MQTTEventReceiver.RunAction | app/src/main/java/com/cogwyrm/app/tasker/MQTTEventReceiver.kt:32-64 | An error if and only if the configuration fails its check or `startService` throws: the invalid-input text for the first, the exception's message (or the unknown-error text when it is null) for the second, with no service started; a success if and only if the service starts with the configuration |
| MQTTEventReceiver.HandleMessage | app/src/main/java/com/cogwyrm/app/tasker/MQTTEventReceiver.kt:66-75 | A broadcast happens if and only if the topic is registered, and its bundle reads back as this topic and message |
| MQTTEventReceiver.RemoveSubscription | app/src/main/java/com/cogwyrm/app/tasker/MQTTEventReceiver.kt:77-99 | The entry is removed; unsubscribe and then disconnect its client; a failure stops teardown and is reported as a connection failure |
| MQTTEventReceiver.TeardownAtMostOnce | app/src/main/java/com/cogwyrm/app/tasker/MQTTEventReceiver.kt:23-99 | The registry only shrinks, and unsubscribes never outnumber its entries |
| MQTTEventReceiver.EmptyRegistryIsInert | app/src/main/java/com/cogwyrm/app/tasker/MQTTEventReceiver.kt:23-99 | From an empty registry, nothing is ever broadcast or torn down |
| MQTTEventReceiver.RemoveTwice | app/src/main/java/com/cogwyrm/app/tasker/MQTTEventReceiver.kt:77-99 | A second removal of a topic does nothing |
| MQTTConfigActivity.ValidateInput | app/src/main/java/com/cogwyrm/app/tasker/MQTTConfigActivity.kt:96-117 | Passes if and only if broker, topic and payload are non-empty; the first missing field is the message |
| MQTTConfigActivity.NonEmptyOrNull | app/src/main/java/com/cogwyrm/app/tasker/MQTTConfigActivity.kt:199-200 | Empty text becomes null; other text is kept |
| MQTTConfigActivity.GenerateClientId | app/src/main/java/com/cogwyrm/app/tasker/MQTTConfigActivity.kt:208-210 | Sixteen characters: `cogwyrm_` followed by the UUID's first eight |
| MQTTConfigActivity.GetCurrentInput | app/src/main/java/com/cogwyrm/app/tasker/MQTTConfigActivity.kt:190-202 | Unparsable port gives 1883 and unparsable QoS gives 0; a null client id is generated; empty credentials become null |
| MQTTConfigActivity.BlankScreenDefaults | app/src/main/java/com/cogwyrm/app/tasker/MQTTConfigActivity.kt:190-202 | A blank screen gives 1883 and QoS 0 with no credentials, and is not a valid action |
| MQTTConfigActivity.TestConnection | app/src/main/java/com/cogwyrm/app/tasker/MQTTConfigActivity.kt:119-175 | Refused if and only if the broker is empty. Otherwise the wrapper is built from the screen's broker, port, client id and SSL switch, and from the credentials only when they are non-empty. The test reports success or the failure's message |
| MQTTConfigActivity.TestClient | app/src/main/java/com/cogwyrm/app/tasker/MQTTConfigActivity.kt:137-145 | The test's wrapper has the screen's broker, port, client id and SSL switch and no listeners |
| MQTTConfigActivity.TestSendsNoCredentials | app/src/main/java/com/cogwyrm/app/tasker/MQTTConfigActivity.kt:147-150 | The test's `connect()` runs with its defaults. At most one Paho connect goes out, under the screen's client id and with the wrapper's scheme. It carries no credentials and no SSL socket factory, whatever the screen holds. A refusal is reported as "Failed to connect to broker" |
| MQTTConfigActivity.PayloadPreview | app/src/main/java/com/cogwyrm/app/tasker/MQTTConfigActivity.kt:226 | Payloads of at most 20 characters are shown whole; longer ones are cut to 20 with `...` appended |
| MQTTConfigActivity.BlurbLines | app/src/main/java/com/cogwyrm/app/tasker/MQTTConfigActivity.kt:222-228 | Split on newlines, the blurb gives back exactly its broker, topic and payload lines |

## Left out

- Android framework work is not modelled: notifications, foreground service, the
  binder, logging and coroutine scopes. Neither is the JSON persistence in
  `saveSubscriptions`, `restoreState` and `saveConnectionState`. In `AppService`, the
  resubscription of saved topics is the single effect `ResubscribeSaved`, and the saved
  connection is a state field.
- Concurrency and timing are not modelled. A `Handler.postDelayed` is a `ScheduleConnect`
  effect, and the posted connect is a later `RetryFired` event.
- The clock, random UUIDs and `java.net.URI` parsing are parameters.
- Kotlin's `toIntOrNull` is modelled for ASCII digits only. Other Unicode decimal digits
  are not modelled.
- Timestamps of records, updates and subscriptions are left out. Only the event output's
  timestamp is kept, because it goes into the bundle.
- MQTTEventHelper.ValidateConfiguration: the helper calls `validateInput()` on the input,
  but `MQTTEventInput.kt` declares `validate()`, not `validateInput()`. The verdict of that
  call is therefore the parameter `basicValid`. The generic
  `catch (e: Exception)` branch of `isInputValid` is unreachable in the model.
- MQTTEventReceiver.RunAction: the verdict of `input.validateInput()` is the parameter
  `valid` for the same reason. The service started is `ServiceStart`. Whether
  `startService` throws, and with which message, is the parameter `startFailure`. Nothing in the
  receiver adds to its registry, so only removal and delivery are modelled.
- MQTTEventReceiver.RemoveSubscription: the Paho-specific `catch` branch calls
  `handleMqttException`, but it never fires. The wrapper throws its own `MQTTException`
  type, so every failure takes the generic branch and is reported as "connection
  failed".
- `requestQuery` and `destroy` of `MQTTEventRunner` are not modelled: they only drive the
  wrapper, and `MQTTClient` covers that.
- `getWildcardHelp` in `TopicUtils` is not modelled, because it returns a constant help
  text.
- `handleError`, `showErrorDialog` and `showErrorToast` in `ErrorHandler` are not
  modelled, because they only display.
- MQTTClient.Reconnect: the guard `client.isConnected` reads a lazily built Android
  client that nothing ever connects, so it is taken as always false. Reading it runs the
  lazy initializer, which installs that client's callbacks. Those callbacks never fire,
  because the client never connects, so they are not modelled.
- MQTTClient.Reconnect: the scheduled delay is the corrected `CalculateRetryDelay`, not
  the wrapping formula of `calculateRetryDelay`. The two agree for every attempt count up
  to 53 (`AsWrittenAgreesBelow54`, `ReconnectMatchesCode`, `ScheduledDelaysMatchCode`),
  and the count never moves (`RunKeepsRetryAttempts`). So they differ only from a
  starting count of 54, which nothing in the code reaches.
- A throwing `MqttAsyncClient` constructor and `setCallback` in `MQTTClient.connect`, and
  in the services, are not modelled. Only the URI parse failure and the broker's reply
  are.
- `AppService` calls the wrapper with a constructor and a `connect` overload that
  `MQTTClient.kt` does not declare. Its `subscribe` call passes an `IMqttActionListener`
  (`MQTTService.kt:192`), while `MQTTClient.subscribe` takes a `(String, String) -> Unit`
  callback (`MQTTClient.kt:200`). The model follows what `AppService` evidently means:
  build a client, then connect with a listener. Likewise `disconnect`, `publish` and
  `unsubscribe` call the wrapper's suspending functions from plain functions
  (`MQTTService.kt:170`, `181`, `213`), which Kotlin does not allow outside a coroutine.
  The model reads each as the call completing, or throwing, before the next line runs.
- MQTTClient.Step: `reconnect` posts a plain `Runnable` that calls the suspending
  `connect()` (`MQTTClient.kt:123-125`), which Kotlin does not allow outside a coroutine.
  The model reads it as what it evidently means: a later `RetryFired` event that runs `connect()` with
  its default arguments.
- MQTTClient.ConnectOptionsFor: inside `apply`, `maxReconnectDelay = maxReconnectDelay`
  (`MQTTClient.kt:138`) names the function's `val` parameter on both sides, so it does not
  compile. The model reads it as setting the option to the parameter.
- MQTTClient.ConnectStep: a `connect` that throws is one outcome, `PahoException`. Which
  Paho exception it is (a socket-factory mismatch, a client already connecting) is not
  modelled. Paho's own argument checks inside `publish` and `subscribe`, such as topic
  syntax, are library code. Their failures arrive as the call's reply.
- MQTTEventReceiver.RunAction: the receiver builds an `MQTTClient` with a `useSSL`
  argument and no `context`, neither of which matches the constructor
  (`MQTTEventReceiver.kt:39-46`), and never uses it. The model leaves that client out.
- MQTTConfigActivity.PayloadPreview: lengths count characters (Unicode scalar values),
  whereas Kotlin's `length` and `take(20)` count UTF-16 code units. A payload with
  characters outside the Basic Multilingual Plane, such as emoji, is cut later in the
  model than in the app: fifteen emoji are 30 units in Kotlin, so the app shows ten and
  `...`, while the model shows all fifteen. Strings are not modelled as UTF-16.
- MQTTConfigActivity.TestClient: the test passes `port.toString()` where the wrapper's
  constructor takes an `Int` (`MQTTConfigActivity.kt:140`). The model passes the parsed
  port.
- MqttPackageService.ConnectWith: the cancellation handler that disconnects the client is
  not modelled.
- CogwyrmService.MessageArrivedStep: a null message is modelled as dropped, and a null
  topic as `""`.
- The test files' expectations that the code does not implement are not modelled. One
  example is reconnect counting in the `MQTTClient` tests.
- The configuration activity's `assignFromInput` is not modelled, because it only fills
  the screen's views. The event-configuration screen is not modelled either, because it
  is outside this core.

## Findings

| source | as written | input that shows it | evidently intended | confidence | as-written member | corrected member |
|---|---|---|---|---|---|---|
| app/src/main/java/com/cogwyrm/app/mqtt/MQTTClient.kt:111-114 | The delay is `min(1000L * 2.0.pow(attempt).toLong(), 30000L)`. The `Long` product wraps around before `min` is taken | `retryAttempts` = 54 gives 1000 · 2^54 > `Long.MAX_VALUE`, which wraps to −24 · 2^54. The "delay" is negative | The delay doubles from 1 s and is capped at 30 s for every attempt count | low; not executed. The counter is never incremented, so this cannot be reached today. Any code that starts counting retries would hit it | MQTTClient.AsWrittenNegativeAt54 | MQTTClient.CalculateRetryDelay |

=== FILE: action_helper.dfy ===
/** The Tasker action helper of the `madness.cogwyrm` variant: its input record with
    defaults, and the two-field validity check. */
module MadnessActionHelper {
  import opened Errors

  /** `MQTTActionInput`; here the port is text. */
  datatype ActionInput = ActionInput(
    brokerUrl: string,
    port: string,
    clientId: string,
    useSsl: bool,
    topic: string,
    message: string)

  /** The constructor defaults. */
  const DefaultInput: ActionInput := ActionInput("", "1883", "", false, "", "")

  const BrokerUrlEmpty := "Broker URL cannot be empty"
  const TopicEmpty := "Topic cannot be empty"

  /** `isInputValid`: the broker URL is checked first, then the topic; nothing else is. */
  function IsInputValid(i: ActionInput): (r: TaskerResult<()>)
    ensures r.Success? <==> |i.brokerUrl| > 0 && |i.topic| > 0
    ensures |i.brokerUrl| == 0 ==> r == Error(BrokerUrlEmpty)
    ensures |i.brokerUrl| > 0 && |i.topic| == 0 ==> r == Error(TopicEmpty)
  {
    if |i.brokerUrl| == 0 then Error(BrokerUrlEmpty)
    else if |i.topic| == 0 then Error(TopicEmpty)
    else Success(())
  }

  /** The port, client id, message and SSL flag never change the verdict. */
  lemma UncheckedFields(i: ActionInput, port: string, clientId: string, useSsl: bool, message: string)
    ensures IsInputValid(i.(port := port, clientId := clientId, useSsl := useSsl, message := message))
         == IsInputValid(i)
  {
  }

  /** The default input is refused, for its empty broker URL. */
  lemma DefaultInputInvalid()
    ensures DefaultInput.port == "1883"
    ensures IsInputValid(DefaultInput) == Error(BrokerUrlEmpty)
  {
  }
}

=== FILE: app_service.dfy ===
/** The foreground service of `com.cogwyrm.app`, built on the `MQTTClient` wrapper: a
    connected flag, a saved connection, a message history trimmed on arrival, and the
    topics whose subscription the broker acknowledged. Calls on the wrapper are
    recorded as effects; whether a call threw, or which listener callback ran, is a
    parameter of the event. */
module AppService {
  import opened Base
  import Wire

  const MaxHistorySize: nat := 100

  /** `MessageRecord` without its timestamp. */
  datatype MessageRecord = MessageRecord(
    topic: string,
    message: string,
    qos: int,
    retained: bool,
    isIncoming: bool)

  /** `SubscriptionInfo` without its timestamp. */
  datatype SubscriptionInfo = SubscriptionInfo(topic: string, qos: int)

  /** What `saveConnectionState` writes. */
  datatype SavedConnection = SavedConnection(
    serverUri: string,
    port: int,
    clientId: string,
    useSsl: bool,
    username: Option<string>,
    password: Option<string>)

  /** `_isConnected`, whether `mqttClient` is set, `messageHistory`,
      `activeSubscriptions`, and the saved `connection_state` preference. */
  datatype State = State(
    connected: bool,
    hasClient: bool,
    history: seq<MessageRecord>,
    subscriptions: map<string, SubscriptionInfo>,
    saved: Option<SavedConnection>)

  const Init: State := State(false, false, [], map[], None)

  /** How a call on the wrapper ended: it returned and its listener (if any) reported
      success, it returned and the listener reported failure, or it threw. */
  datatype Reply = Succeeded | Failed | Threw

  datatype Event =
      /** `connect(...)`; `uuid` is the random id used for a missing client id,
          `disconnectReply` what the clean-up `disconnect()` met. */
    | Connect(serverUri: string, port: int, clientId: Option<string>, useSsl: bool,
              username: Option<string>, password: Option<string>, uuid: string,
              disconnectReply: Wire.Reply, reply: Wire.Reply)
    | ConnectionLost
    | MessageArrived(topic: string, message: string)
    | Disconnect(reply: Wire.Reply)
    | Publish(topic: string, message: string, qos: int, retained: bool, reply: Wire.Reply)
    | Subscribe(topic: string, qos: int, subscribeReply: Reply)
    | Unsubscribe(topic: string, reply: Wire.Reply)

  datatype Effect =
    | CreateClient(brokerUrl: string, port: int, clientId: string, useSsl: bool)
    | ClientConnect
    | ClientDisconnect
    | ClientPublish(topic: string, message: string, qos: int, retained: bool)
    | ClientSubscribe(topic: string, qos: int)
    | ClientUnsubscribe(topic: string)
      /** `restoreSubscriptions` going on to subscribe every saved topic. */
    | ResubscribeSaved

  datatype StepResult = StepResult(state: State, effects: seq<Effect>)

  // ---------------------------------------------------------------------------
  // Message history
  // ---------------------------------------------------------------------------

  /** The trimming loop of `handleIncomingMessage`: drop the oldest record while
      there are more than `MaxHistorySize`. */
  function TrimOldest(history: seq<MessageRecord>): seq<MessageRecord>
    decreases |history|
  {
    if |history| > MaxHistorySize then TrimOldest(history[1..]) else history
  }

  /** The loop keeps exactly the newest `MaxHistorySize` records. */
  lemma {:induction false} TrimOldestKeepsNewest(history: seq<MessageRecord>)
    ensures TrimOldest(history) == Last(history, MaxHistorySize)
    decreases |history|
  {
    if |history| > MaxHistorySize {
      var t := history[1..];
      TrimOldestKeepsNewest(t);
      assert TrimOldest(history) == TrimOldest(t);
      if |t| > MaxHistorySize {
        assert Last(t, MaxHistorySize) == t[|t| - MaxHistorySize..];
        assert t[|t| - MaxHistorySize..] == history[|history| - MaxHistorySize..];
      } else {
        assert Last(t, MaxHistorySize) == t;
        assert t == history[|history| - MaxHistorySize..];
      }
    }
  }

  /** The same loop written as the source writes it, over a mutable list. */
  method TrimHistory(history: seq<MessageRecord>) returns (r: seq<MessageRecord>)
    ensures r == Last(history, MaxHistorySize)
  {
    r := history;
    while |r| > MaxHistorySize
      invariant |r| <= |history| && r == history[|history| - |r|..]
      invariant |history| > MaxHistorySize ==> |r| >= MaxHistorySize
      invariant |history| <= MaxHistorySize ==> r == history
      decreases |r|
    {
      r := r[1..];
    }
  }

  /** `handleIncomingMessage`: append the record (QoS 1, not retained), then trim. */
  function HandleIncomingMessage(history: seq<MessageRecord>, topic: string, message: string): (r: seq<MessageRecord>)
    ensures |r| <= MaxHistorySize
    ensures |r| > 0 && r[|r| - 1] == MessageRecord(topic, message, 1, false, true)
    ensures r == Last(history + [MessageRecord(topic, message, 1, false, true)], MaxHistorySize)
  {
    var h := history + [MessageRecord(topic, message, 1, false, true)];
    TrimOldestKeepsNewest(h);
    TrimOldest(h)
  }

  // ---------------------------------------------------------------------------
  // Transitions
  // ---------------------------------------------------------------------------

  /** `disconnect()`: if the client's disconnect throws, nothing changes; otherwise the
      flag and the saved connection are cleared. The client reference and the
      subscriptions are kept. */
  function DoDisconnect(s: State, reply: Wire.Reply): (r: StepResult)
    ensures r.effects == if s.hasClient then [ClientDisconnect] else []
    ensures s.hasClient && reply.Failed? ==> r.state == s
    ensures !s.hasClient || reply.Succeeded? ==> r.state == s.(connected := false, saved := None)
  {
    var cleared := s.(connected := false, saved := None);
    if !s.hasClient then StepResult(cleared, [])
    else if reply.Succeeded? then StepResult(cleared, [ClientDisconnect])
    else StepResult(s, [ClientDisconnect])
  }

  /** `restoreSubscriptions`: nothing unless connected. */
  function RestoreSubscriptions(s: State): (effects: seq<Effect>)
    ensures effects != [] <==> s.connected
    ensures effects != [] ==> effects == [ResubscribeSaved]
  {
    if !s.connected then [] else [ResubscribeSaved]
  }

  /** `connect(...)`: disconnect, build a client, connect. Success sets the flag, saves
      the connection and restores the subscriptions; failure clears the flag. */
  function DoConnect(s: State, serverUri: string, port: int, clientId: Option<string>, useSsl: bool,
                     username: Option<string>, password: Option<string>, uuid: string,
                     disconnectReply: Wire.Reply, reply: Wire.Reply): StepResult
  {
    var generatedClientId := clientId.OrElse("cogwyrm_" + uuid);
    var d := DoDisconnect(s, disconnectReply);
    var s1 := d.state.(hasClient := true);
    var fx := d.effects + [CreateClient(serverUri, port, generatedClientId, useSsl), ClientConnect];
    if reply.Succeeded? then
      var s2 := s1.(connected := true,
                    saved := Some(SavedConnection(serverUri, port, generatedClientId, useSsl, username, password)));
      StepResult(s2, fx + RestoreSubscriptions(s2))
    else StepResult(s1.(connected := false), fx)
  }

  /** One event. Messages and lost connections come from the current client, so they
      do nothing while there is none. */
  function Step(s: State, e: Event): (r: StepResult)
    ensures Consistent(s) ==> Consistent(r.state)
  {
    match e
    case Connect(serverUri, port, clientId, useSsl, username, password, uuid, disconnectReply, reply) =>
      DoConnect(s, serverUri, port, clientId, useSsl, username, password, uuid, disconnectReply, reply)
    case ConnectionLost =>
      if s.hasClient then StepResult(s.(connected := false), []) else StepResult(s, [])
    case MessageArrived(topic, message) =>
      if s.hasClient then StepResult(s.(history := HandleIncomingMessage(s.history, topic, message)), [])
      else StepResult(s, [])
    case Disconnect(reply) => DoDisconnect(s, reply)
    case Publish(topic, message, qos, retained, reply) =>
      var appended := s.(history := s.history + [MessageRecord(topic, message, qos, retained, false)]);
      if !s.hasClient then StepResult(appended, [])
      // The wrapper builds the message first and throws for a QoS outside 0..2.
      else if reply.Succeeded? && Wire.ValidQos(qos) then StepResult(appended, [ClientPublish(topic, message, qos, retained)])
      else StepResult(s, [ClientPublish(topic, message, qos, retained)])
    case Subscribe(topic, qos, reply) =>
      if !s.hasClient then StepResult(s, [])
      else if reply.Succeeded? then
        StepResult(s.(subscriptions := s.subscriptions[topic := SubscriptionInfo(topic, qos)]), [ClientSubscribe(topic, qos)])
      else StepResult(s, [ClientSubscribe(topic, qos)])
    case Unsubscribe(topic, reply) =>
      var removed := s.(subscriptions := s.subscriptions - {topic});
      if !s.hasClient then StepResult(removed, [])
      else if reply.Succeeded? then StepResult(removed, [ClientUnsubscribe(topic)])
      else StepResult(s, [ClientUnsubscribe(topic)])
  }

  function Run(s: State, events: seq<Event>): State
    decreases |events|
  {
    if |events| == 0 then s else Run(Step(s, events[0]).state, events[1..])
  }

  // ---------------------------------------------------------------------------
  // Properties
  // ---------------------------------------------------------------------------

  /** The flag is set only together with a saved connection and a client. */
  predicate Consistent(s: State) {
    s.connected ==> s.saved.Some? && s.hasClient
  }

  lemma StepKeepsConsistent(s: State, e: Event)
    requires Consistent(s)
    ensures Consistent(Step(s, e).state)
  {
  }

  lemma {:induction false} RunKeepsConsistent(s: State, events: seq<Event>)
    requires Consistent(s)
    ensures Consistent(Run(s, events))
    decreases |events|
  {
    if |events| > 0 {
      StepKeepsConsistent(s, events[0]);
      RunKeepsConsistent(Step(s, events[0]).state, events[1..]);
    }
  }

  /** `connect` disconnects any old client first and keeps a given client id; success
      sets the flag, saves the connection and restores subscriptions last; failure
      clears the flag and restores nothing. */
  lemma ConnectStep(s: State, serverUri: string, port: int, clientId: Option<string>, useSsl: bool,
                    username: Option<string>, password: Option<string>, uuid: string,
                    disconnectReply: Wire.Reply, reply: Wire.Reply)
    ensures var r := Step(s, Connect(serverUri, port, clientId, useSsl, username, password, uuid, disconnectReply, reply));
      var id := if clientId.Some? then clientId.value else "cogwyrm_" + uuid;
      && (s.hasClient ==> r.effects[0] == ClientDisconnect)
      && CreateClient(serverUri, port, id, useSsl) in r.effects
      && r.state.hasClient
      && (r.state.connected <==> reply.Succeeded?)
      && (reply.Succeeded? ==>
            r.state.saved == Some(SavedConnection(serverUri, port, id, useSsl, username, password))
            && r.effects[|r.effects| - 1] == ResubscribeSaved)
      && (ResubscribeSaved in r.effects <==> reply.Succeeded?)
      && r.state.subscriptions == s.subscriptions
  {
    var d := DoDisconnect(s, disconnectReply);
    assert ClientDisconnect != ResubscribeSaved;
  }

  /** An arrival always leaves at most `MaxHistorySize` records, even after publishes
      have pushed the history past the limit, with the new record last. */
  lemma MessageArrivedStep(s: State, topic: string, message: string)
    requires s.hasClient
    ensures var h := Step(s, MessageArrived(topic, message)).state.history;
      && |h| <= MaxHistorySize
      && h[|h| - 1] == MessageRecord(topic, message, 1, false, true)
  {
  }

  /** A lost connection only clears the flag: no reconnect, nothing else changes. */
  lemma ConnectionLostStep(s: State)
    requires s.hasClient
    ensures Step(s, ConnectionLost) == StepResult(s.(connected := false), [])
  {
  }

  /** A disconnect that did not throw clears the flag and the saved connection but
      keeps the subscriptions (and the client reference); one that threw changes nothing. */
  lemma DisconnectKeepsSubscriptions(s: State, reply: Wire.Reply)
    ensures var r := Step(s, Disconnect(reply)).state;
      && r.subscriptions == s.subscriptions && r.hasClient == s.hasClient
      && (reply.Succeeded? || !s.hasClient ==> !r.connected && r.saved.None?)
      && (reply.Failed? && s.hasClient ==> r == s)
  {
  }

  /** A publish records an outgoing message unless the call threw, which it always does
      for a QoS outside 0..2; there is no trimming. */
  lemma PublishStep(s: State, topic: string, message: string, qos: int, retained: bool, reply: Wire.Reply)
    ensures var r := Step(s, Publish(topic, message, qos, retained, reply)).state;
      && ((reply.Succeeded? && Wire.ValidQos(qos)) || !s.hasClient ==>
            r.history == s.history + [MessageRecord(topic, message, qos, retained, false)])
      && ((reply.Failed? || !Wire.ValidQos(qos)) && s.hasClient ==> r == s)
  {
  }

  /** A topic enters the map only when the broker acknowledges the subscription. */
  lemma SubscribeOnlyOnSuccess(s: State, topic: string, qos: int, reply: Reply)
    ensures var r := Step(s, Subscribe(topic, qos, reply)).state;
      && (s.hasClient && reply.Succeeded? ==> r.subscriptions == s.subscriptions[topic := SubscriptionInfo(topic, qos)])
      && (!s.hasClient || !reply.Succeeded? ==> r == s)
  {
  }

  /** A topic leaves the map unless the unsubscribe call threw. */
  lemma UnsubscribeUnlessThrown(s: State, topic: string, reply: Wire.Reply)
    ensures var r := Step(s, Unsubscribe(topic, reply)).state;
      && (reply.Succeeded? || !s.hasClient ==> r.subscriptions == s.subscriptions - {topic})
      && (reply.Failed? && s.hasClient ==> r == s)
  {
  }
}

=== FILE: base.dfy ===
/** Failure-carrying wrappers and the bounded-history window shared by every module
    of the model. */
module Base {

  /** A Kotlin nullable value: `None` is `null`. */
  datatype Option<+T> = None | Some(value: T) {

    /** The Kotlin elvis operator `x ?: default`. */
    function OrElse(default: T): T {
      match this
      case Some(v) => v
      case None => default
    }
  }

  /** The outcome of a check that either yields a value or reports an error. */
  datatype Result<+T, +E> = Ok(value: T) | Err(error: E)

  /** The last `n` elements of `xs` (all of them when there are fewer): what a
      history capped at `n` entries should hold. */
  function Last<T>(xs: seq<T>, n: nat): (r: seq<T>)
    ensures |r| == if |xs| <= n then |xs| else n
  {
    if |xs| <= n then xs else xs[|xs| - n..]
  }

  /** Capping, appending and capping again is capping once. */
  lemma LastOfLastAppend<T>(xs: seq<T>, ys: seq<T>, n: nat)
    ensures Last(Last(xs, n) + ys, n) == Last(xs + ys, n)
  {
    if |xs| > n {
      var k := |xs| - n;
      assert Last(xs, n) + ys == (xs + ys)[k..];
    }
  }
}

/** Kotlin string operations the model relies on, over `seq<char>`. */
module Text {
  import opened Base

  /** Kotlin `Char.isWhitespace()` on the JVM: `Character.isWhitespace` or `Character.isSpaceChar`. */
  predicate IsWhitespace(c: char) {
    var n := c as int;
    || (0x09 <= n <= 0x0D)
    || (0x1C <= n <= 0x20)
    || n == 0xA0 || n == 0x1680
    || (0x2000 <= n <= 0x200A)
    || n == 0x2028 || n == 0x2029 || n == 0x202F || n == 0x205F || n == 0x3000
  }

  /** Kotlin `CharSequence.isBlank()`: empty or whitespace only. */
  predicate IsBlank(s: string) {
    forall i :: 0 <= i < |s| ==> IsWhitespace(s[i])
  }

  /** Kotlin `String?.isNullOrBlank()`. */
  predicate IsNullOrBlank(s: Option<string>) {
    s.None? || IsBlank(s.value)
  }

  /** Kotlin `s.startsWith(prefix)`. */
  predicate StartsWith(s: string, prefix: string) {
    |prefix| <= |s| && s[..|prefix|] == prefix
  }

  /** Kotlin `s.take(n)`: the first `n` characters, or all of them when there are fewer. */
  function Take(s: string, n: nat): (r: string)
    ensures |r| == if |s| < n then |s| else n
    ensures r <= s
  {
    if |s| <= n then s else s[..n]
  }

  /** Kotlin `s.split(sep)` with a single-character delimiter: never empty, and an
      empty string or a trailing separator yields an empty last part. */
  function Split(s: string, sep: char): (parts: seq<string>)
    ensures |parts| >= 1
  {
    if |s| == 0 then [""]
    else
      var rest := Split(s[1..], sep);
      if s[0] == sep then [""] + rest
      else [[s[0]] + rest[0]] + rest[1..]
  }

  /** Kotlin `parts.joinToString(sep)`. */
  function Join(parts: seq<string>, sep: char): string
    requires |parts| >= 1
  {
    if |parts| == 1 then parts[0] else parts[0] + [sep] + Join(parts[1..], sep)
  }

  /** Number of occurrences of `c` in `s`. */
  function Count(s: string, c: char): nat {
    if |s| == 0 then 0 else (if s[0] == c then 1 else 0) + Count(s[1..], c)
  }

  /** No part produced by `Split` contains the separator. */
  lemma {:induction false} SplitPartsAvoidSeparator(s: string, sep: char)
    ensures forall i :: 0 <= i < |Split(s, sep)| ==> sep !in Split(s, sep)[i]
  {
    if |s| > 0 {
      SplitPartsAvoidSeparator(s[1..], sep);
      var rest := Split(s[1..], sep);
      if s[0] != sep {
        assert sep !in rest[0];
        assert sep !in [s[0]] + rest[0];
      }
    }
  }

  /** Joining the parts with the separator restores the original string. */
  lemma {:induction false} JoinSplit(s: string, sep: char)
    ensures Join(Split(s, sep), sep) == s
  {
    if |s| > 0 {
      JoinSplit(s[1..], sep);
      var rest := Split(s[1..], sep);
      if s[0] == sep {
        assert Split(s, sep)[1..] == rest;
        assert s == [sep] + s[1..];
      } else {
        var parts := [[s[0]] + rest[0]] + rest[1..];
        if |rest| == 1 {
          assert s == [s[0]] + s[1..];
        } else {
          assert parts[1..] == rest[1..];
          assert Join(rest, sep) == rest[0] + [sep] + Join(rest[1..], sep);
          assert s == [s[0]] + s[1..];
        }
      }
    }
  }

  /** `split` yields one more part than there are separators. */
  lemma {:induction false} SplitCount(s: string, sep: char)
    ensures |Split(s, sep)| == Count(s, sep) + 1
  {
    if |s| > 0 {
      SplitCount(s[1..], sep);
    }
  }

  /** Splitting a join of separator-free parts gives the parts back. */
  lemma {:induction false} SplitJoin(parts: seq<string>, sep: char)
    requires |parts| >= 1
    requires forall i :: 0 <= i < |parts| ==> sep !in parts[i]
    ensures Split(Join(parts, sep), sep) == parts
  {
    if |parts| == 1 {
      SplitWithoutSeparator(parts[0], sep);
    } else {
      SplitJoin(parts[1..], sep);
      SplitPrefix(parts[0], Join(parts[1..], sep), sep);
      assert parts == [parts[0]] + parts[1..];
    }
  }

  /** A separator-free head followed by the separator splits off as the first part. */
  lemma {:induction false} SplitPrefix(head: string, tail: string, sep: char)
    requires sep !in head
    ensures Split(head + [sep] + tail, sep) == [head] + Split(tail, sep)
  {
    var s := head + [sep] + tail;
    if |head| > 0 {
      assert s[1..] == head[1..] + [sep] + tail;
      assert sep !in head[1..];
      SplitPrefix(head[1..], tail, sep);
      assert [head[0]] + head[1..] == head;
    } else {
      assert s[1..] == tail;
    }
  }

  /** `a<sep>b` splits into `[a, b]` when neither part holds the separator. */
  lemma SplitTwo(a: string, b: string, sep: char)
    requires sep !in a && sep !in b
    ensures Split(a + [sep] + b, sep) == [a, b]
  {
    SplitPrefix(a, b, sep);
    SplitWithoutSeparator(b, sep);
  }

  /** `a<sep>b<sep>c` splits into `[a, b, c]` when no part holds the separator. */
  lemma SplitThree(a: string, b: string, c: string, sep: char)
    requires sep !in a && sep !in b && sep !in c
    ensures Split(a + [sep] + b + [sep] + c, sep) == [a, b, c]
  {
    assert a + [sep] + b + [sep] + c == a + [sep] + (b + [sep] + c);
    SplitPrefix(a, b + [sep] + c, sep);
    SplitTwo(b, c, sep);
  }

  /** A string without the separator splits into itself alone. */
  lemma {:induction false} SplitWithoutSeparator(s: string, sep: char)
    requires sep !in s
    ensures Split(s, sep) == [s]
  {
    if |s| > 0 {
      assert sep !in s[1..];
      SplitWithoutSeparator(s[1..], sep);
      assert [s[0]] + s[1..] == s;
    }
  }

  // ---------------------------------------------------------------------------
  // Kotlin `Int` text conversion
  // ---------------------------------------------------------------------------

  const IntMin: int := -0x8000_0000
  const IntMax: int := 0x7FFF_FFFF

  predicate InIntRange(n: int) {
    IntMin <= n <= IntMax
  }

  predicate IsDigit(c: char) {
    '0' <= c <= '9'
  }

  predicate AllDigits(s: string) {
    forall i :: 0 <= i < |s| ==> IsDigit(s[i])
  }

  function DigitChar(d: nat): (c: char)
    requires d < 10
    ensures IsDigit(c) && (c as int) - ('0' as int) == d
  {
    ('0' as int + d) as char
  }

  /** The decimal value of a string of ASCII digits, most significant first. */
  function DigitsValue(s: string): nat
    requires AllDigits(s)
  {
    if |s| == 0 then 0
    else DigitsValue(s[..|s| - 1]) * 10 + ((s[|s| - 1] as int) - ('0' as int))
  }

  /** Decimal rendering of a natural number, without leading zeros. */
  function ShowNat(n: nat): (s: string)
    ensures |s| >= 1 && AllDigits(s)
  {
    if n < 10 then [DigitChar(n)] else ShowNat(n / 10) + [DigitChar(n % 10)]
  }

  /** Kotlin `Int.toString()` (string templates `"$port"`). */
  function ShowInt(n: int): string {
    if n < 0 then "-" + ShowNat(-n) else ShowNat(n)
  }

  /** Reading back a rendered natural number gives the number. */
  lemma {:induction false} DigitsValueShowNat(n: nat)
    ensures DigitsValue(ShowNat(n)) == n
  {
    if n >= 10 {
      DigitsValueShowNat(n / 10);
      var s := ShowNat(n);
      assert s[..|s| - 1] == ShowNat(n / 10);
    }
  }

  /** Kotlin `String.toIntOrNull()` (and `toInt()`, which throws where this is `None`):
      an optional `+` or `-`, then at least one decimal digit, and a value that fits
      a 32-bit `Int`. */
  function ParseInt(s: string): (r: Option<int>)
    ensures r.Some? ==> InIntRange(r.value)
  {
    if |s| == 0 then None
    else if s[0] == '-' || s[0] == '+' then
      var digits := s[1..];
      if |digits| == 0 || !AllDigits(digits) then None
      else
        var v := if s[0] == '-' then 0 - (DigitsValue(digits) as int) else DigitsValue(digits) as int;
        if InIntRange(v) then Some(v) else None
    else if !AllDigits(s) then None
    else if DigitsValue(s) <= IntMax then Some(DigitsValue(s))
    else None
  }

  /** `toIntOrNull` reads back every `Int` that `toString` wrote. */
  lemma ParseShowInt(n: int)
    requires InIntRange(n)
    ensures ParseInt(ShowInt(n)) == Some(n)
  {
    var s := ShowInt(n);
    if n < 0 {
      var d := ShowNat(-n);
      DigitsValueShowNat(-n);
      assert s == "-" + d;
      assert s[0] == '-' && s[1..] == d;
    } else {
      DigitsValueShowNat(n);
      assert IsDigit(s[0]);
    }
  }

  /** A string with a character that is not a digit or a leading sign is not an integer. */
  lemma ParseIntRejectsNonDigit(s: string, i: int)
    requires 0 <= i < |s| && !IsDigit(s[i])
    requires i > 0 || (s[0] != '-' && s[0] != '+')
    ensures ParseInt(s) == None
  {
    if s[0] == '-' || s[0] == '+' {
      assert !IsDigit(s[1..][i - 1]);
    }
  }
}

=== FILE: bundle.dfy ===
/** An Android `Bundle` as a finite map from key to typed value, with the typed getters
    and setters the serialisers use. A getter returns its default when the key is
    missing or holds a value of another type; `getString` also does when the stored
    string is null. */
module Bundle {
  import opened Base

  datatype Value =
    | StringVal(s: Option<string>)
    | IntVal(i: int)
    | BoolVal(b: bool)
    | LongVal(l: int)

  type Bundle = map<string, Value>

  const Empty: Bundle := map[]

  function PutString(b: Bundle, key: string, v: Option<string>): (r: Bundle)
    ensures r.Keys == b.Keys + {key}
    ensures GetString(r, key) == v
    ensures forall k :: k in b && k != key ==> k in r && r[k] == b[k]
  {
    b[key := StringVal(v)]
  }

  function PutInt(b: Bundle, key: string, v: int): (r: Bundle)
    ensures r.Keys == b.Keys + {key}
    ensures forall d :: GetInt(r, key, d) == v
    ensures forall k :: k in b && k != key ==> k in r && r[k] == b[k]
  {
    b[key := IntVal(v)]
  }

  function PutBoolean(b: Bundle, key: string, v: bool): (r: Bundle)
    ensures r.Keys == b.Keys + {key}
    ensures forall d :: GetBoolean(r, key, d) == v
    ensures forall k :: k in b && k != key ==> k in r && r[k] == b[k]
  {
    b[key := BoolVal(v)]
  }

  function PutLong(b: Bundle, key: string, v: int): (r: Bundle)
    ensures r.Keys == b.Keys + {key}
    ensures forall d :: GetLong(r, key, d) == v
    ensures forall k :: k in b && k != key ==> k in r && r[k] == b[k]
  {
    b[key := LongVal(v)]
  }

  /** `getString(key)`: the stored string, or null. */
  function GetString(b: Bundle, key: string): (r: Option<string>)
    ensures key !in b ==> r == None
  {
    if key in b && b[key].StringVal? then b[key].s else None
  }

  /** `getString(key, default)`: the default when `getString(key)` would be null. */
  function GetStringOr(b: Bundle, key: string, default: string): (r: string)
    ensures GetString(b, key).Some? ==> r == GetString(b, key).value
    ensures GetString(b, key).None? ==> r == default
  {
    GetString(b, key).OrElse(default)
  }

  function GetInt(b: Bundle, key: string, default: int): (r: int)
    ensures key !in b ==> r == default
    ensures key in b && b[key].IntVal? ==> r == b[key].i
  {
    if key in b && b[key].IntVal? then b[key].i else default
  }

  function GetBoolean(b: Bundle, key: string, default: bool): (r: bool)
    ensures key !in b ==> r == default
    ensures key in b && b[key].BoolVal? ==> r == b[key].b
  {
    if key in b && b[key].BoolVal? then b[key].b else default
  }

  function GetLong(b: Bundle, key: string, default: int): (r: int)
    ensures key !in b ==> r == default
    ensures key in b && b[key].LongVal? ==> r == b[key].l
  {
    if key in b && b[key].LongVal? then b[key].l else default
  }
}

=== FILE: cogwyrm_service.dfy ===
/** The service of the `madness.cogwyrm` variant: a Paho Android client, a connected
    flag that guards publish and subscribe, and an unbounded message history. There
    is no subscription map and no reconnect. */
module CogwyrmService {
  import opened Base
  import opened Text
  import Wire

  /** `MessageRecord` without its timestamp. */
  datatype MessageRecord = MessageRecord(topic: string, message: string, isIncoming: bool)

  /** `isConnected`, whether `mqttClient` is set, and `messageHistory`. */
  datatype State = State(connected: bool, hasClient: bool, history: seq<MessageRecord>)

  const Init: State := State(false, false, [])

  /** How `connect()` ended: the token's success or failure callback ran, or the call
      threw an `MqttException`. */
  datatype ConnectReply = ConnectSucceeded | ConnectFailed | ConnectThrew

  datatype Event =
      /** `connect(...)`; `uuid` is the random id used for an empty client id. */
    | Connect(brokerUrl: string, port: int, clientId: string, useSsl: bool, uuid: string, connectReply: ConnectReply)
    | ConnectionLost
      /** `messageArrived`, whose topic and message may be null. */
    | MessageArrived(arrivedTopic: Option<string>, arrivedMessage: Option<string>)
      /** `disconnect()`, `publish` and `subscribe`; `Failed` means the call threw. */
    | Disconnect(reply: Wire.Reply)
    | Publish(topic: string, message: string, qos: int, reply: Wire.Reply)
    | Subscribe(topic: string, qos: int, reply: Wire.Reply)

  /** An empty client id becomes `Cogwyrm_` and a random UUID; any other is kept. */
  function ClientIdFor(clientId: string, uuid: string): (id: string)
    ensures |clientId| > 0 ==> id == clientId
    ensures |clientId| == 0 ==> StartsWith(id, "Cogwyrm_") && id[8..] == uuid
  {
    if |clientId| == 0 then
      var id := "Cogwyrm_" + uuid;
      assert id[..8] == "Cogwyrm_";
      id
    else clientId
  }

  /** One event's result: the new state, the calls made on the client, and whether an
      exception escapes the operation to its caller. */
  datatype StepResult = StepResult(state: State, calls: seq<Wire.Call>, escapes: bool)

  /** The flag after `connect`: only the success callback sets it. */
  function ConnectedAfter(reply: ConnectReply): (connected: bool)
    ensures connected <==> reply == ConnectSucceeded
  {
    match reply
    case ConnectSucceeded => true
    case ConnectFailed => false
    case ConnectThrew => false
  }

  /** One event. The flag is set only with a client, the client is never dropped, each
      event makes at most one call through it, and the history grows by at most one
      record. An escaping exception leaves the state as it was and makes no call. */
  function Step(s: State, e: Event): (r: StepResult)
    ensures Consistent(s) ==> Consistent(r.state)
    ensures s.hasClient ==> r.state.hasClient
    ensures |r.calls| <= 1 && (r.calls != [] ==> r.state.hasClient)
    ensures |s.history| <= |r.state.history| <= |s.history| + 1
    ensures r.escapes ==> r.state == s && r.calls == [] && e.Publish?
  {
    match e
    case Connect(brokerUrl, port, clientId, useSsl, uuid, reply) =>
      var call := Wire.Connect(Wire.ServerUri(brokerUrl, port, useSsl), ClientIdFor(clientId, uuid), Wire.DefaultOptions);
      StepResult(s.(hasClient := true, connected := ConnectedAfter(reply)), [call], false)
    case ConnectionLost =>
      StepResult(if s.hasClient then s.(connected := false) else s, [], false)
    case MessageArrived(topic, message) =>
      if s.hasClient && message.Some? then
        StepResult(s.(history := s.history + [MessageRecord(topic.OrElse(""), message.value, true)]), [], false)
      else StepResult(s, [], false)
    case Disconnect(reply) =>
      if !s.hasClient then StepResult(s.(connected := false), [], false)
      else if reply.Succeeded? then StepResult(s.(connected := false), [Wire.Disconnect], false)
      else StepResult(s, [Wire.Disconnect], false)
    case Publish(topic, message, qos, reply) =>
      if !s.connected then StepResult(s, [], false)
      // `msg.qos = qos` throws `IllegalArgumentException`, which the `MqttException`
      // handler does not catch.
      else if !Wire.ValidQos(qos) then StepResult(s, [], true)
      else
        var calls := if s.hasClient then [Wire.Publish(topic, message, qos, false)] else [];
        if s.hasClient && reply.Failed? then StepResult(s, calls, false)
        else StepResult(s.(history := s.history + [MessageRecord(topic, message, false)]), calls, false)
    case Subscribe(topic, qos, reply) =>
      if !s.connected then StepResult(s, [], false)
      else StepResult(s, if s.hasClient then [Wire.Subscribe(topic, qos)] else [], false)
  }

  function Run(s: State, events: seq<Event>): State
    decreases |events|
  {
    if |events| == 0 then s else Run(Step(s, events[0]).state, events[1..])
  }

  // ---------------------------------------------------------------------------
  // Properties
  // ---------------------------------------------------------------------------

  /** The flag is only ever set together with a client, and the client is never
      dropped. */
  predicate Consistent(s: State) {
    s.connected ==> s.hasClient
  }

  lemma {:induction false} RunKeepsConsistent(s: State, events: seq<Event>)
    requires Consistent(s)
    ensures Consistent(Run(s, events))
    ensures s.hasClient ==> Run(s, events).hasClient
    decreases |events|
  {
    if |events| > 0 {
      RunKeepsConsistent(Step(s, events[0]).state, events[1..]);
    }
  }

  /** `connect` makes one call on a client built for `ssl://` exactly when `useSSL`
      is set, and the flag ends up set exactly when the success callback ran. */
  lemma ConnectStep(s: State, brokerUrl: string, port: int, clientId: string, useSsl: bool, uuid: string, reply: ConnectReply)
    ensures var StepResult(t, calls, escapes) := Step(s, Connect(brokerUrl, port, clientId, useSsl, uuid, reply));
      && !escapes
      && |calls| == 1 && calls[0].Connect?
      && (StartsWith(calls[0].serverUri, "ssl://") <==> useSsl)
      && (|clientId| > 0 ==> calls[0].clientId == clientId)
      && (t.connected <==> reply == ConnectSucceeded)
      && t.history == s.history
  {
  }

  /** A lost connection and a disconnect that did not throw both clear the flag, with
      no reconnect; a disconnect that threw changes nothing. */
  lemma FlagClearing(s: State, reply: Wire.Reply)
    requires s.hasClient
    ensures Step(s, ConnectionLost) == StepResult(s.(connected := false), [], false)
    ensures reply.Succeeded? ==> !Step(s, Disconnect(reply)).state.connected
    ensures reply.Failed? ==> Step(s, Disconnect(reply)).state == s
  {
  }

  /** While not connected, publish and subscribe return at once: no call, no record. */
  lemma NotConnectedGuards(s: State, topic: string, message: string, qos: int, reply: Wire.Reply)
    requires !s.connected
    ensures Step(s, Publish(topic, message, qos, reply)) == StepResult(s, [], false)
    ensures Step(s, Subscribe(topic, qos, reply)) == StepResult(s, [], false)
  {
  }

  /** A connected publish with a QoS of 0, 1 or 2 makes one call and, unless the call
      threw, appends one outgoing record with the given topic and message; nothing is
      ever trimmed. Any other QoS escapes as an exception with no call and no record. */
  lemma PublishAppends(s: State, topic: string, message: string, qos: int, reply: Wire.Reply)
    requires Consistent(s) && s.connected
    ensures var StepResult(t, calls, escapes) := Step(s, Publish(topic, message, qos, reply));
      && (escapes <==> !Wire.ValidQos(qos))
      && (!Wire.ValidQos(qos) ==> t == s && calls == [])
      && (Wire.ValidQos(qos) ==> calls == [Wire.Publish(topic, message, qos, false)])
      && (Wire.ValidQos(qos) && reply.Succeeded? ==> t.history == s.history + [MessageRecord(topic, message, false)])
      && (reply.Failed? ==> t == s)
  {
  }

  /** An incoming message is appended as an incoming record, a null topic as `""`;
      a null message is dropped. */
  lemma MessageArrivedStep(s: State, topic: Option<string>, message: Option<string>)
    requires s.hasClient
    ensures var t := Step(s, MessageArrived(topic, message)).state;
      && (message.None? ==> t == s)
      && (message.Some? && topic.None? ==> t.history == s.history + [MessageRecord("", message.value, true)])
      && (message.Some? && topic.Some? ==> t.history == s.history + [MessageRecord(topic.value, message.value, true)])
  {
  }
}

=== FILE: commander_service.dfy ===
/** The service of the `madness.mqttcommander` variant: the connected-flag machine of
    the `madness.cogwyrm` service without callbacks and without a history. */
module CommanderService {
  import opened Base
  import opened Text
  import Wire
  import C = CogwyrmService

  /** `isConnected` and whether `mqttClient` is set. */
  datatype State = State(connected: bool, hasClient: bool)

  const Init: State := State(false, false)

  datatype Event =
    | Connect(brokerUrl: string, port: int, clientId: string, useSsl: bool, uuid: string, connectReply: C.ConnectReply)
    | Disconnect(reply: Wire.Reply)
    | Publish(topic: string, message: string, qos: int, reply: Wire.Reply)
    | Subscribe(topic: string, qos: int, reply: Wire.Reply)

  /** One event's result: the new state, the calls made on the client, and whether an
      exception escapes the operation to its caller. */
  datatype StepResult = StepResult(state: State, calls: seq<Wire.Call>, escapes: bool)

  /** An empty client id becomes `MQTTCommander_` and a random UUID; any other is kept. */
  function ClientIdFor(clientId: string, uuid: string): (id: string)
    ensures |clientId| > 0 ==> id == clientId
    ensures |clientId| == 0 ==> StartsWith(id, "MQTTCommander_") && id[14..] == uuid
  {
    if |clientId| == 0 then
      var id := "MQTTCommander_" + uuid;
      assert id[..14] == "MQTTCommander_";
      id
    else clientId
  }

  /** `isConnected()`. */
  function IsConnected(s: State): bool {
    s.connected
  }

  /** One event. A flag set only with a client stays so, each event makes at most one
      call, and a call is made only through a client. An escaping exception leaves the
      state as it was and makes no call. */
  function Step(s: State, e: Event): (r: StepResult)
    ensures (s.connected ==> s.hasClient) ==> (r.state.connected ==> r.state.hasClient)
    ensures s.hasClient ==> r.state.hasClient
    ensures |r.calls| <= 1 && (r.calls != [] ==> r.state.hasClient)
    ensures r.escapes ==> r.state == s && r.calls == [] && e.Publish?
  {
    match e
    case Connect(brokerUrl, port, clientId, useSsl, uuid, reply) =>
      var call := Wire.Connect(Wire.ServerUri(brokerUrl, port, useSsl), ClientIdFor(clientId, uuid), Wire.DefaultOptions);
      StepResult(State(C.ConnectedAfter(reply), true), [call], false)
    case Disconnect(reply) =>
      if !s.hasClient then StepResult(s.(connected := false), [], false)
      else if reply.Succeeded? then StepResult(s.(connected := false), [Wire.Disconnect], false)
      else StepResult(s, [Wire.Disconnect], false)
    case Publish(topic, message, qos, reply) =>
      // As in the `madness.cogwyrm` service, `msg.qos = qos` throws past the handler.
      if s.connected && !Wire.ValidQos(qos) then StepResult(s, [], true)
      else StepResult(s, if s.connected && s.hasClient then [Wire.Publish(topic, message, qos, false)] else [], false)
    case Subscribe(topic, qos, reply) =>
      StepResult(s, if s.connected && s.hasClient then [Wire.Subscribe(topic, qos)] else [], false)
  }

  function Run(s: State, events: seq<Event>): State
    decreases |events|
  {
    if |events| == 0 then s else Run(Step(s, events[0]).state, events[1..])
  }

  // ---------------------------------------------------------------------------
  // Properties
  // ---------------------------------------------------------------------------

  /** A fresh service reports not connected. */
  lemma InitiallyDisconnected()
    ensures !IsConnected(Init)
  {
  }

  /** The flag: set exactly by a successful connect, cleared by a disconnect that did
      not throw, untouched by a disconnect that threw. Publish and subscribe call the
      client only while connected and never change the state; a connected publish with
      a QoS outside 0..2 escapes as an exception instead of calling. */
  lemma StepFlag(s: State, e: Event)
    ensures var StepResult(t, calls, escapes) := Step(s, e);
      && (e.Connect? ==> (t.connected <==> e.connectReply == C.ConnectSucceeded))
      && (e.Disconnect? && (e.reply.Succeeded? || !s.hasClient) ==> !t.connected)
      && (e.Disconnect? && e.reply.Failed? && s.hasClient ==> t == s)
      && (e.Publish? || e.Subscribe? ==> t == s && (calls != [] ==> s.connected))
      && (escapes <==> e.Publish? && s.connected && !Wire.ValidQos(e.qos))
      && (e.Publish? && s.connected && s.hasClient && Wire.ValidQos(e.qos) ==>
            calls == [Wire.Publish(e.topic, e.message, e.qos, false)])
  {
  }

  /** The same operation on the `madness.cogwyrm` service. */
  function AsCogwyrm(e: Event): C.Event {
    match e
    case Connect(brokerUrl, port, clientId, useSsl, uuid, reply) => C.Connect(brokerUrl, port, clientId, useSsl, uuid, reply)
    case Disconnect(reply) => C.Disconnect(reply)
    case Publish(topic, message, qos, reply) => C.Publish(topic, message, qos, reply)
    case Subscribe(topic, qos, reply) => C.Subscribe(topic, qos, reply)
  }

  function AsCogwyrmAll(events: seq<Event>): (r: seq<C.Event>)
    ensures |r| == |events|
    ensures forall i :: 0 <= i < |events| ==> r[i] == AsCogwyrm(events[i])
  {
    seq(|events|, i requires 0 <= i < |events| => AsCogwyrm(events[i]))
  }

  /** The two services keep the same flag over any sequence of the operations they
      share: their connected-flag machines are the same. */
  lemma {:induction false} FlagsAgree(s: State, cs: C.State, events: seq<Event>)
    requires s.connected == cs.connected && s.hasClient == cs.hasClient
    ensures Run(s, events).connected == C.Run(cs, AsCogwyrmAll(events)).connected
    decreases |events|
  {
    if |events| > 0 {
      var ces := AsCogwyrmAll(events);
      assert ces[0] == AsCogwyrm(events[0]);
      assert ces[1..] == AsCogwyrmAll(events[1..]);
      FlagsAgree(Step(s, events[0]).state, C.Step(cs, ces[0]).state, events[1..]);
    }
  }

  lemma FlagsAgreeFromInit(events: seq<Event>)
    ensures IsConnected(Run(Init, events)) == C.Run(C.Init, AsCogwyrmAll(events)).connected
  {
    FlagsAgree(Init, C.Init, events);
  }
}

=== FILE: config_activity.dfy ===
/** The Tasker configuration screen of the publish action: the check run on save, the
    record it builds from its text fields, the connection test, the generated client
    id, and the blurb Tasker shows for a configured action. A text field is an
    `Option<string>`, since the view's text may be null. */
module MQTTConfigActivity {
  import opened Base
  import opened Text
  import A = MQTTTaskerAction
  import W = MQTTClient

  const BrokerUrlRequired := "Broker URL is required"
  const TopicRequired := "Topic is required"
  const PayloadRequired := "Message payload is required"

  /** `text?.toString() ?: ""`. */
  function TextOf(field: Option<string>): string {
    field.OrElse("")
  }

  /** `validateInput`: `None` when the action may be saved, otherwise the message shown.
      The broker URL is checked first, then the topic, then the payload. */
  function ValidateInput(brokerUrl: Option<string>, topic: Option<string>, payload: Option<string>): (r: Option<string>)
    ensures r.None? <==> |TextOf(brokerUrl)| > 0 && |TextOf(topic)| > 0 && |TextOf(payload)| > 0
    ensures |TextOf(brokerUrl)| == 0 ==> r == Some(BrokerUrlRequired)
    ensures |TextOf(brokerUrl)| > 0 && |TextOf(topic)| == 0 ==> r == Some(TopicRequired)
    ensures |TextOf(brokerUrl)| > 0 && |TextOf(topic)| > 0 && |TextOf(payload)| == 0 ==> r == Some(PayloadRequired)
  {
    if |TextOf(brokerUrl)| == 0 then Some(BrokerUrlRequired)
    else if |TextOf(topic)| == 0 then Some(TopicRequired)
    else if |TextOf(payload)| == 0 then Some(PayloadRequired)
    else None
  }

  /** `takeIf { it.isNotEmpty() }` on a field's text: empty text becomes null. */
  function NonEmptyOrNull(field: Option<string>): (r: Option<string>)
    ensures r.Some? <==> field.Some? && |field.value| > 0
    ensures r.Some? ==> r == field
  {
    if field.Some? && |field.value| > 0 then field else None
  }

  /** `generateClientId`: `cogwyrm_` and the first eight characters of a random UUID
      (whose text form always has 36). */
  function GenerateClientId(uuid: string): (id: string)
    requires |uuid| >= 8
    ensures |id| == 16
    ensures StartsWith(id, "cogwyrm_") && id[8..] == uuid[..8]
  {
    var id := "cogwyrm_" + uuid[..8];
    assert id[..8] == "cogwyrm_";
    id
  }

  /** The text fields of the screen. */
  datatype Fields = Fields(
    brokerUrl: Option<string>,
    port: Option<string>,
    clientId: Option<string>,
    topic: Option<string>,
    payload: Option<string>,
    qos: Option<string>,
    useSsl: bool,
    username: Option<string>,
    password: Option<string>)

  /** `getCurrentInput`: port text that is not an integer gives 1883, QoS text that is
      not one gives 0, a null client id is replaced by a generated one, and empty
      credentials become null. */
  function GetCurrentInput(f: Fields, generatedId: string): (i: A.ActionInput)
    ensures ParseInt(TextOf(f.port)).None? ==> i.port == 1883
    ensures ParseInt(TextOf(f.port)).Some? ==> i.port == ParseInt(TextOf(f.port)).value
    ensures ParseInt(TextOf(f.qos)).None? ==> i.qos == 0
    ensures ParseInt(TextOf(f.qos)).Some? ==> i.qos == ParseInt(TextOf(f.qos)).value
    ensures i.clientId == if f.clientId.Some? then f.clientId.value else generatedId
    ensures i.username.Some? <==> f.username.Some? && |f.username.value| > 0
    ensures i.password.Some? <==> f.password.Some? && |f.password.value| > 0
    ensures i.brokerUrl == TextOf(f.brokerUrl) && i.topic == TextOf(f.topic) && i.payload == TextOf(f.payload)
  {
    A.ActionInput(
      TextOf(f.brokerUrl),
      ParseInt(TextOf(f.port)).OrElse(1883),
      f.clientId.OrElse(generatedId),
      TextOf(f.topic),
      TextOf(f.payload),
      ParseInt(TextOf(f.qos)).OrElse(0),
      f.useSsl,
      NonEmptyOrNull(f.username),
      NonEmptyOrNull(f.password))
  }

  /** An untouched screen (every field null) yields port 1883, QoS 0 and no
      credentials, and the record is not a valid action. */
  lemma BlankScreenDefaults(generatedId: string)
    ensures var i := GetCurrentInput(Fields(None, None, None, None, None, None, false, None, None), generatedId);
      && i.port == 1883 && i.qos == 0 && i.username.None? && i.password.None?
      && i.clientId == generatedId
      && !A.IsValid(i)
  {
  }

  /** What the connection test hands the wrapper's constructor. */
  datatype TestSettings = TestSettings(
    brokerUrl: string,
    port: int,
    clientId: string,
    useSsl: bool,
    username: Option<string>,
    password: Option<string>)

  datatype TestResult =
      /** Refused before any client is created. */
    | Refused(message: string)
      /** A client was created with these settings, connected and disconnected. */
    | Attempted(settings: TestSettings, message: string)

  /** `testConnection`: an empty broker URL is refused before any client exists;
      otherwise the test connects and disconnects, and `failure` is the message of the
      exception either step threw, if any. */
  function TestConnection(f: Fields, generatedId: string, failure: Option<string>): (r: TestResult)
    ensures r.Refused? <==> |TextOf(f.brokerUrl)| == 0
    ensures r.Refused? ==> r.message == BrokerUrlRequired
    ensures r.Attempted? ==>
      && r.settings.brokerUrl == TextOf(f.brokerUrl)
      && r.settings.port == GetCurrentInput(f, generatedId).port
      && r.settings.clientId == GetCurrentInput(f, generatedId).clientId
      && r.settings.useSsl == f.useSsl
      && r.settings.username == NonEmptyOrNull(f.username)
      && r.settings.password == NonEmptyOrNull(f.password)
    ensures r.Attempted? && failure.None? ==> r.message == "Connection successful!"
    ensures r.Attempted? && failure.Some? ==> r.message == "Connection failed: " + failure.value
  {
    var i := GetCurrentInput(f, generatedId);
    if |i.brokerUrl| == 0 then Refused(BrokerUrlRequired)
    else
      Attempted(TestSettings(i.brokerUrl, i.port, i.clientId, i.useSsl, i.username, i.password),
                if failure.None? then "Connection successful!" else "Connection failed: " + failure.value)
  }

  /** The wrapper the test builds: the screen's broker, port, client id and SSL switch,
      with no listeners. The constructor also receives the credentials, but the wrapper
      never reads them. */
  function TestClient(t: TestSettings): (cfg: W.Config)
    ensures cfg.brokerUrl == t.brokerUrl && cfg.port == t.port && cfg.clientId == t.clientId
    ensures cfg.useSsl == t.useSsl && !cfg.hasOnConnectionLost && !cfg.hasOnMessageArrived
  {
    W.Config(t.brokerUrl, t.port, t.clientId, t.useSsl, false, false)
  }

  /** The test then calls `connect()` with its default arguments on a fresh wrapper. At
      most one connect call goes to Paho, under the screen's client id, with the scheme
      the wrapper derives from the broker text and the SSL switch. It carries no
      credentials and no SSL socket factory, whatever the screen holds. A broker that
      refuses ends the test with the wrapper's "Failed to connect to broker". */
  lemma TestSendsNoCredentials(f: Fields, generatedId: string, failure: Option<string>,
                               parseHost: string -> Option<string>, reply: W.ConnectReply)
    requires TestConnection(f, generatedId, failure).Attempted?
    ensures var cfg := TestClient(TestConnection(f, generatedId, failure).settings);
      var r := W.Step(cfg, parseHost, W.Init, W.Connect(None, None, false, 30000, reply));
      && |r.effects| <= 1
      && (W.BuildServerURI(cfg, parseHost).Some? ==> |r.effects| == 1)
      && (forall i :: 0 <= i < |r.effects| ==>
            && r.effects[i].Call? && r.effects[i].call.Connect?
            && r.effects[i].call.clientId == GetCurrentInput(f, generatedId).clientId
            && StartsWith(r.effects[i].call.serverUri, W.SchemeOf(cfg) + "://")
            && r.effects[i].call.options.userName.None?
            && r.effects[i].call.options.password.None?
            && !r.effects[i].call.options.sslSocketFactory)
      && (reply.Refused? && W.BuildServerURI(cfg, parseHost).Some? ==>
            r.outcome == W.MQTTException("Failed to connect to broker"))
  {
  }

  // ---------------------------------------------------------------------------
  // Blurb
  // ---------------------------------------------------------------------------

  const PreviewLength: nat := 20

  /** The payload as the blurb shows it: its first 20 characters, then `...` if there
      were more. */
  function PayloadPreview(payload: string): (r: string)
    ensures |payload| <= PreviewLength ==> r == payload
    ensures |payload| > PreviewLength ==> r == payload[..PreviewLength] + "..."
  {
    Take(payload, PreviewLength) + (if |payload| > PreviewLength then "..." else "")
  }

  /** `addToStringBlurb`: three lines for broker, topic and payload. */
  function Blurb(i: A.ActionInput): string {
    "Broker: " + i.brokerUrl + ":" + ShowInt(i.port) + "\n"
      + "Topic: " + i.topic + "\n"
      + "Payload: " + PayloadPreview(i.payload)
  }

  lemma ShowIntHasNoNewline(n: int)
    ensures '\n' !in ShowInt(n)
  {
    var s := ShowNat(if n < 0 then -n else n);
    assert forall k :: 0 <= k < |s| ==> IsDigit(s[k]);
    if n < 0 {
      assert ShowInt(n) == "-" + s;
    }
  }

  /** With no line break inside the fields, the blurb reads back as exactly its three
      lines. */
  lemma BlurbLines(i: A.ActionInput)
    requires '\n' !in i.brokerUrl && '\n' !in i.topic && '\n' !in i.payload
    ensures Split(Blurb(i), '\n') == [
      "Broker: " + i.brokerUrl + ":" + ShowInt(i.port),
      "Topic: " + i.topic,
      "Payload: " + PayloadPreview(i.payload)]
  {
    var a := "Broker: " + i.brokerUrl + ":" + ShowInt(i.port);
    var b := "Topic: " + i.topic;
    var c := "Payload: " + PayloadPreview(i.payload);
    ShowIntHasNoNewline(i.port);
    assert '\n' !in a;
    assert '\n' !in b;
    assert '\n' !in c by {
      var p := PayloadPreview(i.payload);
      assert forall k :: 0 <= k < |p| ==> p[k] != '\n' by {
        if |i.payload| > PreviewLength {
          forall k | 0 <= k < |p| ensures p[k] != '\n' {
            if k < PreviewLength { assert p[k] == i.payload[k]; }
          }
        }
      }
    }
    assert Blurb(i) == a + ['\n'] + b + ['\n'] + c;
    SplitThree(a, b, c, '\n');
  }
}

=== FILE: error_handler.dfy ===
/** `ErrorHandler`: the input validators that throw `ValidationError`, the mapping from
    Paho reason codes to error categories, and the conversion to a Tasker error.
    Android string resources are identified by `StringRes` and rendered by a `getString`
    parameter, since their texts live outside the code. */
module ErrorHandler {
  import opened Base
  import opened Text
  import opened Errors

  datatype StringRes =
    | ErrorConnectionFailed
    | ErrorConnectionLost
    | ErrorAuthFailed
    | ErrorSslFailed
    | ErrorUnknown
    | ErrorBrokerUrlRequired
    | ErrorPortRequired
    | ErrorPortInvalid
    | ErrorTopicRequired
    | ErrorMessageRequired
    | ErrorInvalidInput

  // Paho `MqttException` reason codes used by the mapping.
  const ClientException: int := 0
  const FailedAuthentication: int := 4
  const ServerConnectError: int := 32103
  const SslConfigError: int := 32106
  const ConnectionLost: int := 32109
  const ConnectInProgress: int := 32110

  /** The reason codes with a dedicated branch. */
  predicate IsKnownReason(reasonCode: int) {
    reasonCode in {ClientException, ConnectInProgress, ConnectionLost, ServerConnectError,
                   FailedAuthentication, SslConfigError}
  }

  /** The string resource each reason code is reported with. */
  function ReasonMessage(reasonCode: int): StringRes {
    if reasonCode == ClientException || reasonCode == ConnectInProgress
      || reasonCode == ServerConnectError then ErrorConnectionFailed
    else if reasonCode == ConnectionLost then ErrorConnectionLost
    else if reasonCode == FailedAuthentication then ErrorAuthFailed
    else if reasonCode == SslConfigError then ErrorSslFailed
    else ErrorUnknown
  }

  /** `handleMqttException`: the `when` over the reason code. The dialog or toast it
      shows is left out; the error it returns is the one it built. */
  function HandleMqttException(reasonCode: int, getString: StringRes -> string): (e: CogwyrmError)
    ensures e.ConnectionError? <==> IsKnownReason(reasonCode)
    ensures e.UnknownError? <==> !IsKnownReason(reasonCode)
    ensures e.message == getString(ReasonMessage(reasonCode))
  {
    if reasonCode == ClientException then ConnectionError(getString(ErrorConnectionFailed))
    else if reasonCode == ConnectInProgress then ConnectionError(getString(ErrorConnectionFailed))
    else if reasonCode == ConnectionLost then ConnectionError(getString(ErrorConnectionLost))
    else if reasonCode == ServerConnectError then ConnectionError(getString(ErrorConnectionFailed))
    else if reasonCode == FailedAuthentication then ConnectionError(getString(ErrorAuthFailed))
    else if reasonCode == SslConfigError then ConnectionError(getString(ErrorSslFailed))
    else UnknownError(getString(ErrorUnknown))
  }

  /** What the reported resource reveals about the code: "unknown" exactly for codes
      without a branch, "lost", "auth failed" and "ssl failed" each for exactly one
      code, and two different known codes share a resource only when it is
      "connection failed". */
  lemma ReasonResourceIdentifiesCode(a: int, b: int)
    ensures IsKnownReason(a) <==> ReasonMessage(a) != ErrorUnknown
    ensures ReasonMessage(a) == ErrorConnectionLost <==> a == ConnectionLost
    ensures ReasonMessage(a) == ErrorAuthFailed <==> a == FailedAuthentication
    ensures ReasonMessage(a) == ErrorSslFailed <==> a == SslConfigError
    ensures IsKnownReason(a) && a != b && ReasonMessage(a) == ReasonMessage(b) ==>
      ReasonMessage(a) == ErrorConnectionFailed
  {
  }

  /** The mapping by category: three codes mean "connection failed", one each means
      "connection lost", "auth failed" and "ssl failed", every other code is unknown. */
  lemma ReasonCategories(reasonCode: int, getString: StringRes -> string)
    ensures reasonCode in {ClientException, ConnectInProgress, ServerConnectError} ==>
      HandleMqttException(reasonCode, getString) == ConnectionError(getString(ErrorConnectionFailed))
    ensures reasonCode == ConnectionLost ==>
      HandleMqttException(reasonCode, getString) == ConnectionError(getString(ErrorConnectionLost))
    ensures reasonCode == FailedAuthentication ==>
      HandleMqttException(reasonCode, getString) == ConnectionError(getString(ErrorAuthFailed))
    ensures reasonCode == SslConfigError ==>
      HandleMqttException(reasonCode, getString) == ConnectionError(getString(ErrorSslFailed))
    ensures !IsKnownReason(reasonCode) ==>
      HandleMqttException(reasonCode, getString) == UnknownError(getString(ErrorUnknown))
  {
  }

  /** `createTaskerError`: a Tasker error carrying the error's message. */
  function CreateTaskerError<T>(error: CogwyrmError): (r: TaskerResult<T>)
    ensures r.Error? && r.message == error.message
  {
    Error(error.message)
  }

  /** A handled Paho failure reaches Tasker with its resource text. */
  lemma HandledExceptionReachesTasker(reasonCode: int, getString: StringRes -> string)
    ensures CreateTaskerError<()>(HandleMqttException(reasonCode, getString))
      == Error(getString(ReasonMessage(reasonCode)))
  {
  }

  // ---------------------------------------------------------------------------
  // Validation helpers
  // ---------------------------------------------------------------------------

  /** `validateBrokerUrl`: null or blank is rejected; anything else is returned as is. */
  function ValidateBrokerUrl(url: Option<string>, getString: StringRes -> string): (r: Result<string, CogwyrmError>)
    ensures r.Err? <==> IsNullOrBlank(url)
    ensures r.Err? ==> r.error == ValidationError(getString(ErrorBrokerUrlRequired))
    ensures r.Ok? ==> url == Some(r.value)
  {
    if IsNullOrBlank(url) then Err(ValidationError(getString(ErrorBrokerUrlRequired)))
    else Ok(url.value)
  }

  /** `validatePort`: null or blank is "port required"; text that `toInt` cannot read, or
      an integer outside 1..65535, is "port invalid"; otherwise the integer. */
  function ValidatePort(port: Option<string>, getString: StringRes -> string): (r: Result<int, CogwyrmError>)
    ensures IsNullOrBlank(port) ==> r == Err(ValidationError(getString(ErrorPortRequired)))
    ensures !IsNullOrBlank(port) && r.Err? ==> r == Err(ValidationError(getString(ErrorPortInvalid)))
    ensures r.Ok? <==> !IsNullOrBlank(port) && ParseInt(port.value).Some? && 1 <= ParseInt(port.value).value <= 65535
    ensures r.Ok? ==> r.value == ParseInt(port.value).value
  {
    if IsNullOrBlank(port) then Err(ValidationError(getString(ErrorPortRequired)))
    else match ParseInt(port.value)
      case None => Err(ValidationError(getString(ErrorPortInvalid)))
      case Some(n) =>
        if !(1 <= n <= 65535) then Err(ValidationError(getString(ErrorPortInvalid)))
        else Ok(n)
  }

  /** Every port in range, written in decimal, is accepted and read back. */
  lemma ValidatePortAcceptsRange(n: int, getString: StringRes -> string)
    requires 1 <= n <= 65535
    ensures ValidatePort(Some(ShowInt(n)), getString) == Ok(n)
  {
    ParseShowInt(n);
    assert !IsWhitespace(ShowInt(n)[0]);
  }

  /** Every other integer, written in decimal, is "port invalid". */
  lemma ValidatePortRejectsOutOfRange(n: int, getString: StringRes -> string)
    requires InIntRange(n) && !(1 <= n <= 65535)
    ensures ValidatePort(Some(ShowInt(n)), getString) == Err(ValidationError(getString(ErrorPortInvalid)))
  {
    ParseShowInt(n);
    var s := ShowInt(n);
    if n < 0 {
      assert s[0] == '-';
    } else {
      assert IsDigit(s[0]);
    }
    assert !IsWhitespace(s[0]);
  }

  /** `validateTopic`: rejects only null or blank input; no MQTT topic syntax is checked. */
  function ValidateTopic(topic: Option<string>, getString: StringRes -> string): (r: Result<string, CogwyrmError>)
    ensures r.Err? <==> IsNullOrBlank(topic)
    ensures r.Err? ==> r.error == ValidationError(getString(ErrorTopicRequired))
    ensures r.Ok? ==> topic == Some(r.value)
  {
    if IsNullOrBlank(topic) then Err(ValidationError(getString(ErrorTopicRequired)))
    else Ok(topic.value)
  }

  /** `validateMessage`: rejects only null or blank input. */
  function ValidateMessage(message: Option<string>, getString: StringRes -> string): (r: Result<string, CogwyrmError>)
    ensures r.Err? <==> IsNullOrBlank(message)
    ensures r.Err? ==> r.error == ValidationError(getString(ErrorMessageRequired))
    ensures r.Ok? ==> message == Some(r.value)
  {
    if IsNullOrBlank(message) then Err(ValidationError(getString(ErrorMessageRequired)))
    else Ok(message.value)
  }

  /** Topic syntax is not checked: `a/#/b`, which breaks the multi-level wildcard rule,
      passes `ValidateTopic`. */
  lemma ValidateTopicIgnoresSyntax(getString: StringRes -> string)
    ensures ValidateTopic(Some("a/#/b"), getString) == Ok("a/#/b")
  {
    assert !IsWhitespace("a/#/b"[0]);
  }
}

=== FILE: errors.dfy ===
/** The application's error categories (`CogwyrmError`). Both declarations in the
    repository carry the same five variants with a message; the `cause` throwable and
    the unused `errorCode` are left out. */
module Errors {

  datatype CogwyrmError =
    | ValidationError(message: string)
    | ConnectionError(message: string)
    | ConfigurationError(message: string)
    | NetworkError(message: string)
    | UnknownError(message: string)

  /** A Tasker plugin result: success, or an error carrying a message. */
  datatype TaskerResult<+T> = Success(value: T) | Error(message: string)
}

=== FILE: event_helper.dfy ===
/** The configuration checks of `MQTTEventHelper`: four validation stages run in order,
    the first failing one decides the error, and a wildcard-topic check that is looser
    than `TopicUtils.ValidateTopic`. */
module MQTTEventHelper {
  import opened Base
  import opened Text
  import opened Errors
  import TopicUtils

  /** The event configuration as this helper reads it. `port` is an `Int`, and the
      credentials are non-null strings here. */
  datatype EventConfig = EventConfig(
    brokerUrl: string,
    port: int,
    clientId: string,
    topic: string,
    qos: int,
    useSSL: bool,
    username: string,
    password: string,
    cleanSession: bool,
    keepAlive: int,
    connectionTimeout: int)

  const InvalidConfiguration := "Invalid configuration"
  const SslNeedsPort8883 := "SSL/TLS typically uses port 8883"
  const Port8883NeedsSsl := "Port 8883 is typically used with SSL/TLS"
  const KeepAliveTooShort := "Keep alive should be at least 10 seconds"
  const TimeoutTooShort := "Connection timeout should be at least 10 seconds"
  const UsernameRequired := "Username is required when password is provided"
  const PasswordRequired := "Password is required when username is provided"
  const InvalidTopicFormat := "Invalid topic format"
  const HashNeedsLowQos := "Multi-level wildcards (#) should use QoS 0 or 1"

  /** `validateConnectionParams`: `None` when nothing is thrown, else the message thrown. */
  function ValidateConnectionParams(c: EventConfig): (r: Option<string>)
    ensures r.None? <==>
      && !(c.port == 1883 && c.useSSL)
      && !(c.port == 8883 && !c.useSSL)
      && c.keepAlive >= 10
      && c.connectionTimeout >= 10
  {
    if c.port == 1883 && c.useSSL then Some(SslNeedsPort8883)
    else if c.port == 8883 && !c.useSSL then Some(Port8883NeedsSsl)
    else if c.keepAlive < 10 then Some(KeepAliveTooShort)
    else if c.connectionTimeout < 10 then Some(TimeoutTooShort)
    else None
  }

  /** `validateSecurityParams`: the credentials must be both blank or both non-blank,
      but only when SSL is on. */
  function ValidateSecurityParams(c: EventConfig): (r: Option<string>)
    ensures r.None? <==> !c.useSSL || IsBlank(c.username) == IsBlank(c.password)
  {
    if c.useSSL then
      if IsBlank(c.username) && !IsBlank(c.password) then Some(UsernameRequired)
      else if !IsBlank(c.username) && IsBlank(c.password) then Some(PasswordRequired)
      else None
    else None
  }

  /** The characters that send a topic to the wildcard check. */
  predicate HasTopicSyntax(topic: string) {
    '#' in topic || '+' in topic || '/' in topic
  }

  /** `validateTopicParams`. */
  function ValidateTopicParams(c: EventConfig): (r: Option<string>)
    ensures r.None? <==>
      (HasTopicSyntax(c.topic) ==> IsValidWildcardTopic(c.topic)) && !('#' in c.topic && c.qos > 1)
  {
    if HasTopicSyntax(c.topic) && !IsValidWildcardTopic(c.topic) then Some(InvalidTopicFormat)
    else if '#' in c.topic && c.qos > 1 then Some(HashNeedsLowQos)
    else None
  }

  /** `validateConfiguration`: the stages in order; the first failure is thrown.
      `basicValid` is the result of the input's `validateInput()`; the input class
      declares only `validate()`, so that verdict comes in as a parameter. */
  function ValidateConfiguration(c: EventConfig, basicValid: bool): (r: Option<string>)
    ensures r.None? <==>
      basicValid && ValidateConnectionParams(c).None? && ValidateSecurityParams(c).None?
      && ValidateTopicParams(c).None?
  {
    if !basicValid then Some(InvalidConfiguration)
    else if ValidateConnectionParams(c).Some? then ValidateConnectionParams(c)
    else if ValidateSecurityParams(c).Some? then ValidateSecurityParams(c)
    else ValidateTopicParams(c)
  }

  /** `isInputValid`: success when no check throws, otherwise an error carrying the
      message of the first failing check. */
  function IsInputValid(c: EventConfig, basicValid: bool): (r: TaskerResult<()>)
    ensures r.Success? <==> ValidateConfiguration(c, basicValid).None?
    ensures r.Error? ==> r.message == ValidateConfiguration(c, basicValid).value
  {
    match ValidateConfiguration(c, basicValid)
    case None => Success(())
    case Some(m) => Error(m)
  }

  // ---------------------------------------------------------------------------
  // isValidWildcardTopic
  // ---------------------------------------------------------------------------

  /** Kotlin `List.indexOf`: the first position holding `x`, or -1. */
  function IndexOf(s: seq<string>, x: string): (r: int)
    ensures -1 <= r < |s|
    ensures r == -1 <==> x !in s
    ensures r >= 0 ==> s[r] == x && forall j :: 0 <= j < r ==> s[j] != x
  {
    if |s| == 0 then -1
    else if s[0] == x then 0
    else var k := IndexOf(s[1..], x); if k == -1 then -1 else k + 1
  }

  /** A part passes the `forEachIndexed` loop when it is exactly a wildcard or holds no
      wildcard character. */
  predicate PartWellFormed(part: string) {
    part == "+" || part == "#" || ('+' !in part && '#' !in part)
  }

  /** The `forEachIndexed` loop: false at the first ill-formed part. */
  function AllPartsWellFormed(parts: seq<string>): bool {
    if |parts| == 0 then true
    else PartWellFormed(parts[0]) && AllPartsWellFormed(parts[1..])
  }

  /** `isValidWildcardTopic`. */
  function IsValidWildcardTopic(topic: string): bool {
    var parts := Split(topic, '/');
    var hashIndex := IndexOf(parts, "#");
    if hashIndex != -1 && hashIndex != |parts| - 1 then false
    else AllPartsWellFormed(parts)
  }

  lemma {:induction false} AllPartsWellFormedSpec(parts: seq<string>)
    ensures AllPartsWellFormed(parts) <==> forall i :: 0 <= i < |parts| ==> PartWellFormed(parts[i])
  {
    if |parts| > 0 {
      AllPartsWellFormedSpec(parts[1..]);
      assert forall i :: 1 <= i < |parts| ==> parts[1..][i - 1] == parts[i];
    }
  }

  /** The wildcard check as a statement about the levels: `#` occurs only as the last
      level, and a level holding `+` or `#` is exactly that wildcard. Empty levels pass. */
  predicate WildcardLevels(parts: seq<string>) {
    && (forall i :: 0 <= i < |parts| && parts[i] == "#" ==> i == |parts| - 1)
    && (forall i :: 0 <= i < |parts| ==> PartWellFormed(parts[i]))
  }

  lemma ValidWildcardTopicSpec(topic: string)
    ensures IsValidWildcardTopic(topic) <==> WildcardLevels(Split(topic, '/'))
  {
    var parts := Split(topic, '/');
    AllPartsWellFormedSpec(parts);
  }

  /** A topic with none of `#`, `+`, `/` always passes the wildcard check, so the topic
      stage reports "Invalid topic format" exactly when the wildcard check fails. */
  lemma InvalidTopicFormatExactly(c: EventConfig)
    ensures ValidateTopicParams(c) == Some(InvalidTopicFormat) <==> !IsValidWildcardTopic(c.topic)
  {
    if !HasTopicSyntax(c.topic) {
      SplitWithoutSeparator(c.topic, '/');
      ValidWildcardTopicSpec(c.topic);
    }
  }

  /** Every topic `TopicUtils.ValidateTopic` accepts passes the wildcard check. */
  lemma TopicUtilsValidIsWildcardValid(topic: string)
    requires TopicUtils.ValidateTopic(topic)
    ensures IsValidWildcardTopic(topic)
  {
    var parts := Split(topic, '/');
    TopicUtils.ValidTopicShape(topic);
    ValidWildcardTopicSpec(topic);
    forall i | 0 <= i < |parts| ensures PartWellFormed(parts[i]) {
      TopicUtils.StandAloneWildcards(parts[i]);
    }
    forall i | 0 <= i < |parts| && parts[i] == "#" ensures i == |parts| - 1 {
      assert parts[i][0] == '#';
    }
  }

  /** The converse fails: the wildcard check accepts empty levels and the empty string. */
  lemma WildcardCheckIsLooser()
    ensures IsValidWildcardTopic("a" + "/" + "" + "/" + "b") && !TopicUtils.ValidateTopic("a" + "/" + "" + "/" + "b")
    ensures IsValidWildcardTopic("") && !TopicUtils.ValidateTopic("")
  {
    SplitThree("a", "", "b", '/');
    ValidWildcardTopicSpec("a" + "/" + "" + "/" + "b");
    TopicUtils.EmptyLevelExamples();
  }

  // ---------------------------------------------------------------------------
  // Stage properties
  // ---------------------------------------------------------------------------

  /** The SSL/port pairing: 1883 with SSL and 8883 without are both rejected. */
  lemma SslPortPairing(c: EventConfig)
    requires (c.port == 1883 && c.useSSL) || (c.port == 8883 && !c.useSSL)
    ensures IsInputValid(c, true) ==
      Error(if c.useSSL then SslNeedsPort8883 else Port8883NeedsSsl)
  {
  }

  /** The credential pairing is not enforced without SSL. */
  lemma NoCredentialCheckWithoutSsl(c: EventConfig)
    requires !c.useSSL
    ensures ValidateSecurityParams(c) == None
  {
  }

  /** A failing basic check wins over every other stage. */
  lemma BasicCheckFirst(c: EventConfig)
    ensures IsInputValid(c, false) == Error(InvalidConfiguration)
  {
  }

  /** `getDefaultInput`: a fresh client id, a clean session and QoS 1; the other fields
      keep the constructor defaults, which are given as `defaults`. */
  function GetDefaultInput(defaults: EventConfig, generatedClientId: string): (c: EventConfig)
    ensures c.cleanSession && c.qos == 1 && c.clientId == generatedClientId
    ensures c.brokerUrl == defaults.brokerUrl && c.port == defaults.port && c.topic == defaults.topic
    ensures c.useSSL == defaults.useSSL && c.username == defaults.username && c.password == defaults.password
    ensures c.keepAlive == defaults.keepAlive && c.connectionTimeout == defaults.connectionTimeout
  {
    defaults.(clientId := generatedClientId, cleanSession := true, qos := 1)
  }

  /** The default input passes the connection and security stages exactly when the
      constructor defaults do, and its QoS of 1 never trips the `#` QoS rule: only the
      topic's shape can make the topic stage fail. */
  lemma DefaultInputStages(defaults: EventConfig, generatedClientId: string)
    ensures var c := GetDefaultInput(defaults, generatedClientId);
      && ValidateConnectionParams(c) == ValidateConnectionParams(defaults)
      && ValidateSecurityParams(c) == ValidateSecurityParams(defaults)
      && ValidateTopicParams(c) != Some(HashNeedsLowQos)
      && (ValidateTopicParams(c).None? <==> (HasTopicSyntax(c.topic) ==> IsValidWildcardTopic(c.topic)))
  {
  }
}

=== FILE: event_input.dfy ===
/** `MQTTEventInput.kt`: the event configuration record, its validity check and its
    `Bundle` serialisation. */
module MQTTEventInput {
  import opened Base
  import opened Text
  import B = Bundle

  datatype EventInput = EventInput(
    brokerUrl: string,
    port: int,
    clientId: Option<string>,
    topic: string,
    qos: int,
    useSsl: bool,
    username: Option<string>,
    password: Option<string>)

  /** The eight keys written by `toBundle`. */
  const Keys: set<string> := {"brokerUrl", "port", "clientId", "topic", "qos", "useSsl", "username", "password"}

  /** `validate`: a non-blank broker URL and topic and a positive port. There is no upper
      port bound, and QoS and credentials are not looked at. */
  predicate Validate(x: EventInput) {
    !IsBlank(x.brokerUrl) && x.port > 0 && !IsBlank(x.topic)
  }

  /** `toBundle`. */
  function ToBundle(x: EventInput): (b: B.Bundle)
    ensures b.Keys == Keys
  {
    var b0 := B.PutString(B.Empty, "brokerUrl", Some(x.brokerUrl));
    var b1 := B.PutInt(b0, "port", x.port);
    var b2 := B.PutString(b1, "clientId", x.clientId);
    var b3 := B.PutString(b2, "topic", Some(x.topic));
    var b4 := B.PutInt(b3, "qos", x.qos);
    var b5 := B.PutBoolean(b4, "useSsl", x.useSsl);
    var b6 := B.PutString(b5, "username", x.username);
    B.PutString(b6, "password", x.password)
  }

  /** `fromBundle`: a missing key falls back to `""`, port 1883, QoS 0, no SSL, or null. */
  function FromBundle(b: B.Bundle): (x: EventInput)
    ensures "port" !in b ==> x.port == 1883
    ensures "qos" !in b ==> x.qos == 0
    ensures "brokerUrl" !in b ==> x.brokerUrl == ""
    ensures "topic" !in b ==> x.topic == ""
  {
    EventInput(
      B.GetStringOr(b, "brokerUrl", ""),
      B.GetInt(b, "port", 1883),
      B.GetString(b, "clientId"),
      B.GetStringOr(b, "topic", ""),
      B.GetInt(b, "qos", 0),
      B.GetBoolean(b, "useSsl", false),
      B.GetString(b, "username"),
      B.GetString(b, "password"))
  }

  /** Every key and type written is read back: serialising then deserialising is the
      identity. */
  lemma RoundTrip(x: EventInput)
    ensures FromBundle(ToBundle(x)) == x
  {
    var b := ToBundle(x);
    assert b["brokerUrl"] == B.StringVal(Some(x.brokerUrl));
    assert b["port"] == B.IntVal(x.port);
    assert b["clientId"] == B.StringVal(x.clientId);
    assert b["topic"] == B.StringVal(Some(x.topic));
    assert b["qos"] == B.IntVal(x.qos);
    assert b["useSsl"] == B.BoolVal(x.useSsl);
    assert b["username"] == B.StringVal(x.username);
  }

  /** The defaults of an empty bundle. */
  lemma EmptyBundleDefaults()
    ensures FromBundle(B.Empty) == EventInput("", 1883, None, "", 0, false, None, None)
  {
  }

  /** An empty bundle does not give a valid configuration: its broker URL is blank. */
  lemma EmptyBundleInvalid()
    ensures !Validate(FromBundle(B.Empty))
  {
    EmptyBundleDefaults();
  }

  /** Validity survives the round trip through a bundle. */
  lemma ValidateSurvivesRoundTrip(x: EventInput)
    ensures Validate(FromBundle(ToBundle(x))) == Validate(x)
  {
    RoundTrip(x);
  }
}

=== FILE: event_output.dfy ===
/** `MQTTEventOutput.kt`: the event output record and its `Bundle` serialisation. The
    clock read by `fromBundle` for a missing timestamp is the parameter `now`. */
module MQTTEventOutput {
  import opened Base
  import B = Bundle

  datatype EventOutput = EventOutput(topic: string, message: string, timestamp: int)

  const Keys: set<string> := {"topic", "message", "timestamp"}

  /** `toBundle`: exactly the three keys, holding the field values. */
  function ToBundle(o: EventOutput): (b: B.Bundle)
    ensures b.Keys == Keys
    ensures b["topic"] == B.StringVal(Some(o.topic))
    ensures b["message"] == B.StringVal(Some(o.message))
    ensures b["timestamp"] == B.LongVal(o.timestamp)
  {
    var b0 := B.PutString(B.Empty, "topic", Some(o.topic));
    var b1 := B.PutString(b0, "message", Some(o.message));
    B.PutLong(b1, "timestamp", o.timestamp)
  }

  /** `fromBundle`: missing strings become `""`, a missing timestamp becomes `now`. */
  function FromBundle(b: B.Bundle, now: int): (o: EventOutput)
    ensures "topic" !in b ==> o.topic == ""
    ensures "message" !in b ==> o.message == ""
    ensures "timestamp" !in b ==> o.timestamp == now
    ensures "timestamp" in b && b["timestamp"].LongVal? ==> o.timestamp == b["timestamp"].l
  {
    EventOutput(
      B.GetStringOr(b, "topic", ""),
      B.GetStringOr(b, "message", ""),
      B.GetLong(b, "timestamp", now))
  }

  /** Serialising then deserialising is the identity, whatever the clock says. */
  lemma RoundTrip(o: EventOutput, now: int)
    ensures FromBundle(ToBundle(o), now) == o
  {
  }

  /** An empty bundle yields empty strings stamped with the current time. */
  lemma EmptyBundleDefaults(now: int)
    ensures FromBundle(B.Empty, now) == EventOutput("", "", now)
  {
  }
}

=== FILE: event_receiver.dfy ===
/** The Tasker event receiver: the validation gate in front of starting the service,
    and the registry of active subscriptions keyed by topic that message delivery and
    teardown consult. Nothing in the receiver ever adds to the registry. */
module MQTTEventReceiver {
  import opened Base
  import opened Errors
  import EH = ErrorHandler
  import Out = MQTTEventOutput
  import B = Bundle
  import Wire

  /** Clients are identified by an opaque reference. */
  type ClientRef = nat

  /** `MQTTSubscription` reduced to its topic and the client it owns. */
  datatype Subscription = Subscription(topic: string, client: ClientRef)

  type Registry = map<string, Subscription>

  const EmptyRegistry: Registry := map[]

  const MessageAction := "com.cogwyrm.app.tasker.ACTION_MQTT_MESSAGE"

  /** The settings `run` forwards to the service as intent extras. */
  datatype ServiceStart = ServiceStart(
    brokerUrl: string,
    port: int,
    useSsl: bool,
    username: Option<string>,
    password: Option<string>,
    clientId: Option<string>,
    topic: string,
    qos: int)

  /** `run`: refused with the invalid-input text when the configuration fails its check
      (`valid` is that check's verdict), otherwise the service is started with the
      configuration. `startFailure` is `Some(message)` when `startService` threw (the
      message itself may be null); the catch-all turns that into an error carrying the
      message, or the unknown-error text for a null one, and no service is started. */
  function RunAction(config: ServiceStart, valid: bool, startFailure: Option<Option<string>>,
                     getString: EH.StringRes -> string): (r: (TaskerResult<()>, seq<ServiceStart>))
    ensures r.0.Error? <==> !valid || startFailure.Some?
    ensures !valid ==> r.0.message == getString(EH.ErrorInvalidInput) && r.1 == []
    ensures valid && startFailure.Some? ==>
      && r.0.message == startFailure.value.OrElse(getString(EH.ErrorUnknown))
      && r.1 == []
    ensures r.0.Success? <==> r.1 == [config]
  {
    if !valid then (Error(getString(EH.ErrorInvalidInput)), [])
    else if startFailure.Some? then (Error(startFailure.value.OrElse(getString(EH.ErrorUnknown))), [])
    else (Success(()), [config])
  }

  /** A broadcast of an event output, as its bundle. */
  datatype Broadcast = Broadcast(action: string, output: B.Bundle)

  /** `handleMessage`: nothing for a topic with no entry, else one broadcast of the
      output for this topic and message. `now` is the output's default timestamp. */
  function HandleMessage(registry: Registry, topic: string, message: string, now: int): (r: Option<Broadcast>)
    ensures r.None? <==> topic !in registry
    ensures r.Some? ==>
      && r.value.action == MessageAction
      && Out.FromBundle(r.value.output, now) == Out.EventOutput(topic, message, now)
  {
    if topic !in registry then None
    else
      var output := Out.EventOutput(topic, message, now);
      Out.RoundTrip(output, now);
      Some(Broadcast(MessageAction, Out.ToBundle(output)))
  }

  /** Calls made on a subscription's own client during teardown. */
  datatype Teardown = Unsubscribe(client: ClientRef, topic: string) | Disconnect(client: ClientRef)

  datatype RemoveResult = RemoveResult(registry: Registry, calls: seq<Teardown>, reported: Option<CogwyrmError>)

  /** `removeSubscription`: take the entry out; if there was one, unsubscribe its client
      from the topic and then disconnect it. The first failure stops the teardown and is
      reported as a connection failure. */
  function RemoveSubscription(registry: Registry, topic: string, unsubscribeReply: Wire.Reply,
                              disconnectReply: Wire.Reply, getString: EH.StringRes -> string): (r: RemoveResult)
    ensures r.registry == registry - {topic}
    ensures topic !in registry ==> r.calls == [] && r.reported.None?
    ensures topic in registry ==>
      && 1 <= |r.calls| <= 2
      && r.calls[0] == Unsubscribe(registry[topic].client, topic)
      && (|r.calls| == 2 <==> unsubscribeReply.Succeeded?)
      && (|r.calls| == 2 ==> r.calls[1] == Disconnect(registry[topic].client))
    ensures r.reported.Some? <==> topic in registry && (unsubscribeReply.Failed? || disconnectReply.Failed?)
    ensures r.reported.Some? ==> r.reported.value == ConnectionError(getString(EH.ErrorConnectionFailed))
  {
    if topic !in registry then RemoveResult(registry - {topic}, [], None)
    else
      var sub := registry[topic];
      var failure := Some(ConnectionError(getString(EH.ErrorConnectionFailed)));
      if unsubscribeReply.Failed? then
        RemoveResult(registry - {topic}, [Unsubscribe(sub.client, topic)], failure)
      else
        RemoveResult(registry - {topic}, [Unsubscribe(sub.client, topic), Disconnect(sub.client)],
                     if disconnectReply.Failed? then failure else None)
  }

  /** The registry operations of the receiver. */
  datatype Op =
    | Deliver(topic: string, message: string, now: int)
    | Remove(topic: string, unsubscribeReply: Wire.Reply, disconnectReply: Wire.Reply)

  function Apply(registry: Registry, op: Op, getString: EH.StringRes -> string): (Registry, seq<Teardown>)
  {
    match op
    case Deliver(_, _, _) => (registry, [])
    case Remove(topic, u, d) =>
      var r := RemoveSubscription(registry, topic, u, d, getString);
      (r.registry, r.calls)
  }

  function ApplyAll(registry: Registry, ops: seq<Op>, getString: EH.StringRes -> string): (Registry, seq<Teardown>)
    decreases |ops|
  {
    if |ops| == 0 then (registry, [])
    else
      var step := Apply(registry, ops[0], getString);
      var rest := ApplyAll(step.0, ops[1..], getString);
      (rest.0, step.1 + rest.1)
  }

  function CountUnsubscribes(calls: seq<Teardown>): nat {
    if |calls| == 0 then 0
    else (if calls[0].Unsubscribe? then 1 else 0) + CountUnsubscribes(calls[1..])
  }

  lemma {:induction false} CountUnsubscribesAppend(a: seq<Teardown>, b: seq<Teardown>)
    ensures CountUnsubscribes(a + b) == CountUnsubscribes(a) + CountUnsubscribes(b)
  {
    if |a| > 0 {
      CountUnsubscribesAppend(a[1..], b);
      assert (a + b)[0] == a[0];
      assert (a + b)[1..] == a[1..] + b;
    } else {
      assert a + b == b;
    }
  }

  /** The registry only shrinks, and each entry is torn down at most once: a run makes
      no more unsubscribe calls than the registry had entries. */
  lemma {:induction false} TeardownAtMostOnce(registry: Registry, ops: seq<Op>, getString: EH.StringRes -> string)
    ensures ApplyAll(registry, ops, getString).0.Keys <= registry.Keys
    ensures CountUnsubscribes(ApplyAll(registry, ops, getString).1) <= |registry.Keys|
    decreases |ops|
  {
    if |ops| > 0 {
      var step := Apply(registry, ops[0], getString);
      TeardownAtMostOnce(step.0, ops[1..], getString);
      CountUnsubscribesAppend(step.1, ApplyAll(step.0, ops[1..], getString).1);
      if ops[0].Remove? && ops[0].topic in registry {
        assert step.0.Keys == registry.Keys - {ops[0].topic};
        assert |step.0.Keys| == |registry.Keys| - 1;
        assert CountUnsubscribes(step.1) == 1;
      } else {
        assert step.0.Keys == registry.Keys;
        assert CountUnsubscribes(step.1) == 0;
      }
    }
  }

  /** Starting from the empty registry, no message is ever broadcast and no client is
      ever torn down. */
  lemma EmptyRegistryIsInert(ops: seq<Op>, getString: EH.StringRes -> string, topic: string, message: string, now: int)
    ensures ApplyAll(EmptyRegistry, ops, getString).0 == EmptyRegistry
    ensures CountUnsubscribes(ApplyAll(EmptyRegistry, ops, getString).1) == 0
    ensures HandleMessage(ApplyAll(EmptyRegistry, ops, getString).0, topic, message, now).None?
  {
    TeardownAtMostOnce(EmptyRegistry, ops, getString);
  }

  /** A second removal of the same topic does nothing. */
  lemma RemoveTwice(registry: Registry, topic: string, u1: Wire.Reply, d1: Wire.Reply, u2: Wire.Reply, d2: Wire.Reply,
                    getString: EH.StringRes -> string)
    ensures var first := RemoveSubscription(registry, topic, u1, d1, getString);
      var second := RemoveSubscription(first.registry, topic, u2, d2, getString);
      second == RemoveResult(first.registry, [], None)
  {
    var first := RemoveSubscription(registry, topic, u1, d1, getString);
    assert first.registry - {topic} == first.registry;
  }
}

=== FILE: event_runner.dfy ===
/** The Tasker event condition of `MQTTEventRunner`: a simpler topic matcher than
    `TopicUtils`, and the satisfied/unsatisfied decision built on it. */
module MQTTEventRunner {
  import opened Base
  import opened Text
  import TopicUtils

  /** An update delivered by the subscription callback (`MQTTEventUpdate`); the
      timestamp is not read by the condition and is left out. */
  datatype Update = Update(topic: string, payload: string)

  /** The event output handed to Tasker when the condition is satisfied. */
  datatype Output = Output(topic: string, message: string)

  datatype Condition = Unsatisfied | Satisfied(output: Output)

  /** One pair of levels passes when the subscribed level is `#`, `+` or equal to the
      published level. Here `#` stands for exactly one level, like `+`. */
  predicate LevelCompatible(sub: string, pub: string) {
    sub == "#" || sub == "+" || sub == pub
  }

  /** Kotlin `a.zip(b).all { ... }`: `zip` stops at the shorter list. */
  function ZipAll(sub: seq<string>, pub: seq<string>): bool {
    if |sub| == 0 || |pub| == 0 then true
    else LevelCompatible(sub[0], pub[0]) && ZipAll(sub[1..], pub[1..])
  }

  /** `isTopicMatch`: both strings are split on `/`, differing level counts fail,
      otherwise every zipped pair must be compatible. Nothing is validated. */
  function IsTopicMatch(subscribed: string, published: string): (r: bool)
    ensures r ==> |Split(subscribed, '/')| == |Split(published, '/')|
  {
    var subParts := Split(subscribed, '/');
    var pubParts := Split(published, '/');
    if |subParts| != |pubParts| then false else ZipAll(subParts, pubParts)
  }

  /** `getSatisfiedCondition`: satisfied with the update's own topic and payload when an
      update is present and its topic matches the configured one. */
  function GetSatisfiedCondition(configuredTopic: string, update: Option<Update>): (c: Condition)
    ensures update.None? ==> c == Unsatisfied
    ensures c.Satisfied? <==> update.Some? && IsTopicMatch(configuredTopic, update.value.topic)
    ensures c.Satisfied? ==> c.output == Output(update.value.topic, update.value.payload)
  {
    if update.Some? && IsTopicMatch(configuredTopic, update.value.topic) then
      Satisfied(Output(update.value.topic, update.value.payload))
    else
      Unsatisfied
  }

  /** The zipped `all` is the level-wise check over the common prefix. */
  lemma {:induction false} ZipAllSpec(sub: seq<string>, pub: seq<string>)
    ensures ZipAll(sub, pub) <==>
      forall i :: 0 <= i < |sub| && i < |pub| ==> LevelCompatible(sub[i], pub[i])
  {
    if |sub| > 0 && |pub| > 0 {
      ZipAllSpec(sub[1..], pub[1..]);
      if ZipAll(sub, pub) {
        forall i | 0 <= i < |sub| && i < |pub| ensures LevelCompatible(sub[i], pub[i]) {
          if i > 0 {
            assert sub[1..][i - 1] == sub[i] && pub[1..][i - 1] == pub[i];
          }
        }
      } else if LevelCompatible(sub[0], pub[0]) {
        var j :| 0 <= j < |sub| - 1 && j < |pub| - 1 && !LevelCompatible(sub[1..][j], pub[1..][j]);
        assert !LevelCompatible(sub[j + 1], pub[j + 1]);
      }
    }
  }

  /** The matcher as a statement: equal level counts and every level compatible. */
  lemma IsTopicMatchSpec(subscribed: string, published: string)
    ensures var s := Split(subscribed, '/');
      var p := Split(published, '/');
      IsTopicMatch(subscribed, published) <==>
        |s| == |p| && forall i :: 0 <= i < |s| ==> LevelCompatible(s[i], p[i])
  {
    ZipAllSpec(Split(subscribed, '/'), Split(published, '/'));
  }

  /** Every string matches itself, whether or not `TopicUtils` would accept it. */
  lemma IsTopicMatchReflexive(topic: string)
    ensures IsTopicMatch(topic, topic)
  {
    IsTopicMatchSpec(topic, topic);
  }

  /** `a//b` is rejected by `TopicUtils` but matches itself here. */
  lemma UnvalidatedSelfMatch()
    ensures IsTopicMatch("a" + "/" + "" + "/" + "b", "a" + "/" + "" + "/" + "b")
    ensures !TopicUtils.ValidateTopic("a" + "/" + "" + "/" + "b")
  {
    IsTopicMatchReflexive("a" + "/" + "" + "/" + "b");
    TopicUtils.EmptyLevelExamples();
  }

  /** `home/#` covers one level only: it matches `home/a` but not `home/a/b`, unlike
      `TopicUtils`, which matches both. */
  lemma HashIsOneLevel()
    ensures IsTopicMatch("home" + "/" + "#", "home" + "/" + "a")
    ensures !IsTopicMatch("home" + "/" + "#", "home" + "/" + "a" + "/" + "b")
    ensures TopicUtils.TopicMatchesPattern("home" + "/" + "#", "home" + "/" + "a" + "/" + "b")
  {
    SplitTwo("home", "#", '/');
    SplitTwo("home", "a", '/');
    SplitThree("home", "a", "b", '/');
    assert ZipAll(["home", "#"], ["home", "a"]) by {
      assert ["home", "#"][1..] == ["#"];
      assert ["home", "a"][1..] == ["a"];
    }
    TopicUtils.MatchTrailingHash(["home"], ["home", "a", "b"]);
    assert ["home"] + [TopicUtils.MultiLevelWildcard] == ["home", "#"];
  }

  /** The wildcard example of the receiver tests: `test/+/temp` against `test/room1/temp`
      is satisfied and reports the update unchanged. */
  lemma WildcardConditionExample()
    ensures GetSatisfiedCondition("test" + "/" + "+" + "/" + "temp",
              Some(Update("test" + "/" + "room1" + "/" + "temp", "25.5")))
         == Satisfied(Output("test" + "/" + "room1" + "/" + "temp", "25.5"))
  {
    SplitThree("test", "+", "temp", '/');
    SplitThree("test", "room1", "temp", '/');
    IsTopicMatchSpec("test" + "/" + "+" + "/" + "temp", "test" + "/" + "room1" + "/" + "temp");
  }

  /** Where the pattern has no `#` and both strings pass `TopicUtils.ValidateTopic`, this
      matcher and `TopicUtils.TopicMatchesPattern` agree. */
  lemma AgreesWithTopicUtilsWithoutHash(pattern: string, topic: string)
    requires '#' !in pattern
    requires TopicUtils.ValidateTopic(pattern) && TopicUtils.ValidateTopic(topic)
    ensures IsTopicMatch(pattern, topic) == TopicUtils.TopicMatchesPattern(pattern, topic)
  {
    var p := Split(pattern, '/');
    var t := Split(topic, '/');
    forall k | 0 <= k < |p| ensures p[k] != TopicUtils.MultiLevelWildcard {
      TopicUtils.SplitPartsContained(pattern, '/', k);
    }
    TopicUtils.MatchWithoutHash(p, t);
    IsTopicMatchSpec(pattern, topic);
    forall j | 0 <= j < |p| && j < |t|
      ensures LevelCompatible(p[j], t[j]) <==> TopicUtils.LevelMatches(p[j], t[j])
    {
    }
  }
}

=== FILE: mqtt_client.dfy ===
/** `MQTTClient`: a Paho wrapper with a backoff-scheduled reconnect, network-callback
    flags, a per-topic callback map and the server URI it connects to. Each public
    operation and each Paho or network callback is one event of a pure transition
    function. */
module MQTTClient {
  import opened Base
  import opened Text
  import Wire

  // ---------------------------------------------------------------------------
  // Retry delay
  // ---------------------------------------------------------------------------

  const BaseRetryDelay: int := 1000
  const MaxRetryDelay: int := 30000
  const LongMin: int := -0x8000_0000_0000_0000
  const LongMax: int := 0x7FFF_FFFF_FFFF_FFFF

  function Pow2(n: nat): (r: nat)
    ensures r >= 1
  {
    if n == 0 then 1 else 2 * Pow2(n - 1)
  }

  function Min(a: int, b: int): int {
    if a <= b then a else b
  }

  /** A mathematical integer reduced to a 64-bit two's-complement `Long`, as a `Long`
      multiplication does when it overflows. */
  function ToLong(x: int): (r: int)
    ensures LongMin <= r <= LongMax
    ensures LongMin <= x <= LongMax ==> r == x
    ensures (r - x) % 0x1_0000_0000_0000_0000 == 0
  {
    var m := x % 0x1_0000_0000_0000_0000;
    if m <= LongMax then m else m - 0x1_0000_0000_0000_0000
  }

  /** `2.0.pow(attempt).toLong()`: exact up to 2^62; from 2^63 on the `Double` no longer
      fits and `toLong` saturates at `Long.MAX_VALUE`. */
  function PowToLong(attempt: nat): (r: int)
    ensures attempt <= 62 ==> r == Pow2(attempt)
    ensures r <= LongMax
  {
    if attempt <= 62 then (Pow2Monotone(attempt, 62); Pow2Values(); Pow2(attempt)) else LongMax
  }

  /** `calculateRetryDelay` as written: the `Long` product wraps before `min` is taken. */
  function CalculateRetryDelayAsWritten(attempt: nat): int {
    Min(ToLong(BaseRetryDelay * PowToLong(attempt)), MaxRetryDelay)
  }

  /** The delay as evidently intended: `min(1000 * 2^attempt, 30000)` without overflow. */
  function CalculateRetryDelay(attempt: nat): (d: int)
    ensures BaseRetryDelay <= d <= MaxRetryDelay
  {
    Min(BaseRetryDelay * Pow2(attempt), MaxRetryDelay)
  }

  lemma {:induction false} Pow2Add(a: nat, b: nat)
    ensures Pow2(a + b) == Pow2(a) * Pow2(b)
  {
    if a > 0 {
      Pow2Add(a - 1, b);
    }
  }

  lemma {:induction false} Pow2Monotone(a: nat, b: nat)
    requires a <= b
    ensures Pow2(a) <= Pow2(b)
  {
    if a < b {
      Pow2Monotone(a, b - 1);
    }
  }

  lemma Pow2Values()
    ensures Pow2(4) == 16 && Pow2(5) == 32
    ensures Pow2(53) == 9007199254740992
    ensures Pow2(54) == 18014398509481984
    ensures Pow2(62) == 4611686018427387904
  {
    assert Pow2(10) == 1024;
    Pow2Add(10, 10);
    Pow2Add(20, 20);
    Pow2Add(40, 10);
    Pow2Add(50, 3);
    Pow2Add(53, 1);
    Pow2Add(54, 8);
  }

  /** The delay doubles from 1 s and is capped at 30 s from the fifth attempt on. */
  lemma RetryDelayValues(attempt: nat)
    ensures CalculateRetryDelay(0) == 1000
    ensures CalculateRetryDelay(4) == 16000
    ensures attempt >= 5 ==> CalculateRetryDelay(attempt) == MaxRetryDelay
  {
    Pow2Values();
    if attempt >= 5 {
      Pow2Monotone(5, attempt);
    }
  }

  /** The delay never shrinks as the attempt count grows. */
  lemma RetryDelayMonotone(a: nat, b: nat)
    requires a <= b
    ensures CalculateRetryDelay(a) <= CalculateRetryDelay(b)
  {
    Pow2Monotone(a, b);
  }

  /** As written and as intended agree while the product fits a `Long`: for every
      attempt up to 53. */
  lemma AsWrittenAgreesBelow54(attempt: nat)
    requires attempt <= 53
    ensures CalculateRetryDelayAsWritten(attempt) == CalculateRetryDelay(attempt)
  {
    Pow2Monotone(attempt, 53);
    Pow2Values();
  }

  /** At attempt 54 the product 1000 * 2^54 exceeds `Long.MAX_VALUE` and wraps to a
      negative number, so the "delay" is negative. */
  lemma AsWrittenNegativeAt54()
    ensures CalculateRetryDelayAsWritten(54) == -24 * Pow2(54)
    ensures CalculateRetryDelayAsWritten(54) < 0
  {
    Pow2Values();
  }

  // ---------------------------------------------------------------------------
  // Server URI
  // ---------------------------------------------------------------------------

  /** The constructor arguments the transitions read. The two flags record whether the
      optional `onConnectionLost` and `onMessageArrived` listeners were given. */
  datatype Config = Config(
    brokerUrl: string,
    port: int,
    clientId: string,
    useSsl: bool,
    hasOnConnectionLost: bool,
    hasOnMessageArrived: bool)

  predicate HasExplicitScheme(brokerUrl: string) {
    StartsWith(brokerUrl, "tcp://") || StartsWith(brokerUrl, "ssl://")
  }

  /** `buildServerURI`. `java.net.URI` is not modelled: `parseHost` gives the host of the
      text handed to it, or `None` where the constructor throws. */
  function BuildServerURI(cfg: Config, parseHost: string -> Option<string>): (r: Option<string>)
    ensures r.Some? ==> StartsWith(r.value, SchemeOf(cfg) + "://")
    ensures r.Some? ==> exists host :: r.value == SchemeOf(cfg) + "://" + host + ":" + ShowInt(cfg.port)
  {
    var text := if HasExplicitScheme(cfg.brokerUrl) then cfg.brokerUrl
                else (if cfg.useSsl then "ssl" else "tcp") + "://" + cfg.brokerUrl;
    match parseHost(text)
    case None => None
    case Some(host) =>
      var uri := SchemeOf(cfg) + "://" + host + ":" + ShowInt(cfg.port);
      assert uri[..|SchemeOf(cfg) + "://"|] == SchemeOf(cfg) + "://";
      Some(uri)
  }

  /** The URI scheme: an explicit `tcp://` or `ssl://` prefix wins over `useSsl`. */
  function SchemeOf(cfg: Config): (scheme: string)
    ensures scheme == "tcp" || scheme == "ssl"
    ensures !HasExplicitScheme(cfg.brokerUrl) ==> (scheme == "ssl" <==> cfg.useSsl)
    ensures StartsWith(cfg.brokerUrl, "tcp://") ==> scheme == "tcp"
    ensures StartsWith(cfg.brokerUrl, "ssl://") ==> scheme == "ssl"
  {
    if StartsWith(cfg.brokerUrl, "tcp://") then "tcp"
    else if StartsWith(cfg.brokerUrl, "ssl://") then "ssl"
    else if cfg.useSsl then "ssl" else "tcp"
  }

  /** A broker URL written as `tcp://...` connects over TCP even when SSL is requested. */
  lemma ExplicitSchemeOverridesSsl(cfg: Config, parseHost: string -> Option<string>)
    requires StartsWith(cfg.brokerUrl, "tcp://") && cfg.useSsl
    requires BuildServerURI(cfg, parseHost).Some?
    ensures StartsWith(BuildServerURI(cfg, parseHost).value, "tcp://")
  {
    var u := BuildServerURI(cfg, parseHost).value;
    assert u[..6] == (SchemeOf(cfg) + "://")[..6];
  }

  // ---------------------------------------------------------------------------
  // Session state
  // ---------------------------------------------------------------------------

  /** Callbacks are identified by an opaque id. */
  type CallbackId = nat

  /** `retryAttempts`, `isRetrying`, `pendingReconnect`, `_isConnected`, whether
      `mqttClient` is set, and `callbacks`. */
  datatype State = State(
    connected: bool,
    isRetrying: bool,
    pendingReconnect: bool,
    retryAttempts: nat,
    hasClient: bool,
    callbacks: map<string, CallbackId>)

  const Init: State := State(false, false, false, 0, false, map[])

  /** How Paho's `connect` answered: its listener's `onSuccess` ran, its `onFailure`
      ran, or the call itself threw before any listener could run. */
  datatype ConnectReply = Accepted | Refused | Threw

  datatype Event =
      /** `connect(username, password, useSsl, maxReconnectDelay)` and the broker's reply. */
    | Connect(username: Option<string>, password: Option<string>, useSsl: bool, maxReconnectDelay: int, connectReply: ConnectReply)
      /** The delayed `connect()` posted by `reconnect`, run with its default arguments. */
    | RetryFired(connectReply: ConnectReply)
    | ConnectionLost
    | MessageArrived(topic: string, payload: string)
    | Subscribe(topic: string, qos: int, callback: CallbackId, reply: Wire.Reply)
    | Unsubscribe(topic: string, reply: Wire.Reply)
    | Publish(topic: string, message: string, qos: int, retained: bool, reply: Wire.Reply)
    | Disconnect(reply: Wire.Reply)
    | NetworkAvailable
    | NetworkLost

  datatype Effect =
    | Call(call: Wire.Call)
    | InvokeCallback(callback: CallbackId, topic: string, payload: string)
    | NotifyMessageArrived(topic: string, payload: string)
    | NotifyConnectionLost
    | ScheduleConnect(delayMs: int)

  /** How the operation ended for its caller: normally, with the wrapper's own
      `MQTTException`, with the `java.net.URI` parse error, or with an exception Paho
      threw that reaches the caller as it is. */
  datatype Outcome = Completed | MQTTException(message: string) | InvalidUri | PahoException

  datatype StepResult = StepResult(state: State, effects: seq<Effect>, outcome: Outcome)

  function CountSchedules(effects: seq<Effect>): nat {
    if |effects| == 0 then 0
    else (if effects[0].ScheduleConnect? then 1 else 0) + CountSchedules(effects[1..])
  }

  lemma {:induction false} CountSchedulesAppend(a: seq<Effect>, b: seq<Effect>)
    ensures CountSchedules(a + b) == CountSchedules(a) + CountSchedules(b)
  {
    if |a| > 0 {
      CountSchedulesAppend(a[1..], b);
      assert (a + b)[0] == a[0];
      assert (a + b)[1..] == a[1..] + b;
    } else {
      assert a + b == b;
    }
  }

  /** The retry discipline every transition keeps: `retryAttempts` does not move,
      `isRetrying` and `pendingReconnect` are never cleared, a reconnect is scheduled
      only when none was before (and then `isRetrying` is set), and its delay is the
      one for the current attempt count. */
  predicate KeepsRetryDiscipline(s: State, r: StepResult) {
    && r.state.retryAttempts == s.retryAttempts
    && (s.isRetrying ==> r.state.isRetrying)
    && (s.pendingReconnect ==> r.state.pendingReconnect)
    && CountSchedules(r.effects) <= (if s.isRetrying then 0 else 1)
    && (CountSchedules(r.effects) > 0 ==> r.state.isRetrying)
    && (forall i :: 0 <= i < |r.effects| && r.effects[i].ScheduleConnect? ==>
          r.effects[i].delayMs == CalculateRetryDelay(s.retryAttempts))
  }

  /** `reconnect`: nothing while a retry is already scheduled; otherwise mark retrying
      and schedule one delayed connect. The other guard of the source, `client.isConnected`,
      asks a lazily built client that nothing ever connects, so it is always false. */
  function Reconnect(s: State): (r: StepResult)
    ensures s.isRetrying ==> r == StepResult(s, [], Completed)
    ensures !s.isRetrying ==> r.state == s.(isRetrying := true)
    ensures !s.isRetrying ==> r.effects == [ScheduleConnect(CalculateRetryDelay(s.retryAttempts))]
    ensures KeepsRetryDiscipline(s, r)
  {
    if s.isRetrying then StepResult(s, [], Completed)
    else StepResult(s.(isRetrying := true), [ScheduleConnect(CalculateRetryDelay(s.retryAttempts))], Completed)
  }

  /** Below 54 attempts the scheduled delay is exactly what the code's wrapping
      `calculateRetryDelay` returns. */
  lemma ReconnectMatchesCode(s: State)
    requires !s.isRetrying && s.retryAttempts <= 53
    ensures Reconnect(s).effects == [ScheduleConnect(CalculateRetryDelayAsWritten(s.retryAttempts))]
  {
    AsWrittenAgreesBelow54(s.retryAttempts);
  }

  /** The options `connect` builds: credentials only when both are non-empty. */
  function ConnectOptionsFor(username: Option<string>, password: Option<string>, useSsl: bool, maxReconnectDelay: int): (o: Wire.ConnectOptions)
    ensures o.userName.Some? <==>
      username.Some? && |username.value| > 0 && password.Some? && |password.value| > 0
    ensures o.userName.Some? ==> o.userName == username && o.password == password
    ensures o.cleanSession && o.automaticReconnect
  {
    var creds := username.Some? && |username.value| > 0 && password.Some? && |password.value| > 0;
    Wire.DefaultOptions.(
      userName := if creds then username else None,
      password := if creds then password else None,
      cleanSession := true,
      automaticReconnect := true,
      sslSocketFactory := useSsl,
      maxReconnectDelay := maxReconnectDelay)
  }

  /** The body of `connect`: build the URI, replace the client, connect. Only a failure
      reported to the listener is wrapped; a throw from the call is passed on as it is. */
  function ConnectStep(cfg: Config, parseHost: string -> Option<string>, s: State,
                       username: Option<string>, password: Option<string>, useSsl: bool,
                       maxReconnectDelay: int, reply: ConnectReply): (r: StepResult)
    ensures r.state.connected == (s.connected || (reply.Accepted? && r.outcome.Completed?))
    ensures r.outcome.Completed? <==> BuildServerURI(cfg, parseHost).Some? && reply.Accepted?
    ensures r.outcome.MQTTException? <==> BuildServerURI(cfg, parseHost).Some? && reply.Refused?
    ensures r.outcome.MQTTException? ==> r.outcome.message == "Failed to connect to broker"
    ensures r.outcome.PahoException? <==> BuildServerURI(cfg, parseHost).Some? && reply.Threw?
    ensures r.outcome.InvalidUri? <==> BuildServerURI(cfg, parseHost).None?
    ensures r.state.(connected := s.connected, hasClient := s.hasClient) == s
    ensures KeepsRetryDiscipline(s, r)
  {
    match BuildServerURI(cfg, parseHost)
    case None => StepResult(s, [], InvalidUri)
    case Some(uri) =>
      var call := Wire.Connect(uri, cfg.clientId, ConnectOptionsFor(username, password, useSsl, maxReconnectDelay));
      var s1 := s.(hasClient := true);
      match reply
      case Accepted => StepResult(s1.(connected := true), [Call(call)], Completed)
      case Refused => StepResult(s1, [Call(call)], MQTTException("Failed to connect to broker"))
      case Threw => StepResult(s1, [Call(call)], PahoException)
  }

  /** The `connectionLost` callback: tell the listener, clear the flag, and reconnect
      unless a retry is already scheduled. */
  function OnConnectionLost(cfg: Config, s: State): (r: StepResult)
    ensures KeepsRetryDiscipline(s, r)
    ensures s.hasClient ==> !r.state.connected
    ensures s.hasClient ==> (NotifyConnectionLost in r.effects <==> cfg.hasOnConnectionLost)
    ensures s.hasClient ==>
      (ScheduleConnect(CalculateRetryDelay(s.retryAttempts)) in r.effects <==> !s.isRetrying)
  {
    if !s.hasClient then StepResult(s, [], Completed)
    else
      var notify := if cfg.hasOnConnectionLost then [NotifyConnectionLost] else [];
      var lost := Reconnect(s.(connected := false));
      CountSchedulesAppend(notify, lost.effects);
      StepResult(lost.state, notify + lost.effects, Completed)
  }

  /** The `messageArrived` callback: the callback stored under exactly this topic, then
      the global listener. */
  function OnMessageArrived(cfg: Config, s: State, topic: string, payload: string): (r: StepResult)
    ensures r.state == s && r.outcome.Completed?
    ensures KeepsRetryDiscipline(s, r)
    ensures forall i :: 0 <= i < |r.effects| && r.effects[i].InvokeCallback? ==>
      topic in s.callbacks && r.effects[i] == InvokeCallback(s.callbacks[topic], topic, payload)
    ensures s.hasClient && topic in s.callbacks ==>
      |r.effects| > 0 && r.effects[0] == InvokeCallback(s.callbacks[topic], topic, payload)
  {
    if !s.hasClient then StepResult(s, [], Completed)
    else
      var own := if topic in s.callbacks then [InvokeCallback(s.callbacks[topic], topic, payload)] else [];
      var global := if cfg.hasOnMessageArrived then [NotifyMessageArrived(topic, payload)] else [];
      CountSchedulesAppend(own, global);
      StepResult(s, own + global, Completed)
  }

  /** `subscribe`: the callback is stored first; the wire call follows if there is a
      client, and its failure does not undo the store. */
  function OnSubscribe(s: State, topic: string, qos: int, callback: CallbackId, reply: Wire.Reply): (r: StepResult)
    ensures r.state == s.(callbacks := s.callbacks[topic := callback])
    ensures r.outcome.MQTTException? <==> s.hasClient && reply.Failed?
    ensures r.effects == if s.hasClient then [Call(Wire.Subscribe(topic, qos))] else []
    ensures KeepsRetryDiscipline(s, r)
  {
    var s1 := s.(callbacks := s.callbacks[topic := callback]);
    if !s.hasClient then StepResult(s1, [], Completed)
    else if reply.Succeeded? then StepResult(s1, [Call(Wire.Subscribe(topic, qos))], Completed)
    else StepResult(s1, [Call(Wire.Subscribe(topic, qos))], MQTTException("Failed to subscribe to topic: " + topic))
  }

  /** `unsubscribe`: the entry goes only once the wire call has completed (or when
      there is no client to call). */
  function OnUnsubscribe(s: State, topic: string, reply: Wire.Reply): (r: StepResult)
    ensures r.outcome.Completed? ==> r.state == s.(callbacks := s.callbacks - {topic})
    ensures r.outcome.MQTTException? <==> s.hasClient && reply.Failed?
    ensures r.outcome.MQTTException? ==> r.state == s
    ensures r.effects == if s.hasClient then [Call(Wire.Unsubscribe(topic))] else []
    ensures KeepsRetryDiscipline(s, r)
  {
    var s1 := s.(callbacks := s.callbacks - {topic});
    if !s.hasClient then StepResult(s1, [], Completed)
    else if reply.Succeeded? then StepResult(s1, [Call(Wire.Unsubscribe(topic))], Completed)
    else StepResult(s, [Call(Wire.Unsubscribe(topic))], MQTTException("Failed to unsubscribe from topic: " + topic))
  }

  /** `publish`: the message is built first, so a QoS outside 0..2 fails even without a
      client; otherwise one wire call if there is a client. No state changes. */
  function OnPublish(s: State, topic: string, message: string, qos: int, retained: bool, reply: Wire.Reply): (r: StepResult)
    ensures r.state == s
    ensures r.outcome.MQTTException? <==> !Wire.ValidQos(qos) || (s.hasClient && reply.Failed?)
    ensures r.outcome.MQTTException? ==> r.outcome.message == "Failed to publish message to topic: " + topic
    ensures r.effects == if s.hasClient && Wire.ValidQos(qos) then [Call(Wire.Publish(topic, message, qos, retained))] else []
    ensures KeepsRetryDiscipline(s, r)
  {
    if !Wire.ValidQos(qos) then StepResult(s, [], MQTTException("Failed to publish message to topic: " + topic))
    else if !s.hasClient then StepResult(s, [], Completed)
    else if reply.Succeeded? then StepResult(s, [Call(Wire.Publish(topic, message, qos, retained))], Completed)
    else StepResult(s, [Call(Wire.Publish(topic, message, qos, retained))], MQTTException("Failed to publish message to topic: " + topic))
  }

  /** `disconnect`: on success the client is dropped and `callbacks` emptied; the
      connected flag is left as it was. A failure changes nothing. */
  function OnDisconnect(s: State, reply: Wire.Reply): (r: StepResult)
    ensures r.state.connected == s.connected
    ensures r.outcome.Completed? ==> r.state == s.(hasClient := false, callbacks := map[])
    ensures r.outcome.MQTTException? <==> s.hasClient && reply.Failed?
    ensures r.outcome.MQTTException? ==> r.state == s
    ensures KeepsRetryDiscipline(s, r)
    ensures CountSchedules(r.effects) == 0
  {
    var cleared := s.(hasClient := false, callbacks := map[]);
    if !s.hasClient then StepResult(cleared, [], Completed)
    else if reply.Succeeded? then StepResult(cleared, [Call(Wire.Disconnect), Call(Wire.Close)], Completed)
    else StepResult(s, [Call(Wire.Disconnect)], MQTTException("Failed to disconnect from broker"))
  }

  /** The network callback's `onAvailable`: reconnect if a loss was seen. */
  function OnNetworkAvailable(s: State): (r: StepResult)
    ensures KeepsRetryDiscipline(s, r)
    ensures !s.pendingReconnect ==> r == StepResult(s, [], Completed)
    ensures s.pendingReconnect ==> r == Reconnect(s)
  {
    if s.pendingReconnect then Reconnect(s) else StepResult(s, [], Completed)
  }

  /** One event. A message or a lost connection can only come from a client that
      `connect` created, so they do nothing while there is none. */
  function Step(cfg: Config, parseHost: string -> Option<string>, s: State, e: Event): (r: StepResult)
    ensures KeepsRetryDiscipline(s, r)
    ensures e.Disconnect? ==> r.state.connected == s.connected
  {
    match e
    case Connect(username, password, useSsl, maxDelay, reply) =>
      ConnectStep(cfg, parseHost, s, username, password, useSsl, maxDelay, reply)
    case RetryFired(reply) =>
      ConnectStep(cfg, parseHost, s, None, None, false, 30000, reply)
    case ConnectionLost => OnConnectionLost(cfg, s)
    case MessageArrived(topic, payload) => OnMessageArrived(cfg, s, topic, payload)
    case Subscribe(topic, qos, callback, reply) => OnSubscribe(s, topic, qos, callback, reply)
    case Unsubscribe(topic, reply) => OnUnsubscribe(s, topic, reply)
    case Publish(topic, message, qos, retained, reply) => OnPublish(s, topic, message, qos, retained, reply)
    case Disconnect(reply) => OnDisconnect(s, reply)
    case NetworkAvailable => OnNetworkAvailable(s)
    case NetworkLost => StepResult(s.(pendingReconnect := true), [], Completed)
  }

  // ---------------------------------------------------------------------------
  // Runs
  // ---------------------------------------------------------------------------

  /** The state after a sequence of events, and every effect emitted on the way. */
  function Run(cfg: Config, parseHost: string -> Option<string>, s: State, events: seq<Event>): (r: (State, seq<Effect>))
    decreases |events|
  {
    if |events| == 0 then (s, [])
    else
      var step := Step(cfg, parseHost, s, events[0]);
      var rest := Run(cfg, parseHost, step.state, events[1..]);
      (rest.0, step.effects + rest.1)
  }

  /** `isRetrying` is never cleared, so at most one reconnect is ever scheduled per
      client instance, whatever happens. */
  lemma {:induction false} AtMostOneSchedule(cfg: Config, parseHost: string -> Option<string>, s: State, events: seq<Event>)
    ensures CountSchedules(Run(cfg, parseHost, s, events).1) <= (if s.isRetrying then 0 else 1)
    decreases |events|
  {
    if |events| > 0 {
      var step := Step(cfg, parseHost, s, events[0]);
      AtMostOneSchedule(cfg, parseHost, step.state, events[1..]);
      CountSchedulesAppend(step.effects, Run(cfg, parseHost, step.state, events[1..]).1);
    }
  }

  /** Nothing increments or resets `retryAttempts`, so a run keeps its value. */
  lemma {:induction false} RunKeepsRetryAttempts(cfg: Config, parseHost: string -> Option<string>, s: State, events: seq<Event>)
    ensures Run(cfg, parseHost, s, events).0.retryAttempts == s.retryAttempts
    decreases |events|
  {
    if |events| > 0 {
      RunKeepsRetryAttempts(cfg, parseHost, Step(cfg, parseHost, s, events[0]).state, events[1..]);
    }
  }

  /** Every reconnect scheduled in `effects` waits `delay` milliseconds. */
  predicate SchedulesWait(effects: seq<Effect>, delay: int) {
    forall i :: 0 <= i < |effects| && effects[i].ScheduleConnect? ==> effects[i].delayMs == delay
  }

  lemma SchedulesWaitAppend(a: seq<Effect>, b: seq<Effect>, delay: int)
    requires SchedulesWait(a, delay) && SchedulesWait(b, delay)
    ensures SchedulesWait(a + b, delay)
  {
    forall i | 0 <= i < |a + b| && (a + b)[i].ScheduleConnect?
      ensures (a + b)[i].delayMs == delay
    {
      if i < |a| {
        assert (a + b)[i] == a[i];
      } else {
        assert (a + b)[i] == b[i - |a|];
      }
    }
  }

  /** Every delay a run schedules is the delay for `s.retryAttempts`; from a fresh
      client that is always 1000 ms. */
  lemma {:induction false} ScheduledDelays(cfg: Config, parseHost: string -> Option<string>, s: State, events: seq<Event>)
    ensures SchedulesWait(Run(cfg, parseHost, s, events).1, CalculateRetryDelay(s.retryAttempts))
    decreases |events|
  {
    if |events| > 0 {
      var step := Step(cfg, parseHost, s, events[0]);
      assert KeepsRetryDiscipline(s, step);
      assert SchedulesWait(step.effects, CalculateRetryDelay(s.retryAttempts));
      ScheduledDelays(cfg, parseHost, step.state, events[1..]);
      var rest := Run(cfg, parseHost, step.state, events[1..]).1;
      SchedulesWaitAppend(step.effects, rest, CalculateRetryDelay(s.retryAttempts));
    }
  }

  /** While the attempt count is at most 53, every delay a run schedules is also the
      one the code's wrapping `calculateRetryDelay` gives. */
  lemma ScheduledDelaysMatchCode(cfg: Config, parseHost: string -> Option<string>, s: State, events: seq<Event>)
    requires s.retryAttempts <= 53
    ensures SchedulesWait(Run(cfg, parseHost, s, events).1, CalculateRetryDelayAsWritten(s.retryAttempts))
  {
    ScheduledDelays(cfg, parseHost, s, events);
    AsWrittenAgreesBelow54(s.retryAttempts);
  }

  lemma FreshClientDelaysAre1000(cfg: Config, parseHost: string -> Option<string>, events: seq<Event>)
    ensures SchedulesWait(Run(cfg, parseHost, Init, events).1, 1000)
  {
    ScheduledDelays(cfg, parseHost, Init, events);
    RetryDelayValues(0);
  }

  /** Once set, `isRetrying` and `pendingReconnect` stay set for the rest of a run. */
  lemma {:induction false} FlagsNeverCleared(cfg: Config, parseHost: string -> Option<string>, s: State, events: seq<Event>)
    ensures s.isRetrying ==> Run(cfg, parseHost, s, events).0.isRetrying
    ensures s.pendingReconnect ==> Run(cfg, parseHost, s, events).0.pendingReconnect
    decreases |events|
  {
    if |events| > 0 {
      FlagsNeverCleared(cfg, parseHost, Step(cfg, parseHost, s, events[0]).state, events[1..]);
    }
  }

  // ---------------------------------------------------------------------------
  // Single-event properties
  // ---------------------------------------------------------------------------

  /** `onLost` only raises `pendingReconnect`; `onAvailable` asks for a reconnect exactly
      when it is raised. */
  lemma NetworkCallbacks(cfg: Config, parseHost: string -> Option<string>, s: State)
    ensures Step(cfg, parseHost, s, NetworkLost).state == s.(pendingReconnect := true)
    ensures Step(cfg, parseHost, s, NetworkLost).effects == []
    ensures var r := Step(cfg, parseHost, s, NetworkAvailable);
      (r.effects != [] <==> s.pendingReconnect && !s.isRetrying)
      && (!s.pendingReconnect ==> r.state == s)
  {
  }

  /** A lost connection clears the flag, tells the listener, and schedules a reconnect
      unless one is already pending. */
  lemma ConnectionLostStep(cfg: Config, parseHost: string -> Option<string>, s: State)
    requires s.hasClient
    ensures var r := Step(cfg, parseHost, s, ConnectionLost);
      && !r.state.connected
      && (cfg.hasOnConnectionLost <==> NotifyConnectionLost in r.effects)
      && (ScheduleConnect(CalculateRetryDelay(s.retryAttempts)) in r.effects <==> !s.isRetrying)
  {
  }

  /** `disconnect` empties `callbacks` and drops the client on success, but never
      touches the connected flag; on failure nothing changes. */
  lemma DisconnectKeepsConnected(cfg: Config, parseHost: string -> Option<string>, s: State, reply: Wire.Reply)
    ensures var r := Step(cfg, parseHost, s, Disconnect(reply));
      && r.state.connected == s.connected
      && (r.outcome.Completed? ==> r.state.callbacks == map[] && !r.state.hasClient)
      && (r.outcome.MQTTException? ==> r.state == s)
  {
  }

  /** `subscribe` stores the callback before the wire call: the last registration wins,
      and a failed subscribe keeps it. */
  lemma SubscribeStoresFirst(cfg: Config, parseHost: string -> Option<string>, s: State, topic: string, qos: int, cb: CallbackId, reply: Wire.Reply)
    ensures var r := Step(cfg, parseHost, s, Subscribe(topic, qos, cb, reply));
      && r.state.callbacks == s.callbacks[topic := cb]
      && (r.outcome.MQTTException? <==> s.hasClient && reply.Failed?)
  {
  }

  /** `unsubscribe` removes the entry only once the wire call has completed. */
  lemma UnsubscribeAfterWire(cfg: Config, parseHost: string -> Option<string>, s: State, topic: string, reply: Wire.Reply)
    ensures var r := Step(cfg, parseHost, s, Unsubscribe(topic, reply));
      && (r.outcome.Completed? ==> r.state.callbacks == s.callbacks - {topic})
      && (r.outcome.MQTTException? ==> r.state == s)
  {
  }

  /** A message fires only the callback stored under exactly its topic, then the global
      listener. */
  lemma ExactKeyDispatch(cfg: Config, parseHost: string -> Option<string>, s: State, topic: string, payload: string)
    requires s.hasClient
    ensures var r := Step(cfg, parseHost, s, MessageArrived(topic, payload));
      && r.state == s
      && (forall i :: 0 <= i < |r.effects| && r.effects[i].InvokeCallback? ==>
            topic in s.callbacks && r.effects[i] == InvokeCallback(s.callbacks[topic], topic, payload))
      && (topic in s.callbacks ==> |r.effects| > 0 && r.effects[0] == InvokeCallback(s.callbacks[topic], topic, payload))
  {
  }

  /** A callback registered for the filter `a/+` is not run for a message on `a/b`:
      dispatch compares keys, not filters. */
  lemma WildcardKeyNotDispatched(cfg: Config, parseHost: string -> Option<string>, s: State, cb: CallbackId)
    requires s.hasClient && s.callbacks == map["a/+" := cb]
    ensures forall i :: 0 <= i < |Step(cfg, parseHost, s, MessageArrived("a/b", "x")).effects| ==>
      !Step(cfg, parseHost, s, MessageArrived("a/b", "x")).effects[i].InvokeCallback?
  {
    assert "a/b" != "a/+" by {
      assert "a/b"[2] != "a/+"[2];
    }
  }

  /** The scheduled retry connects with the constructor's URI but with no credentials
      and no SSL socket factory, since it calls `connect()` with default arguments. */
  lemma RetryUsesDefaults(cfg: Config, parseHost: string -> Option<string>, s: State, reply: ConnectReply)
    requires BuildServerURI(cfg, parseHost).Some?
    ensures var r := Step(cfg, parseHost, s, RetryFired(reply));
      && |r.effects| == 1 && r.effects[0].Call? && r.effects[0].call.Connect?
      && r.effects[0].call.options.userName == None
      && !r.effects[0].call.options.sslSocketFactory
  {
  }
}

=== FILE: mqtt_service.dfy ===
/** The foreground service of `com.cogwyrm.app.mqtt`: one Paho client, a connected
    flag, a message history trimmed on arrival, and a map of active subscriptions each
    holding its callback. Every operation is a suspended call that a Paho listener
    resumes. Publish, subscribe and disconnect made through a null client are never
    resumed at all, which the model reports as `Suspended`; unsubscribe is the
    exception, because its elvis branch resumes whenever the call yields null. */
module MqttPackageService {
  import opened Base
  import opened Text
  import Wire

  const MaxHistorySize: nat := 100

  /** Callbacks are identified by an opaque id; two ids are equal iff Kotlin's `!=`
      on the two lambdas would be false. */
  type CallbackId = nat

  /** `MessageRecord` without its timestamp. */
  datatype MessageRecord = MessageRecord(
    topic: string,
    message: string,
    qos: int,
    retained: bool,
    isIncoming: bool)

  /** `SubscriptionInfo` without its timestamp. */
  datatype SubscriptionInfo = SubscriptionInfo(topic: string, qos: int, callback: CallbackId)

  /** The arguments `connect` captured; the connection-lost handler of the client it
      builds reconnects with exactly these. */
  datatype ClientParams = ClientParams(
    brokerUrl: string,
    port: int,
    clientId: string,
    useSsl: bool,
    username: Option<string>,
    password: Option<string>)

  /** `_isConnected`, `mqttClient` (as the parameters it was built from),
      `messageHistory` and `activeSubscriptions`. */
  datatype State = State(
    connected: bool,
    client: Option<ClientParams>,
    history: seq<MessageRecord>,
    subscriptions: map<string, SubscriptionInfo>)

  const Init: State := State(false, None, [], map[])

  datatype Event =
      /** `connect(...)`; `millis` is the clock reading used for a missing client id. */
    | Connect(brokerUrl: string, port: int, clientId: Option<string>, useSsl: bool,
              username: Option<string>, password: Option<string>, millis: int, reply: Wire.Reply)
      /** The client's `connectionLost`, with the reply to the reconnect it launches. */
    | ConnectionLost(reply: Wire.Reply)
    | MessageArrived(topic: string, payload: string, qos: int, retained: bool)
    | Publish(topic: string, message: string, qos: int, retained: bool, reply: Wire.Reply)
    | Subscribe(topic: string, qos: int, callback: CallbackId, reply: Wire.Reply)
    | Unsubscribe(topic: string, reply: Wire.Reply)
    | Disconnect(reply: Wire.Reply)

  datatype Effect =
    | Call(call: Wire.Call)
    | InvokeCallback(callback: CallbackId, topic: string, payload: string)

  /** How the suspended call ended for its caller: resumed normally, resumed with an
      exception, or never resumed. */
  datatype Outcome = Resumed | Raised | Suspended

  datatype StepResult = StepResult(state: State, effects: seq<Effect>, outcome: Outcome)

  // ---------------------------------------------------------------------------
  // Connecting
  // ---------------------------------------------------------------------------

  /** A given client id is kept as it is (even an empty one); a missing one becomes
      `cogwyrm_` and the clock reading. */
  function FinalClientId(clientId: Option<string>, millis: int): (id: string)
    ensures clientId.Some? ==> id == clientId.value
    ensures clientId.None? ==> StartsWith(id, "cogwyrm_") && id[8..] == ShowInt(millis)
  {
    match clientId
    case Some(c) => c
    case None =>
      var id := "cogwyrm_" + ShowInt(millis);
      assert id[..8] == "cogwyrm_";
      id
  }

  /** Clean session, 30 s timeout, 60 s keep-alive, and credentials when both are
      present, even if empty. */
  function OptionsFor(username: Option<string>, password: Option<string>): (o: Wire.ConnectOptions)
    ensures o.userName.Some? <==> username.Some? && password.Some?
    ensures o.userName.Some? ==> o.userName == username && o.password == password
    ensures o.userName.None? ==> o.password.None?
    ensures o.cleanSession && o.connectionTimeout == 30 && o.keepAliveInterval == 60
    ensures !o.automaticReconnect && !o.sslSocketFactory
  {
    var creds := username.Some? && password.Some?;
    Wire.DefaultOptions.(
      userName := if creds then username else None,
      password := if creds then password else None,
      cleanSession := true,
      connectionTimeout := 30,
      keepAliveInterval := 60)
  }

  /** The wire call a client built from `p` makes to connect. */
  function ConnectCall(p: ClientParams): Wire.Call {
    Wire.Connect(Wire.ServerUri(p.brokerUrl, p.port, p.useSsl), p.clientId, OptionsFor(p.username, p.password))
  }

  /** Build a client from `p`, replace the old one, connect. The client is replaced
      before the outcome is known; only success touches the flag. */
  function ConnectWith(s: State, p: ClientParams, reply: Wire.Reply): (r: StepResult)
    ensures r.state.client == Some(p)
    ensures r.effects == [Call(ConnectCall(p))]
    ensures reply.Succeeded? ==> r.state.connected && r.outcome == Resumed
    ensures reply.Failed? ==> r.state.connected == s.connected && r.outcome == Raised
    ensures r.state.history == s.history && r.state.subscriptions == s.subscriptions
  {
    var s1 := s.(client := Some(p));
    if reply.Succeeded? then StepResult(s1.(connected := true), [Call(ConnectCall(p))], Resumed)
    else StepResult(s1, [Call(ConnectCall(p))], Raised)
  }

  // ---------------------------------------------------------------------------
  // Message history
  // ---------------------------------------------------------------------------

  /** `messageArrived`'s history update: append, then remove one oldest record if the
      history is now over the limit. */
  function AddIncoming(history: seq<MessageRecord>, rec: MessageRecord): (r: seq<MessageRecord>)
    ensures |r| > 0 && r[|r| - 1] == rec
    ensures |r| == if |history| >= MaxHistorySize then |history| else |history| + 1
    ensures |history| <= MaxHistorySize ==> |r| <= MaxHistorySize
    ensures |history| < MaxHistorySize ==> r == history + [rec]
    ensures |history| >= MaxHistorySize ==> r == history[1..] + [rec]
  {
    var h := history + [rec];
    if |h| > MaxHistorySize then
      assert h[1..] == history[1..] + [rec];
      h[1..]
    else h
  }

  /** The history after a burst of incoming messages. */
  function AddAllIncoming(history: seq<MessageRecord>, recs: seq<MessageRecord>): seq<MessageRecord>
    decreases |recs|
  {
    if |recs| == 0 then history
    else AddAllIncoming(AddIncoming(history, recs[0]), recs[1..])
  }

  /** From a history within the limit, incoming messages keep exactly the newest
      `MaxHistorySize` records, whatever their number. */
  lemma {:induction false} IncomingKeepsNewest(history: seq<MessageRecord>, recs: seq<MessageRecord>)
    requires |history| <= MaxHistorySize
    ensures AddAllIncoming(history, recs) == Last(history + recs, MaxHistorySize)
    decreases |recs|
  {
    if |recs| == 0 {
      assert history + recs == history;
    } else {
      var h1 := AddIncoming(history, recs[0]);
      IncomingKeepsNewest(h1, recs[1..]);
      assert h1 == Last(history + [recs[0]], MaxHistorySize);
      LastOfLastAppend(history + [recs[0]], recs[1..], MaxHistorySize);
      assert history + [recs[0]] + recs[1..] == history + recs;
    }
  }

  /** A successful publish appends without trimming: a full history grows past the
      limit, and an arrival after that does not bring it back. */
  lemma HistoryCanExceedLimit(s: State, topic: string, message: string, rec: MessageRecord)
    requires s.client.Some? && |s.history| == MaxHistorySize
    ensures |Step(s, Publish(topic, message, 0, false, Wire.Succeeded)).state.history| == MaxHistorySize + 1
    ensures var s1 := Step(s, Publish(topic, message, 0, false, Wire.Succeeded)).state;
      |Step(s1, MessageArrived(rec.topic, rec.message, rec.qos, rec.retained)).state.history| == MaxHistorySize + 1
  {
  }

  // ---------------------------------------------------------------------------
  // Subscriptions
  // ---------------------------------------------------------------------------

  /** The remapping `subscribe` passes to `compute`. The branch that builds a new entry
      for a different callback produces a value `apply` throws away, so an existing
      entry always survives as it is. */
  function ComputeSubscription(existing: Option<SubscriptionInfo>, topic: string, qos: int, callback: CallbackId): (r: SubscriptionInfo)
    ensures existing.Some? ==> r == existing.value
    ensures existing.None? ==> r == SubscriptionInfo(topic, qos, callback)
  {
    match existing
    case Some(info) => info
    case None => SubscriptionInfo(topic, qos, callback)
  }

  function Lookup(m: map<string, SubscriptionInfo>, k: string): Option<SubscriptionInfo> {
    if k in m then Some(m[k]) else None
  }

  // ---------------------------------------------------------------------------
  // Transitions
  // ---------------------------------------------------------------------------

  /** One event. Messages and lost connections come from the current client, so they
      do nothing while there is none. */
  function Step(s: State, e: Event): (r: StepResult)
    ensures Consistent(s) ==> Consistent(r.state)
    ensures r.outcome == Suspended <==> s.client.None? && (e.Publish? || e.Subscribe? || e.Disconnect?)
    ensures !e.Publish? && |s.history| <= MaxHistorySize ==> |r.state.history| <= MaxHistorySize
  {
    match e
    case Connect(brokerUrl, port, clientId, useSsl, username, password, millis, reply) =>
      ConnectWith(s, ClientParams(brokerUrl, port, FinalClientId(clientId, millis), useSsl, username, password), reply)
    case ConnectionLost(reply) =>
      if s.client.None? then StepResult(s, [], Resumed)
      else
        var r := ConnectWith(s.(connected := false), s.client.value, reply);
        r.(outcome := Resumed)
    case MessageArrived(topic, payload, qos, retained) =>
      if s.client.None? then StepResult(s, [], Resumed)
      else
        var h := AddIncoming(s.history, MessageRecord(topic, payload, qos, retained, true));
        var fx := if topic in s.subscriptions then [InvokeCallback(s.subscriptions[topic].callback, topic, payload)] else [];
        StepResult(s.(history := h), fx, Resumed)
    case Publish(topic, message, qos, retained, reply) =>
      if s.client.None? then StepResult(s, [], Suspended)
      // The message argument is built only once the safe call has a receiver.
      else if !Wire.ValidQos(qos) then StepResult(s, [], Raised)
      else
        var fx := [Call(Wire.Publish(topic, message, qos, retained))];
        if reply.Succeeded? then
          StepResult(s.(history := s.history + [MessageRecord(topic, message, qos, retained, false)]), fx, Resumed)
        else StepResult(s, fx, Raised)
    case Subscribe(topic, qos, callback, reply) =>
      var s1 := s.(subscriptions := s.subscriptions[topic := ComputeSubscription(Lookup(s.subscriptions, topic), topic, qos, callback)]);
      if s.client.None? then StepResult(s1, [], Suspended)
      else StepResult(s1, [Call(Wire.Subscribe(topic, qos))], if reply.Succeeded? then Resumed else Raised)
    case Unsubscribe(topic, reply) =>
      if topic !in s.subscriptions then StepResult(s, [], Resumed)
      else
        var s1 := s.(subscriptions := s.subscriptions - {topic});
        // With a null client the `let` block yields null, so the elvis resumes.
        if s.client.None? then StepResult(s1, [], Resumed)
        else StepResult(s1, [Call(Wire.Unsubscribe(topic))], if reply.Succeeded? then Resumed else Raised)
    case Disconnect(reply) =>
      if s.client.None? then StepResult(s, [], Suspended)
      else if reply.Succeeded? then
        StepResult(s.(connected := false, client := None, subscriptions := map[]), [Call(Wire.Disconnect)], Resumed)
      else StepResult(s, [Call(Wire.Disconnect)], Raised)
  }

  // ---------------------------------------------------------------------------
  // Properties
  // ---------------------------------------------------------------------------

  function Run(s: State, events: seq<Event>): State
    decreases |events|
  {
    if |events| == 0 then s else Run(Step(s, events[0]).state, events[1..])
  }

  /** The flag is set only while there is a client. */
  predicate Consistent(s: State) {
    s.connected ==> s.client.Some?
  }

  /** Every run keeps the flag tied to a client, and without a publish the history
      never grows beyond the limit. */
  lemma {:induction false} RunKeepsConsistent(s: State, events: seq<Event>)
    requires Consistent(s)
    ensures Consistent(Run(s, events))
    ensures (forall i :: 0 <= i < |events| ==> !events[i].Publish?) && |s.history| <= MaxHistorySize
      ==> |Run(s, events).history| <= MaxHistorySize
    decreases |events|
  {
    if |events| > 0 {
      var t := Step(s, events[0]).state;
      assert forall i :: 1 <= i < |events| ==> events[1..][i - 1] == events[i];
      RunKeepsConsistent(t, events[1..]);
    }
  }

  /** `connect` builds the URI from `useSsl`, keeps a given client id, and sets the
      flag exactly on success; a failure leaves the flag as it was. */
  lemma ConnectStep(s: State, brokerUrl: string, port: int, clientId: Option<string>, useSsl: bool,
                    username: Option<string>, password: Option<string>, millis: int, reply: Wire.Reply)
    ensures var r := Step(s, Connect(brokerUrl, port, clientId, useSsl, username, password, millis, reply));
      && |r.effects| == 1 && r.effects[0].Call? && r.effects[0].call.Connect?
      && (StartsWith(r.effects[0].call.serverUri, "ssl://") <==> useSsl)
      && (clientId.Some? ==> r.effects[0].call.clientId == clientId.value)
      && (clientId.None? ==> StartsWith(r.effects[0].call.clientId, "cogwyrm_"))
      && (r.state.connected <==> reply.Succeeded? || s.connected)
      && (r.outcome == Resumed <==> reply.Succeeded?)
  {
  }

  /** A lost connection clears the flag and at once reconnects with the captured
      parameters; only the reconnect's success sets the flag again. */
  lemma ConnectionLostReconnects(s: State, reply: Wire.Reply)
    requires s.client.Some?
    ensures var r := Step(s, ConnectionLost(reply));
      && r.effects == [Call(ConnectCall(s.client.value))]
      && r.state.client == s.client
      && (r.state.connected <==> reply.Succeeded?)
      && r.state.subscriptions == s.subscriptions && r.state.history == s.history
  {
  }

  /** An incoming message is recorded last, the history shrinks by nothing and grows
      by at most one, and only the callback under exactly its topic runs. */
  lemma MessageArrivedStep(s: State, topic: string, payload: string, qos: int, retained: bool)
    requires s.client.Some?
    ensures var r := Step(s, MessageArrived(topic, payload, qos, retained));
      && r.state.history[|r.state.history| - 1] == MessageRecord(topic, payload, qos, retained, true)
      && (|s.history| <= MaxHistorySize ==> |r.state.history| <= MaxHistorySize)
      && (topic in s.subscriptions <==> r.effects != [])
      && (topic in s.subscriptions ==>
            r.effects == [InvokeCallback(s.subscriptions[topic].callback, topic, payload)])
      && r.state.subscriptions == s.subscriptions && r.state.connected == s.connected
  {
  }

  /** A publish records an outgoing message only when it succeeds, a publish without a
      client never returns, and with a client a QoS outside 0..2 raises before any call. */
  lemma PublishStep(s: State, topic: string, message: string, qos: int, retained: bool, reply: Wire.Reply)
    ensures var r := Step(s, Publish(topic, message, qos, retained, reply));
      && (s.client.None? ==> r.outcome == Suspended && r.state == s)
      && (s.client.Some? && Wire.ValidQos(qos) && reply.Succeeded? ==>
            r.state.history == s.history + [MessageRecord(topic, message, qos, retained, false)]
            && r.outcome == Resumed)
      && (s.client.Some? && Wire.ValidQos(qos) ==> r.effects == [Call(Wire.Publish(topic, message, qos, retained))])
      && (s.client.Some? && !Wire.ValidQos(qos) ==> r == StepResult(s, [], Raised))
      && (reply.Failed? ==> r.state == s)
  {
  }

  /** A topic already in the map keeps its entry, callback included, even when a
      different callback is given; a new topic gets the given one. The map is written
      before the wire call and a failure does not undo it. */
  lemma SubscribeKeepsExisting(s: State, topic: string, qos: int, callback: CallbackId, reply: Wire.Reply)
    ensures var r := Step(s, Subscribe(topic, qos, callback, reply));
      && r.state.subscriptions.Keys == s.subscriptions.Keys + {topic}
      && (topic in s.subscriptions ==> r.state.subscriptions == s.subscriptions)
      && (topic !in s.subscriptions ==> r.state.subscriptions[topic] == SubscriptionInfo(topic, qos, callback))
      && (r.outcome == Raised <==> s.client.Some? && reply.Failed?)
  {
    if topic in s.subscriptions {
      assert s.subscriptions[topic := s.subscriptions[topic]] == s.subscriptions;
    }
  }

  /** An unregistered topic completes at once with no call; a registered one is
      removed before the call and stays removed when it fails. Without a client the
      call completes normally with no wire call; with one it raises exactly when the
      broker refuses. Nothing but the map changes. */
  lemma UnsubscribeRemovesFirst(s: State, topic: string, reply: Wire.Reply)
    ensures var r := Step(s, Unsubscribe(topic, reply));
      && (topic !in s.subscriptions ==> r == StepResult(s, [], Resumed))
      && (topic in s.subscriptions ==> r.state == s.(subscriptions := s.subscriptions - {topic}))
      && (topic in s.subscriptions && s.client.None? ==> r.effects == [] && r.outcome == Resumed)
      && (topic in s.subscriptions && s.client.Some? ==> r.effects == [Call(Wire.Unsubscribe(topic))])
      && (r.outcome == Raised <==> topic in s.subscriptions && s.client.Some? && reply.Failed?)
      && r.outcome != Suspended
  {
  }

  /** The sequence that reaches a registered topic with no client: subscribing before
      any connect keeps the entry, and unsubscribing it then completes normally. */
  lemma UnsubscribeWithoutClientResumes(cb: CallbackId, r1: Wire.Reply, r2: Wire.Reply)
    ensures var s := Step(Init, Subscribe("t", 0, cb, r1)).state;
      && "t" in s.subscriptions
      && Step(s, Unsubscribe("t", r2)) == StepResult(Init, [], Resumed)
  {
  }

  /** Success clears the flag, the client and the subscriptions; failure changes
      nothing; without a client the call never returns. */
  lemma DisconnectStep(s: State, reply: Wire.Reply)
    ensures var r := Step(s, Disconnect(reply));
      && (s.client.Some? && reply.Succeeded? ==>
            !r.state.connected && r.state.client.None? && r.state.subscriptions == map[]
            && r.state.history == s.history)
      && (reply.Failed? || s.client.None? ==> r.state == s)
      && (s.client.None? <==> r.outcome == Suspended)
  {
  }
}

=== FILE: tasker_action.dfy ===
/** The publish action of `MQTTTaskerAction.kt`: its own input record, the validity
    predicate, the runner and the configuration check. The runner publishes nothing: it
    only echoes the topic and payload of a valid input. */
module MQTTTaskerAction {
  import opened Base
  import opened Errors

  /** The `MQTTEventInput` declared in this file (with a `payload` and an `Int` port). */
  datatype ActionInput = ActionInput(
    brokerUrl: string,
    port: int,
    clientId: string,
    topic: string,
    payload: string,
    qos: int,
    useSsl: bool,
    username: Option<string>,
    password: Option<string>)

  /** The `MQTTEventOutput` declared in this file. */
  datatype ActionOutput = ActionOutput(topic: string, payload: string)

  const InvalidMqttConfiguration := "Invalid MQTT configuration"
  const InvalidInputConfiguration := "Invalid input configuration"

  /** `isValid`: non-empty broker, client id and topic, a port in 1..65535 and a QoS in
      0..2. The payload, SSL flag and credentials are not looked at. */
  predicate IsValid(i: ActionInput) {
    && |i.brokerUrl| > 0
    && 1 <= i.port <= 65535
    && |i.clientId| > 0
    && |i.topic| > 0
    && 0 <= i.qos <= 2
  }

  /** `run`: an error for invalid input, otherwise success echoing topic and payload. */
  function Run(i: ActionInput): (r: TaskerResult<ActionOutput>)
    ensures r.Success? <==> IsValid(i)
    ensures r.Success? ==> r.value.topic == i.topic && r.value.payload == i.payload
    ensures r.Error? ==> r.message == InvalidMqttConfiguration
  {
    if !IsValid(i) then Error(InvalidMqttConfiguration)
    else Success(ActionOutput(i.topic, i.payload))
  }

  /** `assignFromInput`: `Some` with the message of the exception it throws, `None` when
      it returns normally. */
  function AssignFromInput(i: ActionInput): (r: Option<string>)
    ensures r.None? <==> IsValid(i)
    ensures r.Some? ==> r.value == InvalidInputConfiguration
  {
    if !IsValid(i) then Some(InvalidInputConfiguration) else None
  }

  /** The configuration screen refuses exactly the inputs the runner would refuse. */
  lemma AssignAgreesWithRun(i: ActionInput)
    ensures AssignFromInput(i).Some? <==> Run(i).Error?
  {
  }

  /** The outcome of `run` depends only on the record's validity fields, topic and
      payload: SSL, credentials and the payload's content play no part in the decision. */
  lemma RunIgnoresConnectionDetails(i: ActionInput, useSsl: bool, username: Option<string>, password: Option<string>, payload: string)
    ensures Run(i.(useSsl := useSsl, username := username, password := password)) == Run(i)
    ensures Run(i.(payload := payload)).Success? == Run(i).Success?
  {
  }

  /** The two cases of the unit tests: a complete input succeeds and echoes its topic and
      payload; the same input with an empty broker URL fails. */
  lemma RunExamples()
    ensures var ok := ActionInput("test.mosquitto.org", 1883, "test-client", "test/topic",
                                  "Hello, MQTT!", 0, false, None, None);
      && Run(ok) == Success(ActionOutput("test/topic", "Hello, MQTT!"))
      && Run(ok.(brokerUrl := "")) == Error(InvalidMqttConfiguration)
  {
  }
}

=== FILE: topic_utils.dfy ===
/** Topic-filter validation and matching of `TopicUtils` (a partial take on section 4.7
    of OASIS MQTT 3.1.1, "Topic Names and Topic Filters"). */
module TopicUtils {
  import opened Text

  const SingleLevelWildcard: string := "+"
  const MultiLevelWildcard: string := "#"

  /** The rule `validateTopic` applies to level `i`, in the order of its `when` branches. */
  predicate LevelAccepted(levels: seq<string>, i: int)
    requires 0 <= i < |levels|
  {
    if |levels[i]| == 0 && i > 0 then false
    else if '#' in levels[i] then levels[i] == MultiLevelWildcard && i == |levels| - 1
    else if '+' in levels[i] then levels[i] == SingleLevelWildcard
    else true
  }

  /** `validateTopic`: non-empty, no U+0000, and every `/`-separated level accepted. */
  predicate ValidateTopic(topic: string) {
    && |topic| > 0
    && '\0' !in topic
    && var levels := Split(topic, '/');
       forall i :: 0 <= i < |levels| ==> LevelAccepted(levels, i)
  }

  /** Every wildcard character of `level` is the whole level. */
  predicate WildcardsStandAlone(level: string) {
    forall j :: 0 <= j < |level| && (level[j] == '#' || level[j] == '+') ==> level == [level[j]]
  }

  /** A level whose wildcard characters stand alone holds a `+` or `#` only as that
      whole level. */
  lemma StandAloneWildcards(level: string)
    requires WildcardsStandAlone(level)
    ensures '+' in level ==> level == "+"
    ensures '#' in level ==> level == "#"
  {
    if '+' in level {
      var j :| 0 <= j < |level| && level[j] == '+';
    }
    if '#' in level {
      var j :| 0 <= j < |level| && level[j] == '#';
    }
  }

  /** The shape of a valid topic's levels, stated over the whole list rather than
      level by level: only the first level may be empty, no level but the last holds a
      `#`, and every wildcard character stands alone in its level. */
  predicate WellShaped(levels: seq<string>) {
    && (forall i :: 0 < i < |levels| ==> levels[i] != [])
    && (forall i :: 0 <= i < |levels| - 1 ==> '#' !in levels[i])
    && (forall i :: 0 <= i < |levels| ==> WildcardsStandAlone(levels[i]))
  }

  lemma LevelAcceptedShape(levels: seq<string>, i: int)
    requires 0 <= i < |levels|
    ensures LevelAccepted(levels, i) <==>
      && (i > 0 ==> levels[i] != [])
      && (i < |levels| - 1 ==> '#' !in levels[i])
      && WildcardsStandAlone(levels[i])
  {
    var l := levels[i];
    if '#' in l && l != "#" {
      var j :| 0 <= j < |l| && l[j] == '#';
      assert l != [l[j]];
    } else if '#' !in l && '+' in l && l != "+" {
      var j :| 0 <= j < |l| && l[j] == '+';
      assert l != [l[j]];
    }
  }

  /** A non-empty topic without U+0000 is valid exactly when its levels are well shaped. */
  lemma ValidTopicShape(topic: string)
    ensures ValidateTopic(topic) <==> |topic| > 0 && '\0' !in topic && WellShaped(Split(topic, '/'))
  {
    var levels := Split(topic, '/');
    forall i | 0 <= i < |levels| {
      LevelAcceptedShape(levels, i);
    }
  }

  // ---------------------------------------------------------------------------
  // Matching
  // ---------------------------------------------------------------------------

  /** The loop of `matchLevels` from position `i`. The source keeps a pattern index and a
      topic index, but every branch that continues advances both, so they are always equal. */
  function MatchFrom(p: seq<string>, t: seq<string>, i: nat): bool
    requires i <= |p| && i <= |t|
    decreases |p| - i
  {
    if i < |p| && i < |t| then
      if p[i] == MultiLevelWildcard then true
      else if p[i] == SingleLevelWildcard then MatchFrom(p, t, i + 1)
      else if p[i] == t[i] then MatchFrom(p, t, i + 1)
      else false
    else i == |p| && i == |t|
  }

  /** `matchLevels`. */
  function MatchLevels(p: seq<string>, t: seq<string>): bool {
    MatchFrom(p, t, 0)
  }

  /** `topicMatchesPattern`: both strings must pass `validateTopic`, then the levels are matched. */
  predicate TopicMatchesPattern(pattern: string, topic: string)
    ensures TopicMatchesPattern(pattern, topic) ==> ValidateTopic(pattern) && ValidateTopic(topic)
  {
    ValidateTopic(pattern) && ValidateTopic(topic) && MatchLevels(Split(pattern, '/'), Split(topic, '/'))
  }

  // ---------------------------------------------------------------------------
  // Declarative reading of the matcher
  // ---------------------------------------------------------------------------

  /** One pattern level accepts one topic level: `+` accepts anything, any other level
      only an identical (case-sensitive) level. */
  predicate LevelMatches(patternLevel: string, topicLevel: string) {
    patternLevel == SingleLevelWildcard || patternLevel == topicLevel
  }

  /** Levels `lo` up to (not including) `hi` match pairwise. */
  ghost predicate RangeMatches(p: seq<string>, t: seq<string>, lo: nat, hi: nat)
    requires lo <= hi <= |p| && hi <= |t|
  {
    forall j :: lo <= j < hi ==> LevelMatches(p[j], t[j])
  }

  /** Matching from `i` on: a `#` reached while a topic level remains after a matching
      stretch, or both level lists ending together after a matching stretch. */
  ghost predicate MatchSpecFrom(p: seq<string>, t: seq<string>, i: nat)
    requires i <= |p| && i <= |t|
  {
    || (exists k :: i <= k < |p| && k < |t| && p[k] == MultiLevelWildcard && RangeMatches(p, t, i, k))
    || (|p| == |t| && RangeMatches(p, t, i, |p|))
  }

  /** The declarative meaning of a pattern match over whole level lists. */
  ghost predicate LevelsMatchSpec(p: seq<string>, t: seq<string>) {
    || (exists k :: 0 <= k < |p| && k < |t| && p[k] == MultiLevelWildcard && RangeMatches(p, t, 0, k))
    || (|p| == |t| && RangeMatches(p, t, 0, |p|))
  }

  lemma {:induction false} MatchFromSpec(p: seq<string>, t: seq<string>, i: nat)
    requires i <= |p| && i <= |t|
    ensures MatchFrom(p, t, i) <==> MatchSpecFrom(p, t, i)
    decreases |p| - i
  {
    if i < |p| && i < |t| {
      if p[i] == MultiLevelWildcard {
        assert RangeMatches(p, t, i, i);
      } else if LevelMatches(p[i], t[i]) {
        MatchFromSpec(p, t, i + 1);
        if MatchSpecFrom(p, t, i + 1) {
          if k :| i + 1 <= k < |p| && k < |t| && p[k] == MultiLevelWildcard && RangeMatches(p, t, i + 1, k) {
            assert RangeMatches(p, t, i, k);
          }
        }
        if MatchSpecFrom(p, t, i) {
          if k :| i <= k < |p| && k < |t| && p[k] == MultiLevelWildcard && RangeMatches(p, t, i, k) {
            assert k != i;
            assert RangeMatches(p, t, i + 1, k);
          }
        }
      } else {
        assert !LevelMatches(p[i], t[i]);
        forall k | i <= k < |p| && k < |t| && p[k] == MultiLevelWildcard
          ensures !RangeMatches(p, t, i, k)
        {
          assert k != i;
        }
      }
    }
  }

  /** `matchLevels` means exactly `LevelsMatchSpec`. */
  lemma MatchLevelsSpec(p: seq<string>, t: seq<string>)
    ensures MatchLevels(p, t) <==> LevelsMatchSpec(p, t)
  {
    MatchFromSpec(p, t, 0);
  }

  /** Every level list matches itself: literal levels are equal and a `#` is reached with
      a topic level still remaining. */
  lemma MatchLevelsReflexive(levels: seq<string>)
    ensures MatchLevels(levels, levels)
  {
    MatchLevelsSpec(levels, levels);
    assert RangeMatches(levels, levels, 0, |levels|);
  }

  /** Without a `#` level in the pattern, a match needs equally many levels, each pair matching. */
  lemma MatchWithoutHash(p: seq<string>, t: seq<string>)
    requires forall k :: 0 <= k < |p| ==> p[k] != MultiLevelWildcard
    ensures MatchLevels(p, t) <==> |p| == |t| && forall j :: 0 <= j < |p| ==> LevelMatches(p[j], t[j])
  {
    MatchLevelsSpec(p, t);
  }

  /** A trailing `#` needs at least one topic level beyond the matched prefix: `a/#` matches
      `a/b/c` but not `a`. */
  lemma MatchTrailingHash(q: seq<string>, t: seq<string>)
    requires forall k :: 0 <= k < |q| ==> q[k] != MultiLevelWildcard
    ensures MatchLevels(q + [MultiLevelWildcard], t) <==>
      |t| > |q| && forall j :: 0 <= j < |q| ==> LevelMatches(q[j], t[j])
  {
    var p := q + [MultiLevelWildcard];
    MatchLevelsSpec(p, t);
    if |t| > |q| && forall j :: 0 <= j < |q| ==> LevelMatches(q[j], t[j]) {
      assert RangeMatches(p, t, 0, |q|);
    }
    if LevelsMatchSpec(p, t) {
      var k :| 0 <= k < |p| && k < |t| && p[k] == MultiLevelWildcard && RangeMatches(p, t, 0, k);
      assert k == |q|;
    }
  }

  // ---------------------------------------------------------------------------
  // Properties of `topicMatchesPattern`
  // ---------------------------------------------------------------------------

  /** A topic matches itself exactly when it is valid. */
  lemma TopicMatchesItself(topic: string)
    ensures TopicMatchesPattern(topic, topic) == ValidateTopic(topic)
  {
    MatchLevelsReflexive(Split(topic, '/'));
  }

  /** A pattern without `#` matches only topics with as many levels. */
  lemma NoHashSameLevelCount(pattern: string, topic: string)
    requires '#' !in pattern
    requires TopicMatchesPattern(pattern, topic)
    ensures |Split(pattern, '/')| == |Split(topic, '/')|
  {
    var p := Split(pattern, '/');
    forall k | 0 <= k < |p| ensures p[k] != MultiLevelWildcard {
      SplitPartsContained(pattern, '/', k);
    }
    MatchWithoutHash(p, Split(topic, '/'));
  }

  /** A character of a split part is a character of the whole string. */
  lemma {:induction false} SplitPartsContained(s: string, sep: char, k: int)
    requires 0 <= k < |Split(s, sep)|
    ensures forall c :: c in Split(s, sep)[k] ==> c in s
  {
    if |s| > 0 {
      var rest := Split(s[1..], sep);
      if s[0] == sep {
        if k > 0 {
          SplitPartsContained(s[1..], sep, k - 1);
        }
      } else if k == 0 {
        SplitPartsContained(s[1..], sep, 0);
      } else {
        SplitPartsContained(s[1..], sep, k);
      }
    }
  }

  /** The empty string and zero-length levels after the first are rejected; a leading
      empty level is accepted. */
  lemma EmptyLevelExamples()
    ensures !ValidateTopic("")
    ensures !ValidateTopic("a" + "/" + "" + "/" + "b") && !ValidateTopic("a/") && !ValidateTopic("/")
    ensures ValidateTopic("/a")
  {
    SplitThree("a", "", "b", '/');
    assert !LevelAccepted(Split("a" + "/" + "" + "/" + "b", '/'), 1);
    SplitTwo("a", "", '/');
    assert "a/" == "a" + "/" + "";
    assert !LevelAccepted(Split("a/", '/'), 1);
    SplitTwo("", "", '/');
    assert "/" == "" + "/" + "";
    assert !LevelAccepted(Split("/", '/'), 1);
    SplitTwo("", "a", '/');
    assert "/a" == "" + "/" + "a";
  }

  /** `#` passes only as the whole last level (the wildcard tests of the event configuration). */
  lemma HashExamples()
    ensures ValidateTopic("a" + "/" + "#") && ValidateTopic("test" + "/" + "#")
    ensures !ValidateTopic("a" + "/" + "#" + "/" + "b") && !ValidateTopic("a" + "/" + "b#") && !ValidateTopic("test" + "/" + "#" + "/" + "temp")
  {
    SplitTwo("a", "#", '/');
    SplitTwo("test", "#", '/');
    SplitThree("a", "#", "b", '/');
    assert !LevelAccepted(Split("a" + "/" + "#" + "/" + "b", '/'), 1);
    SplitTwo("a", "b#", '/');
    assert !LevelAccepted(Split("a" + "/" + "b#", '/'), 1);
    SplitThree("test", "#", "temp", '/');
    assert !LevelAccepted(Split("test" + "/" + "#" + "/" + "temp", '/'), 1);
  }

  /** `+` passes only as a whole level. */
  lemma PlusExamples()
    ensures ValidateTopic("a" + "/" + "+" + "/" + "b") && ValidateTopic("test" + "/" + "+" + "/" + "temp")
    ensures !ValidateTopic("++") && !ValidateTopic("a+")
  {
    SplitThree("a", "+", "b", '/');
    SplitThree("test", "+", "temp", '/');
    SplitWithoutSeparator("++", '/');
    assert !LevelAccepted(Split("++", '/'), 0);
    SplitWithoutSeparator("a+", '/');
    assert !LevelAccepted(Split("a+", '/'), 0);
  }

  /** The first matching example of the `TopicUtils` documentation: `+` takes one level. */
  lemma DocPlusExample()
    ensures TopicMatchesPattern("home" + "/" + "+" + "/" + "temperature", "home" + "/" + "kitchen" + "/" + "temperature")
  {
    var p := "home" + "/" + "+" + "/" + "temperature";
    var t := "home" + "/" + "kitchen" + "/" + "temperature";
    SplitThree("home", "+", "temperature", '/');
    SplitThree("home", "kitchen", "temperature", '/');
    assert ValidateTopic(p);
    assert ValidateTopic(t);
    MatchWithoutHash(["home", "+", "temperature"], ["home", "kitchen", "temperature"]);
    assert MatchLevels(Split(p, '/'), Split(t, '/'));
  }

  /** The second matching example of the `TopicUtils` documentation: `#` takes the rest. */
  lemma DocHashExample()
    ensures TopicMatchesPattern("home" + "/" + "#", "home" + "/" + "kitchen" + "/" + "temperature")
  {
    SplitThree("home", "kitchen", "temperature", '/');
    SplitTwo("home", "#", '/');
    MatchTrailingHash(["home"], ["home", "kitchen", "temperature"]);
    assert ["home"] + [MultiLevelWildcard] == ["home", "#"];
  }

  /** Literal levels compare case-sensitively, and `+` does not stand for a differing
      last level. */
  lemma MismatchExamples()
    ensures !TopicMatchesPattern("home" + "/" + "+" + "/" + "temperature", "home" + "/" + "kitchen" + "/" + "humidity")
    ensures !TopicMatchesPattern("home" + "/" + "+", "Home" + "/" + "kitchen")
  {
    SplitThree("home", "+", "temperature", '/');
    SplitThree("home", "kitchen", "humidity", '/');
    MatchWithoutHash(["home", "+", "temperature"], ["home", "kitchen", "humidity"]);
    assert !LevelMatches("temperature", "humidity");
    SplitTwo("home", "+", '/');
    SplitTwo("Home", "kitchen", '/');
    MatchWithoutHash(["home", "+"], ["Home", "kitchen"]);
    assert !LevelMatches("home", "Home");
  }

  /** `a/#` matches `a/b/c` but not its parent `a`, although section 4.7.1.2 of MQTT 3.1.1
      says `#` also matches the parent level. */
  lemma HashParentExamples()
    ensures TopicMatchesPattern("a" + "/" + "#", "a" + "/" + "b" + "/" + "c")
    ensures ValidateTopic("a") && ValidateTopic("a" + "/" + "#") && !TopicMatchesPattern("a" + "/" + "#", "a")
  {
    SplitTwo("a", "#", '/');
    SplitThree("a", "b", "c", '/');
    MatchTrailingHash(["a"], ["a", "b", "c"]);
    SplitWithoutSeparator("a", '/');
    MatchTrailingHash(["a"], ["a"]);
    assert ["a"] + [MultiLevelWildcard] == ["a", "#"];
  }

  /** Wildcards match `$`-prefixed topics, although section 4.7.2 of MQTT 3.1.1 says a
      filter starting with a wildcard must not match a topic starting with `$`. */
  lemma DollarTopicExamples()
    ensures TopicMatchesPattern("#", "$SYS" + "/" + "broker")
    ensures TopicMatchesPattern("+" + "/" + "broker", "$SYS" + "/" + "broker")
  {
    SplitWithoutSeparator("#", '/');
    SplitTwo("$SYS", "broker", '/');
    SplitTwo("+", "broker", '/');
    MatchTrailingHash([], ["$SYS", "broker"]);
    MatchWithoutHash(["+", "broker"], ["$SYS", "broker"]);
  }
}

=== FILE: wire.dfy ===
/** The calls the session code makes on a Paho client, recorded as effects. Whether a
    call succeeds is not decided here: it reaches the state machines as a parameter of
    the event that triggered it. */
module Wire {
  import opened Base
  import opened Text

  /** The subset of Paho `MqttConnectOptions` the code sets. */
  datatype ConnectOptions = ConnectOptions(
    userName: Option<string>,
    password: Option<string>,
    cleanSession: bool,
    automaticReconnect: bool,
    sslSocketFactory: bool,
    keepAliveInterval: int,
    connectionTimeout: int,
    maxReconnectDelay: int)

  /** `MqttConnectOptions()` as constructed, before any setter runs: no credentials, a
      clean session, no automatic reconnect, keep-alive 60 s, timeout 30 s and a maximum
      reconnect delay of 128 s. */
  const DefaultOptions: ConnectOptions :=
    ConnectOptions(None, None, true, false, false, 60, 30, 128000)

  datatype Call =
    | Connect(serverUri: string, clientId: string, options: ConnectOptions)
    | Disconnect
    | Close
    | Subscribe(topic: string, qos: int)
    | Unsubscribe(topic: string)
    | Publish(topic: string, payload: string, qos: int, retained: bool)

  /** The Paho server URI `scheme://host:port`, with the scheme chosen by `useSsl`. */
  function ServerUri(brokerUrl: string, port: int, useSsl: bool): (uri: string)
    ensures StartsWith(uri, "ssl://") <==> useSsl
    ensures StartsWith(uri, "tcp://") <==> !useSsl
    ensures uri[6..] == brokerUrl + ":" + ShowInt(port)
  {
    var scheme := if useSsl then "ssl://" else "tcp://";
    var rest := brokerUrl + ":" + ShowInt(port);
    var uri := scheme + rest;
    assert uri[..6] == scheme;
    assert uri[6..] == rest;
    assert "ssl://"[0] != "tcp://"[0];
    uri
  }

  /** The QoS levels Paho's `MqttMessage.setQos` accepts; any other value makes it throw
      `IllegalArgumentException` before the message reaches a client. */
  predicate ValidQos(qos: int) {
    0 <= qos <= 2
  }

  /** How a Paho call ended: it completed, or it reported failure (through `onFailure`
      or by throwing). */
  datatype Reply = Succeeded | Failed
}
